=== FILE: README.md ===
# rolland rail FDM pipeline in Dafny

This project models the core of *rolland*. rolland computes the vertical deflection of a
railway track under an impulse excitation with the finite-difference scheme of Stampka. The
model covers the whole pipeline:

- **Arrangements** (`PeriodicArrangement`, `RandomArrangement`, and the older
  `PeriodicArrangment`/`StochasticArrangement`) generate pads, sleepers and mount distances.
- **Tracks** turn arrangements into a mount dictionary `mount_prop` (position -> (pad,
  sleeper, ballast)) and a track length `l_track`. The older `src/track.py` layouts are
  modelled too.
- **The grid** (`GridFDMStampka`, `calc_grid`) aligns the spatial step to the 0.6 m sleeper
  spacing and fixes `nt`, `sim_t`, `dx` and `nx`.
- **The boundary** (`PMLStampka`, `calc_bound`) adds a damping ramp that grows with the
  seventh power of the distance into the absorbing layer at both ends of the rail.
- **The excitation** (`GaussianImpulse`) is a Gaussian-derivative force pulse sampled on
  `linspace(0, sim_t, nt)`.
- **The discretization** (`DiscretizationEBBVerticConst`) builds the property vectors and the
  block matrices A, B, C of the two-layer (rail / support) system.
- **The deflection** (`DeflectionFDMStampka`) runs the three-level time stepping
  A u(t+1) = B u(t) + C u(t-1) + dt²/(mr·dx)·f(t).

Modules:

| module | content |
|---|---|
| `Outcomes` | `Result` (value, a raised Python exception, or a loop that never ends) and `Option` |
| `Numerics` | Python `int()` truncation, powers, sums, `numpy.linspace`, numpy negative indexing |
| `PyDict` | an insertion-ordered Python dict with `d[k] = v` and `max(d.keys())` |
| `Arrangement`, `LegacyArrangement` | the arrangement generators |
| `Track`, `LegacyTrack` | the track classes and their mount layouts |
| `Grid` | grid parameters |
| `Boundary` | the PML damping ramp |
| `Excitation` | the force pulse |
| `Matrices` | `build_matrix`: the fourth-difference stencil and the nine blocks per matrix |
| `Discretization` | the property vectors, the boundary conditions and the whole constructor |
| `Deflection` | start values, right-hand side, time loop |

Python floats are modelled as exact reals. The Python and numpy operations that matter are
written out:

- `int()` truncates toward zero.
- `//` on floats is the floor.
- numpy accepts negative indices.
- Dividing a Python float by zero raises `ZeroDivisionError`.
- `len()` of a float, or indexing one, raises `TypeError`.
- scipy's `truncnorm(...).rvs` raises `ValueError` for a negative scale or for standardised
  bounds with a >= b.
- A failed numpy broadcast raises `ValueError`.
- Python generators are sequences of yielded values plus what the generator does after the
  last one: stop, raise, or never return. This makes the lazy, left-to-right behaviour of
  `zip` exact.

Two numerical factors are parameters:

- The positive factor `((E·Iyr)/(6·mr))^(1/4)·dt^(1/2)` of `calc_grid`.
- The exponential of the pulse.

The sparse LU solve is a parameter `solve`. It is constrained to return a vector of the right
length, and for the scheme lemmas also to invert A.

## Model

| member | source | states |
|---|---|---|
| Arrangement.PeriodicGenerate | rolland/arrangement.py:71-81 | with num_mount <= 0 nothing is yielded; a single item is yielded num_mount times; a non-empty list is yielded as whole passes, so the k-th value is item[k mod len] and the count is a whole number of periods, at least num_mount and less than num_mount plus one period; an empty list never leaves the while loop |
| Arrangement.RunLoop | rolland/arrangement.py:74-81 | the while loop ends on the first multiple of the period that reaches num_mount, and every value it has yielded follows the cyclic pattern |
| Arrangement.PassesAreCyclic | rolland/arrangement.py:74-81 | after k passes of the loop the counter is k·period and the output is k full periods of the list in order |
| Arrangement.EmptyListNeverExits | rolland/arrangement.py:74-81 | with an empty list no pass ever advances the counter, so the loop condition c < num_mount holds forever |
| Arrangement.RandomGenerate | rolland/arrangement.py:119-125 | exactly num_mount values for num_mount >= 1, each the drawn list element (or the single item); nothing for num_mount <= 0; an empty list raises IndexError |
| Arrangement.Generate | rolland/arrangement.py:71-125 | every generated value comes from the arrangement's item; the generator stops normally iff num_mount <= 0 or the item can yield; when it stops it has yielded at least num_mount values |
| LegacyArrangement.PeriodicArrangmentGenerate | src/arrangement.py:22-31 | the older periodic generator: the same cyclic pattern in whole passes, and no exit for an empty list |
| LegacyArrangement.StochasticGenerate | src/arrangement.py:40-45 | the older random generator: num_mount drawn elements, and IndexError for an empty list |
| PyDict.Put | rolland/track.py:238 | `d[k] = v`: k becomes a key mapped to v, other keys keep their values, an existing key keeps its place, a new key is appended |
| PyDict.MaxKey | rolland/track.py:239 | `max(d.keys())`: the largest key, or ValueError on an empty dict |
| PyDict.Fill | rolland/track.py:236-238 | writing a sequence of positions into a dict: the keys are the old keys plus the positions, untouched keys keep their values, and a repeated position holds the value of its last write |
| Track.Positions | rolland/track.py:323-327 | the Decimal accumulator: the first mount sits at 0 and each next one at the previous position plus its distance |
| Track.PositionsIncreasing | rolland/track.py:323-327 | with positive distances the positions strictly increase |
| Track.SimplePeriodicSlabMountProp | rolland/track.py:233-239 | mount_prop is cleared and holds exactly the positions i·distance for i < num_mount, each with (pad, None, None); l_track is the largest of these keys, which is (num_mount-1)·distance when the distance is non-negative; num_mount <= 0 makes max() raise ValueError |
| Track.SimplePeriodicBallastedMountProp | rolland/track.py:516-523 | the same positions with (pad, sleeper, ballast), but the old keys survive because mount_prop is not cleared, and an old entry at a position not rewritten keeps its old value; l_track is the largest of old and new keys; ValueError iff both are empty |
| Track.PlaceMounts | rolland/track.py:323-328 | the loop shared by the arranged tracks: a hanging zip hangs, a raising zip raises; otherwise the keys are the old keys plus the accumulated positions, a position holds the mount of its last write, and l_track is the largest key |
| Track.PlaceMountsLayout | rolland/track.py:323-328 | on a fresh dict with positive distances: one entry per mount in zip order at strictly increasing positions from 0, and l_track is the last position |
| Track.PlaceMountsFrom | rolland/track.py:323-328 | on a fresh dict, every stored mount is one of the mounts built from the zip |
| Track.ArrangedSlabMountProp | rolland/track.py:321-328 | zip(pads, distances) with strict=False: its length and its tail decide the result, and at distinct positions mount k holds (pads[k], None, None) |
| Track.ArrangedSlabLayout | rolland/track.py:321-328 | arranged slab on a fresh dict: first mount at 0, strictly increasing positions, one entry per zipped pair in order, l_track equal to the last position |
| Track.ArrangedSlabOutcome | rolland/track.py:316-328 | calc_mount_prop over freshly generated pads and distances raises ValueError for num_mount <= 0, succeeds when num_mount >= 1 and both arrangements can yield, and stores only pads from the pad arrangement |
| Track.ArrangedSlabTrack | rolland/track.py:316-328 | construction gives a discrete slab track on the given rail holding the shared rigid slab; it succeeds when num_mount >= 1 and both arrangements can yield; its mount_prop and l_track are exactly those of calc_mount_prop over the generated pads and distances; every stored pad comes from the pad arrangement; num_mount <= 0 raises ValueError |
| Track.ArrangedBallastedAsWritten | rolland/track.py:610-618 | the loop as written unpacks the 3-tuples of zip into four names: any yielded triple raises ValueError, and only an empty zip over a non-empty old dict reaches max() |
| Track.ArrangedBallastedNeverBuilds | rolland/track.py:605-618 | constructing the track as written never succeeds; with num_mount >= 1 and non-empty arrangements it raises ValueError |
| Track.ArrangedBallastedMountProp | rolland/track.py:610-618 | corrected loop over (sleeper, pad, distance) triples: zip length and tail decide the result, and mount k holds (pads[k], sleepers[k], ballast) |
| Track.ArrangedBallastedLayout | rolland/track.py:610-618 | corrected loop on a fresh dict: one entry per triple in order, at strictly increasing positions from 0, with l_track the last position |
| Track.ArrangedBallastedOutcome | rolland/track.py:605-618 | corrected calc_mount_prop over freshly generated sleepers, pads and distances: ValueError for num_mount <= 0, success when num_mount >= 1 and all three arrangements can yield, every mount built from the arrangements and the track's ballast |
| Track.ArrangedBallastedTrack | rolland/track.py:605-618 | corrected construction: a discrete ballasted track on the given rail that succeeds when num_mount >= 1 and all three arrangements can yield; its mount_prop and l_track are those of the corrected calc_mount_prop; every mount's pad and sleeper come from their arrangements and its ballast is the track's; num_mount <= 0 raises ValueError |
| Track.SimplePeriodicSlabTrack | rolland/track.py:228-239 | construction succeeds iff num_mount >= 1: the given rail, the shared rigid slab, the pad at every i·distance, l_track the largest key, equal to (num_mount-1)·distance when the distance is non-negative |
| Track.SimplePeriodicBallastedTrack | rolland/track.py:511-523 | construction succeeds iff num_mount >= 1: a discrete ballasted track on the given rail and ballast, (pad, sleeper, ballast) at exactly the positions i·distance, l_track the largest key, equal to (num_mount-1)·distance when the distance is non-negative |
| Track.ContSlabTrack | rolland/track.py:68-73 | a continuous slab track keeps its rail, pad and l_track; its slab is the class-level slab with ms = 1e20, whatever slab was passed |
| LegacyTrack.TruncnormError | src/track.py:88 | one truncated-normal draw succeeds iff std > 0 and lim_min < lim_max; ZeroDivisionError iff std = 0, ValueError otherwise |
| LegacyTrack.StandardisedOrder | src/track.py:88 | for a positive std the standardised bounds satisfy a < b exactly when lim_min < lim_max |
| LegacyTrack.CalcMountPos | src/track.py:64-89 | constant layout: positions i·distance; periodic layout: ZeroDivisionError iff the period is empty; stochastic layout with more than one mount: success iff std > 0 and lim_min < lim_max, ZeroDivisionError iff std = 0, ValueError otherwise, positions the running sums of the draws; an unset layout raises AttributeError |
| LegacyTrack.PeriodicPositions | src/track.py:64-89 | with a periodic layout, consecutive positions differ by the period entry at i mod len |
| LegacyTrack.PeriodicPositionAt | src/track.py:64-89 | position q·len + m is the sum of the first m period entries plus q times the whole period |
| LegacyTrack.PeriodicPositionsIncrease | src/track.py:64-89 | positive period entries give strictly increasing, hence distinct, positions |
| LegacyTrack.StochPositionBounds | src/track.py:64-89 | with every distance drawn within [min, max], mount k lies within [k·min, k·max] |
| LegacyTrack.StochPositionsIncrease | src/track.py:64-89 | positive minimum draws give strictly increasing positions |
| LegacyTrack.LayoutValues | src/track.py:215-237 | the per-mount sleeper masses: constant, cyclic, or drawn; None for an unset layout; with at least one mount, ZeroDivisionError for an empty period or std = 0 and ValueError for std < 0 or lim_min >= lim_max |
| LegacyTrack.ComponentError | src/track.py:119-120 | component i of a stochastic pad can be drawn iff lim_min, std and lim_max are lists reaching i, std[i] > 0 and lim_min[i] < lim_max[i]; a float lim_min raises TypeError; ZeroDivisionError iff std[i] = 0 is reached; ValueError iff the draw itself is rejected |
| LegacyTrack.FirstComponentError | src/track.py:119-120 | the comprehension over range(len(mean)) fails iff some component cannot be drawn, and then with the error of the first such component |
| LegacyTrack.PadValues | src/track.py:98-121 | the per-mount pad stiffness: the constant value, the period entry i mod len, or a list of len(mean) draws; with at least one mount an empty period raises ZeroDivisionError, a float mean TypeError, and a bad component the error of the first bad component |
| LegacyTrack.SlabMountProperties | src/track.py:92-121 | fails exactly when the pad values fail, with their error; otherwise the dict has exactly the mount positions as keys, with the layout's pad stiffness (a list of draws for a stochastic layout) and no sleeper mass; an unset pad layout gives an empty dict |
| LegacyTrack.ApplySleepers | src/track.py:215-237 | sleeper masses are written into existing entries; pad values and keys are unchanged; KeyError iff sleepers are given but the dict is empty and positions exist |
| LegacyTrack.BallastedMountProperties | src/track.py:184-237 | the pad pass as for the slab track, then the sleeper masses; a pad-pass error comes first, then a sleeper-value error, then KeyError iff the pad layout is unset while sleeper values exist for at least one position |
| LegacyTrack.DiscrBallastedTrack | src/track.py:240-246 | the constructor runs calc_mount_pos, then mount_properties on the positions it produced; it succeeds exactly when both steps do, and otherwise raises the exception of the first step that fails; on success the positions are calc_mount_pos's num_mount_pos values and the dict is mount_properties' result for them, keyed by them when a pad layout is set |
| LegacyTrack.PeriodicBallastedProperties | src/track.py:184-246 | periodic distance, pad and sleeper layouts give at position i the pad value and sleeper mass of period entry i mod len |
| Grid.CalcSteps | rolland/discretization.py:86-95 | sim_t = nt·dt <= req_simt < sim_t + dt; bx_upd·scale = dx; ZeroDivisionError iff dx_min is 0 or above 0.6 |
| Grid.CalcStepsGrid | rolland/discretization.py:90-95 | for a positive bx, dx is 0.6 divided by a whole number, is at least dx_min and gives bx_upd >= bx; (nx-1)·dx <= l_track < nx·dx |
| Grid.NoCellIffTooWide | rolland/grid.py:85 | 0.6 // dx_min is 0 exactly when dx_min exceeds 0.6 |
| Grid.StepAtLeastMinimum | rolland/grid.py:85 | the aligned step 0.6/k is never below dx_min |
| Grid.StampkaGrid | rolland/grid.py:78-92 | the grid repeats calc_grid's steps; the domain length is within one step below l_track; l_bound = n_bound·dx |
| Boundary.DampingCoefficient | rolland/boundary.py:25-28 | drbc = r/2·mr/dt simplifies to (E·Iyr)·dt/(2·dx⁴), which is non-negative for E·Iyr >= 0 and dt > 0 |
| Boundary.PmlStampka | rolland/boundary.py:21-34 | ZeroDivisionError iff mr, dt or dx is zero; otherwise ValueError iff n_bound < 0; the ramp has n_bound entries and starts at 0 |
| Boundary.PmlRamp | rolland/boundary.py:31-34 | for a non-negative boundary length the ramp is non-negative and non-decreasing into the boundary |
| Boundary.PmlEndsAtDamping | rolland/boundary.py:31-34 | with l_bound = n_bound·dx, as the grid sets it, the ramp ends exactly at drbc and stays within [0, drbc] |
| Excitation.GaussianImpulse | rolland/excitation.py:42-50 | one force value per sample time of linspace(0, sim_t, nt); ValueError for negative nt |
| Excitation.PulseSignOfNumerator | rolland/excitation.py:49-50 | the force has the sign of a·(t - 4σ) |
| Excitation.PulseZeroIff | rolland/excitation.py:49-50 | for a non-zero amplitude the force vanishes exactly at t = 4σ |
| Excitation.PulseSign | rolland/excitation.py:49-50 | for a positive amplitude the force is negative before 4σ and positive after it |
| Excitation.PulseAntisymmetric | rolland/excitation.py:49-50 | the pulse is antisymmetric about its centre 4σ |
| Excitation.SampleTimeAt | rolland/excitation.py:46 | entry k of linspace(0, sim_t, nt) is k·sim_t/(nt-1), the last one exactly sim_t |
| Excitation.SampleTimes | rolland/excitation.py:46 | linspace(0, sim_t, nt) is exactly the sequence k·sim_t/(nt-1) |
| Excitation.ImpulseSampleSpacing | rolland/excitation.py:46 | with sim_t = nt·dt the force samples are dt + dt/(nt-1) apart, more than the time step dt |
| Matrices.FourthDifference | rolland/discretization.py:148-155 | D is symmetric, carries the weights 1, -4, 6, -4, 1 on its five diagonals and is zero beyond them |
| Matrices.InteriorRow | rolland/discretization.py:148-155 | an interior row of D applied to u gives the fourth difference u[i-2] - 4u[i-1] + 6u[i] - 4u[i+1] + u[i+2] |
| Matrices.InteriorRowsAnnihilateCubics | rolland/discretization.py:148-155 | interior rows of D map every cubic sampled on the grid to zero |
| Matrices.EdgeRowSums | rolland/discretization.py:148-155 | the first and last rows of D sum to 3, not 0: D is truncated at the ends |
| Matrices.BuildMatrix | rolland/discretization.py:119-220 | ZeroDivisionError iff mr or dx is zero; then ValueError iff nx < 2; otherwise A, B and C are 2nx x 2nx |
| Matrices.SystemSum | rolland/discretization.py:158-220 | A + C = B - 2I: stiffness and spring terms enter A and C with opposite signs, damping enters A and B alike, and B carries the 2I of the second time difference |
| Matrices.BuildMatrixConsistent | rolland/discretization.py:119-220 | for admissible vectors and nx >= 2, build_matrix succeeds and its A, B, C satisfy A + C = B - 2I |
| Matrices.RailOffDiagonal | rolland/discretization.py:158-169 | off the diagonal the rail quadrant of A is r·D, that of C is -r·D, that of B is 0, and all three vanish more than two nodes apart |
| Matrices.CouplingDiagonal | rolland/discretization.py:171-198 | the rail/support coupling quadrants are diagonal: node i of the rail couples only to node i of the support |
| Matrices.CouplingVanishes | rolland/discretization.py:171-198 | at a node with zero pad stiffness and damping the rail and the support are uncoupled in A, B and C |
| Discretization.InitializeVectors | rolland/discretization.py:291-298 | dr everywhere in vec_dr, ones in vec_ms, zeros elsewhere; ValueError for negative nx |
| Discretization.CalcBound | rolland/discretization.py:97-116 | n_bound = int(l_bound/dx) is bracketed by l_bound; ZeroDivisionError iff mr, dt or dx is zero; ValueError iff n_bound would be negative |
| Discretization.CalcBoundMatchesStampka | rolland/discretization.py:97-116 | with the Stampka profile and l_bound = n_bound·dx, calc_bound reproduces n_bound and the PMLStampka ramp |
| Discretization.AddBoundaryConditions | rolland/discretization.py:300-310 | the reversed ramp is added at the start of vec_dr and the ramp at the end (both where they overlap); the middle is unchanged; a broadcast mismatch raises ValueError |
| Discretization.BoundaryMirrorSymmetric | rolland/discretization.py:300-310 | the boundary damping added at node i equals that added at node nx-1-i |
| Discretization.BoundaryIncreasesDamping | rolland/discretization.py:300-310 | a non-negative ramp never lowers the damping, and the outermost nodes gain the full ramp end |
| Discretization.WriteMount | rolland/discretization.py:364-390 | one mount sets sp, dp and ms at node int(x/dx) to its values divided by dx; ZeroDivisionError, IndexError or AttributeError in the source's order |
| Discretization.LastWriter | rolland/discretization.py:364-390 | the last mount in dict order that lands on node j, if any |
| Discretization.WriteMounts | rolland/discretization.py:364-390 | success iff every mount finds a node (and a sleeper on a ballasted track); every node holds the values of its last writer divided by dx, or is unchanged; dr, sb and db are untouched |
| Discretization.BuildSuperstructureVectors | rolland/discretization.py:312-392 | continuous tracks add the pad, slab and ballast values everywhere; discrete tracks write their mounts and spread the ballast divided by dx; any other track raises ValueError |
| Discretization.ContinuousTrackUniform | rolland/discretization.py:325-340 | on a continuous track every node has the pad stiffness and mass 1 + slab.ms, since the ms placeholder of 1 is added to |
| Discretization.DiscreteTrackNodes | rolland/discretization.py:342-392 | on a discrete track a node without a mount keeps sp = dp = 0 and ms = 1, and a mounted node holds its last mount's values divided by dx |
| Discretization.MountsOnGrid | rolland/discretization.py:366-388 | with dx > 0 and every key in [0, l_track], every mount lands on node int(x/dx) without wrapping around |
| Discretization.DiscreteNodeMass | rolland/discretization.py:342-392 | with usable masses, every node of a discretely supported track has a non-zero mass |
| Discretization.SuperstructureAdmissible | rolland/discretization.py:312-392 | with non-zero masses the vectors keep their length nx and every ms entry stays non-zero |
| Discretization.BoundaryVectors | rolland/discretization.py:291-310 | initialize_vectors then add_boundary_conditions: succeeds exactly for nx >= 0 and a ramp the rail takes, ValueError otherwise; the result is fresh (no support, unit masses) with rail damping dr plus the boundary ramp at every node |
| Discretization.SuperstructureVectors | rolland/discretization.py:286-392 | build_superstructure_vectors on what BoundaryVectors leaves, a ValueError from the earlier steps winning; on success the vectors have length nx and a non-zero mass at every node |
| Discretization.AssembleSystem | rolland/discretization.py:286-392 | succeeds exactly when the vectors are built, the rail mass is non-zero and nx >= 2; otherwise the exception of the first failing step (the vectors' own, then ZeroDivisionError for mr = 0, then ValueError for nx < 2); on success the vectors are SuperstructureVectors' and the system is build_matrix's for them, with A + C = B - 2I |
| Discretization.AssembleSystemSucceeds | rolland/discretization.py:286-392 | with dx > 0, nx >= 2, a ramp of 1..nx entries, a rail with mass, and mounts on [0, l_track] with l_track < nx·dx (carrying sleepers on ballasted tracks), the assembly succeeds |
| Discretization.DiscretizationConst | rolland/discretization.py:281-289 | the constructor runs calc_grid, calc_bound and the assembly in order; it succeeds exactly when all three do, and otherwise raises the exception of the first that fails; on success its steps, bound, vectors and system are those the three steps compute; nx >= 2 and A + C = B - 2I; an unknown track type never succeeds |
| Discretization.CalcBoundAccepts | rolland/discretization.py:97-116 | calc_bound succeeds for a non-zero rail mass and dt, a positive dx and a non-negative boundary length |
| Discretization.DiscretizationConstSucceeds | rolland/discretization.py:281-289 | the usual case succeeds: a grid calc_grid accepts, a non-negative l_bound and l_track, a rail with mass, at least two nodes, a ramp of 1..nx entries, and mounts on [0, l_track] (with sleepers on ballasted tracks) |
| Deflection.InitializeStartValues | rolland/deflection.py:35-41 | nt+1 columns of length 2nx, the first two zero; ValueError when the shapes do not fit |
| Deflection.RightSide | rolland/deflection.py:43-50 | B·u1 + C·u0 plus dt²/(mr·dx)·force[t] at the excitation node; IndexError for a bad time or node index, then ZeroDivisionError for mr·dx = 0 |
| Deflection.CalcDeflection | rolland/deflection.py:53-71 | ZeroDivisionError for dx = 0; otherwise the loop over t = 1..nt-1 leaves exactly the trajectory of the scheme |
| Deflection.DeflectionFdm | rolland/deflection.py:74-81 | start values, then the time loop: ValueError for nt < 1, otherwise the result of the loop |
| Deflection.TrajectoryPrefix | rolland/deflection.py:61-69 | a shorter run is a prefix of a longer one: later steps never change earlier columns |
| Deflection.ErrorPersists | rolland/deflection.py:61-69 | once a step raises, every longer run raises the same error: an exception leaves the loop for good |
| Deflection.SchemeHolds | rolland/deflection.py:61-69 | every computed column satisfies A·u(k+1) = B·u(k) + C·u(k-1) + dt²/(mr·dx)·f(k) |
| Deflection.AtRest | rolland/deflection.py:53-71 | with no force after time 0 and a linear solver the rail never moves: every column is zero |
| Deflection.FirstForceUnused | rolland/deflection.py:61-63 | the loop starts at t = 1, so force[0] never influences the deflection |

## Left out

- Floating point. Reals stand in for Python floats and `Decimal`. The `round(..., 10)` and
  `round(..., 5)` of the older `src/track.py` positions are not modelled, nor is the
  `round(..., 5)` of its drawn pad stiffnesses (line 119) and drawn sleeper masses (lines 211
  and 235). Nor is the `float(Decimal(str(x)))` round trip of the arranged tracks.
- Transcendental functions are left out. The fourth and square roots of `calc_grid` and
  `GridFDMStampka` are the positive parameter `scale`. The exponential of the pulse is a
  parameter known only to be positive.
- Randomness. `random.choice` and the truncated-normal draws (`trunc_norm`, scipy's
  `truncnorm`) are draw functions given as parameters.
- scipy sparse matrices and `splu`. Matrices are dense sequences of rows, and the LU solve is
  the parameter `solve`. A singular A, where `splu` raises, is not modelled.
- traitlets. Observers that re-run `calc_mount_prop` when a trait changes, validation hooks
  and `__repr__` are not modelled. Each track constructor is modelled as one call of
  `calc_mount_prop` on a fresh dict, which is less than construction does: in
  rolland/track.py `super().__init__(**kwargs)` fires the `@observe` handler once per
  observed keyword given (`num_mount`, `distance`, `pad`, and `sleeper` for the simple
  ballasted track), and `__init__` then calls `calc_mount_prop()` once more (lines 316-318).
  The arranged tracks and the simple ballasted track never clear `mount_prop`. So with a
  `RandomArrangement`, up to four independently drawn layouts end up merged in one dict,
  with l_track the largest key of all of them. With periodic arrangements and the simple
  ballasted track, the repeated calls write the same entries again.
  `SimplePeriodicBallastedMountProp` takes an old dict to show the effect of one such
  repeated call.
- Pads and ballast with list-valued properties: only `sp[0]`, `dp[0]`, `sb[0]` and `db[0]`
  are read, so a component is modelled by those values.
- `PMLRailDampVertic.pml` is not part of this model. `calc_bound` takes the profile function as
  the parameter `pmlFn`. `CalcBoundMatchesStampka` relates it to `PMLStampka`.
- `DiscretizationEBBVerticTimeDepend` (moving loads) is not modelled. Neither are the
  analytical methods, postprocessing and the database modules.
- Matrices.Admissible: build_matrix divides numpy arrays by vec_ms. A zero entry gives inf or
  nan rather than an exception, so the model requires every ms entry to be non-zero
  (`Discretization.MassesUsable` for a track).
- Grid.CalcSteps: requires dt > 0 and a positive `scale`. A zero dt or a zero rail stiffness
  makes the Python raise or produce nan before the step is computed. A negative dt or a
  negative ratio E·Iyr/(6·mr) makes `** (1/2)` or `** (1/4)` return a complex number, and
  `0.6 // dx_min` then raises TypeError (rolland/discretization.py:86-95); that error path is
  not modelled.
- Discretization.DiscretizationConst: requires the same dt > 0, positive `scale` and non-zero
  masses. The deflection objects take the grid, discretization and excitation as separately
  built objects. The model requires their matrix shapes to agree (`IsMatrix` requires)
  instead of modelling numpy's broadcast errors for mismatched objects.
- Deflection.InitializeStartValues: the contents of the columns that numpy `empty` leaves
  uninitialised are the parameter `junk`, also taken by `Deflection.DeflectionFdm`.
  `Deflection.CalcDeflection` describes only the columns that the loop overwrites.
- Excitation.GaussianImpulse: requires sigma != 0, as does `Excitation.Pulse`. With sigma = 0,
  numpy divides by zero and yields inf or nan with a warning instead of raising, and
  floating-point infinities are outside the real-valued model.
- Track.ContSlabTrack: `SlabSingleRailTrack.slab` is one Slab object shared as a class
  attribute, and a `slab=` argument is not a trait and is dropped. The model gives every slab
  track the value `SharedSlab` (ms = 1e20). It does not model the aliasing by which a later
  change to one track's slab shows in all of them. The same holds for `Track.ArrangedSlabTrack`
  and `Track.SimplePeriodicSlabTrack`.
- LegacyTrack.LayoutValues: the distance and sleeper-mass layouts are modelled with float
  fields, which is what their stochastic branches compute with. Their traitlets types also
  admit lists, which would make `lim_min - mean` raise TypeError. A periodic layout given as a
  list of tuples is not modelled either. This also applies to `LegacyTrack.CalcMountPos`.
- LegacyTrack.PadValues: a periodic pad layout given as a list of tuples (the second type
  `LayoutPeriod.period` admits, src/track_layout.py:17) is not modelled; its periodic branch
  (src/track.py:197-200) takes a list of floats. `LegacyTrack.SlabMountProperties` and
  `LegacyTrack.BallastedMountProperties` inherit this.
- src/track.py imports `DiscrPad`, `ContPad` and `Slab` from `src/components.py` (line 6),
  which defines none of them, so the module as written fails at import. The model gives the
  mount dictionaries the values the code evidently means: `DiscrPad(sp=value)` holds `value`.
  Trait validation of that value is not modelled.

## Findings

| source | as written | input that shows it | evidently intended | confidence | as-written member | corrected member |
|---|---|---|---|---|---|---|
| rolland/track.py:613-616 | `for s, p, b, d in zip(sleepers, pads, distances)` unpacks each 3-tuple into four names | any ArrangedBallastedSingleRailTrack with num_mount >= 1 and non-empty arrangements: the first triple raises ValueError, so the constructor always fails | `for s, p, d in zip(...)`, storing (p, s, ballast) at x | not executed | Track.ArrangedBallastedAsWritten | Track.ArrangedBallastedMountProp |

=== FILE: arrangement.dfy ===
/** Support arrangements (rolland/arrangement.py): per-mount sequences of pads,
    sleepers or distances, repeated periodically or chosen at random. */
module Arrangement {
  import opened Outcomes
  import opened Numerics

  /** The `item` attribute: one object, or a Python list of objects. */
  datatype Item<T> = Single(value: T) | Many(items: seq<T>)

  /** How a generator behaves after its last yielded value. */
  datatype Tail = Stop | Hang | Raise(error: Error)

  /** Everything a Python generator yields, and what happens on the next pull. */
  datatype Gen<T> = Gen(values: seq<T>, tail: Tail)

  /** x could have come out of `item`. */
  ghost predicate FromItem<T>(item: Item<T>, x: T)
  {
    match item
    case Single(v) => x == v
    case Many(xs) => x in xs
  }

  /** One pass of the `while c < num_mount` body has some effect on `c`. */
  predicate Advances<T>(item: Item<T>)
  {
    item.Single? || |item.items| > 0
  }

  /** How far one pass of the while body advances `c`. */
  function Period<T>(item: Item<T>): (p: nat)
    requires Advances(item)
    ensures p > 0
  {
    match item
    case Single(_) => 1
    case Many(xs) => |xs|
  }

  /** The k-th value of the infinite periodic repetition of `item`. */
  function Nth<T>(item: Item<T>, k: nat): T
    requires Advances(item)
  {
    match item
    case Single(v) => v
    case Many(xs) => xs[k % |xs|]
  }

  /** Local state of PeriodicArrangement.generate: the counter c and what has been yielded. */
  datatype LoopState<T> = LoopState(c: int, out: seq<T>)

  /** One pass of the while body: yield the single item, or every list element. */
  function Pass<T>(item: Item<T>, s: LoopState<T>): LoopState<T>
  {
    match item
    case Single(v) => LoopState(s.c + 1, s.out + [v])
    case Many(xs) => LoopState(s.c + |xs|, s.out + xs)
  }

  /** The state after k passes of the while body, starting from c = 0. */
  function Passes<T>(item: Item<T>, k: nat): LoopState<T>
  {
    if k == 0 then LoopState(0, []) else Pass(item, Passes(item, k - 1))
  }

  /** The loop state so far is a whole number of periods of the repetition. */
  ghost predicate Cyclic<T>(item: Item<T>, s: LoopState<T>)
    requires Advances(item)
  {
    && s.c == |s.out|
    && |s.out| % Period(item) == 0
    && forall k :: 0 <= k < |s.out| ==> s.out[k] == Nth(item, k)
  }

  /** One pass of the while body appends one more whole period. */
  lemma PassKeepsCyclic<T>(item: Item<T>, s: LoopState<T>)
    requires Advances(item) && Cyclic(item, s)
    ensures Cyclic(item, Pass(item, s))
    ensures Pass(item, s).c == s.c + Period(item)
  {
    var s' := Pass(item, s);
    var p := Period(item);
    var q := |s.out| / p;
    assert |s.out| == q * p;
    assert |s'.out| == (q + 1) * p;
    DivModUnique(q + 1, p, 0);
    forall k | 0 <= k < |s'.out| ensures s'.out[k] == Nth(item, k) {
      if k >= |s.out| && item.Many? {
        DivModUnique(q, p, k - |s.out|);
      }
    }
  }

  /** The while loop of PeriodicArrangement.generate, run to its exit. */
  function RunLoop<T>(item: Item<T>, s: LoopState<T>, numMount: int): (r: LoopState<T>)
    requires Advances(item) && Cyclic(item, s)
    ensures Cyclic(item, r)
    ensures r.c >= numMount
    ensures s.c < numMount ==> r.c < numMount + Period(item)
    ensures s.c >= numMount ==> r == s
    decreases numMount - s.c
  {
    if s.c < numMount then
      PassKeepsCyclic(item, s);
      RunLoop(item, Pass(item, s), numMount)
    else s
  }

  /** PeriodicArrangement.generate(num_mount). */
  function PeriodicGenerate<T>(item: Item<T>, numMount: int): (g: Gen<T>)
    ensures numMount <= 0 ==> g == Gen([], Stop)
    ensures item.Single? && numMount > 0 ==>
              && g.tail == Stop
              && |g.values| == numMount
              && forall k :: 0 <= k < |g.values| ==> g.values[k] == item.value
    ensures item.Many? && |item.items| > 0 && numMount > 0 ==>
              && g.tail == Stop
              && |g.values| % |item.items| == 0
              && numMount <= |g.values| < numMount + |item.items|
              && forall k :: 0 <= k < |g.values| ==> g.values[k] == item.items[k % |item.items|]
    ensures item == Many([]) && numMount > 0 ==> g == Gen([], Hang)
  {
    if Advances(item) then
      var r := RunLoop(item, LoopState(0, []), numMount);
      assert item.Single? ==> Period(item) == 1;
      Gen(r.out, Stop)
    else if numMount > 0 then Gen([], Hang)
    else Gen([], Stop)
  }

  /** With an empty list, no number of passes ever makes the guard c < num_mount false
      and nothing is ever yielded: the generator hangs on its first pull. */
  lemma {:induction false} EmptyListNeverExits<T>(numMount: int, k: nat)
    requires numMount > 0
    ensures Passes<T>(Many([]), k) == LoopState(0, [])
    ensures Passes<T>(Many([]), k).c < numMount
  {
    if k > 0 {
      EmptyListNeverExits<T>(numMount, k - 1);
    }
  }

  /** k passes of the loop body yield exactly k whole periods of the repetition. */
  lemma {:induction false} PassesAreCyclic<T>(item: Item<T>, k: nat)
    requires Advances(item)
    ensures Passes(item, k).c == k * Period(item)
    ensures Cyclic(item, Passes(item, k))
  {
    if k > 0 {
      PassesAreCyclic(item, k - 1);
      PassKeepsCyclic(item, Passes(item, k - 1));
    }
  }

  /** random.choice draws are an oracle: the k-th call picks index draw(k). */
  ghost predicate ValidDraws<T>(item: Item<T>, draw: nat -> nat)
  {
    item.Many? && |item.items| > 0 ==> forall k: nat :: draw(k) < |item.items|
  }

  /** RandomArrangement.generate(num_mount). */
  function RandomGenerate<T>(item: Item<T>, numMount: int, draw: nat -> nat): (g: Gen<T>)
    requires ValidDraws(item, draw)
    ensures numMount <= 0 ==> g == Gen([], Stop)
    ensures Advances(item) && numMount > 0 ==>
              && g.tail == Stop
              && |g.values| == numMount
              && forall k :: 0 <= k < |g.values| ==> FromItem(item, g.values[k])
    ensures item == Many([]) && numMount > 0 ==> g == Gen([], Raise(IndexError))
  {
    if numMount <= 0 then Gen([], Stop)
    else
      match item
      case Single(v) => Gen(seq(numMount, _ => v), Stop)
      case Many(xs) =>
        if |xs| == 0 then Gen([], Raise(IndexError))
        else Gen(seq(numMount, k requires 0 <= k => xs[draw(k)]), Stop)
  }

  /** An arrangement object: periodic, or random with its draw oracle. */
  datatype Arrangement<T> = Periodic(item: Item<T>) | Random(item: Item<T>, draw: nat -> nat)

  ghost predicate ValidArrangement<T>(a: Arrangement<T>)
  {
    a.Random? ==> ValidDraws(a.item, a.draw)
  }

  /** arrangement.generate(num_mount), dispatched on the arrangement's class. */
  function Generate<T>(a: Arrangement<T>, numMount: int): (g: Gen<T>)
    requires ValidArrangement(a)
    ensures forall k :: 0 <= k < |g.values| ==> FromItem(a.item, g.values[k])
    ensures g.tail == Stop <==> numMount <= 0 || Advances(a.item)
    ensures g.tail == Stop ==> |g.values| >= numMount
  {
    match a
    case Periodic(item) =>
      var g := PeriodicGenerate(item, numMount);
      assert forall k :: 0 <= k < |g.values| ==> FromItem(item, g.values[k]) by {
        if item.Many? && |item.items| > 0 && numMount > 0 {
          forall k | 0 <= k < |g.values| ensures FromItem(item, g.values[k]) {
            assert g.values[k] == item.items[k % |item.items|];
          }
        }
      }
      g
    case Random(item, draw) => RandomGenerate(item, numMount, draw)
  }
}

=== FILE: boundary.dfy ===
/** The damping ramp of the absorbing boundary (rolland/boundary.py, PMLStampka): rail
    damping grows with the seventh power of the distance into the boundary domain. */
module Boundary {
  import opened Outcomes
  import opened Numerics

  /** The ramp grows with this power of the distance into the boundary. */
  const RampPower: nat := 7

  /** drbc = r/2 * mr/dt with r = (E*Iyr)/mr * dt^2/dx^4: the damping reached at the outer end. */
  function DampingCoefficient(E: real, Iyr: real, mr: real, dt: real, dx: real): (drbc: real)
    requires mr != 0.0 && dt != 0.0 && dx != 0.0
    ensures Pow(dx, 4) > 0.0
    ensures drbc == (E * Iyr) * dt / (2.0 * Pow(dx, 4))
    ensures E * Iyr >= 0.0 && dt > 0.0 ==> drbc >= 0.0
  {
    PowEvenPositive(dx, 2);
    var r := (E * Iyr) / mr * Pow(dt, 2) / Pow(dx, 4);
    var drbc := r / 2.0 * mr / dt;
    DampingSimplifies(E * Iyr, mr, dt, Pow(dx, 4));
    drbc
  }

  lemma DampingSimplifies(ei: real, mr: real, dt: real, p: real)
    requires mr != 0.0 && dt != 0.0 && p > 0.0
    ensures ei / mr * Pow(dt, 2) / p / 2.0 * mr / dt == ei * dt / (2.0 * p)
    ensures ei >= 0.0 && dt > 0.0 ==> ei * dt / (2.0 * p) >= 0.0
  {
    assert Pow(dt, 2) == dt * dt by {
      assert Pow(dt, 1) == dt;
    }
    DivTwice(ei / mr * (dt * dt), p, 2.0);
    MassCancels(ei, mr, dt * dt, 2.0 * p);
    StepCancels(ei, dt, 2.0 * p);
  }

  /** z / p / c == z / (c * p). */
  lemma DivTwice(z: real, p: real, c: real)
    requires p != 0.0 && c != 0.0
    ensures z / p / c == z / (c * p)
  {
  }

  /** Dividing by the mass and multiplying it back cancels. */
  lemma MassCancels(x: real, mr: real, q: real, d: real)
    requires mr != 0.0 && d != 0.0
    ensures x / mr * q / d * mr == x * q / d
  {
    var y := x / mr;
    MulDivCancel(x, mr);
    assert y * q / d * mr == (y * mr) * q / d;
  }

  /** x * (dt * dt) / d / dt == x * dt / d. */
  lemma StepCancels(x: real, dt: real, d: real)
    requires dt != 0.0 && d != 0.0
    ensures x * (dt * dt) / d / dt == x * dt / d
  {
    var w := x * dt / d;
    assert w * dt == x * (dt * dt) / d;
    MulDivCancel(w * dt, dt);
  }

  /** PMLStampka.__init__: xbc = linspace(0, l_bound, n_bound) and
      pml = drbc * xbc^7 / (dx * n_bound)^7. Computing r and drbc divides Python floats by mr,
      dx^4 and dt, so a zero among them raises ZeroDivisionError; after that a negative n_bound
      makes linspace raise ValueError. */
  function PmlStampka(E: real, Iyr: real, mr: real, dt: real, dx: real, lBound: real, nBound: int)
    : (r: Result<seq<real>>)
    ensures r.Ok? <==> mr != 0.0 && dt != 0.0 && dx != 0.0 && nBound >= 0
    ensures mr == 0.0 || dt == 0.0 || dx == 0.0 ==> r == Raises(ZeroDivisionError)
    ensures mr != 0.0 && dt != 0.0 && dx != 0.0 && nBound < 0 ==> r == Raises(ValueError)
    ensures r.Ok? ==> |r.value| == nBound
    ensures r.Ok? && nBound >= 1 ==> r.value[0] == 0.0
  {
    if mr == 0.0 || dt == 0.0 || dx == 0.0 then Raises(ZeroDivisionError)
    else
      var drbc := DampingCoefficient(E, Iyr, mr, dt, dx);
      var xbc :- Linspace(0.0, lBound, nBound);
      if nBound == 0 then Ok([])
      else
        var denom := Pow(dx * nBound as real, RampPower);
        PowNonZero(dx * nBound as real, RampPower);
        assert Pow(0.0, RampPower) == 0.0;
        Ok(Ramp(drbc, xbc, denom))
  }

  /** drbc * x^7 / denom at every boundary position x. */
  function Ramp(drbc: real, xbc: seq<real>, denom: real): (pml: seq<real>)
    requires denom != 0.0
    ensures |pml| == |xbc|
  {
    seq(|xbc|, i requires 0 <= i < |xbc| => drbc * Pow(xbc[i], RampPower) / denom)
  }

  lemma ScaledMonotone(c: real, a: real, b: real, d: real)
    requires c >= 0.0 && a <= b && d > 0.0
    ensures c * a / d <= c * b / d
  {
    MulMonotone(a, b, c);
    assert a * c <= b * c;
    MulMonotone(c * a, c * b, 1.0 / d);
  }

  /** The ramp formula is monotone in the position and non-negative. */
  lemma RampPair(drbc: real, xi: real, xj: real, denom: real)
    requires drbc >= 0.0 && 0.0 <= xi <= xj && denom > 0.0
    ensures 0.0 <= drbc * Pow(xi, RampPower) / denom <= drbc * Pow(xj, RampPower) / denom
  {
    PowNonNegative(xi, RampPower);
    PowMonotone(xi, xj, RampPower);
    assert drbc * 0.0 / denom == 0.0;
    ScaledMonotone(drbc, 0.0, Pow(xi, RampPower), denom);
    ScaledMonotone(drbc, Pow(xi, RampPower), Pow(xj, RampPower), denom);
  }

  /** Over non-negative, non-decreasing positions the ramp is non-negative and non-decreasing. */
  lemma RampMonotone(drbc: real, xbc: seq<real>, denom: real)
    requires drbc >= 0.0 && denom > 0.0
    requires forall i, j :: 0 <= i <= j < |xbc| ==> 0.0 <= xbc[i] <= xbc[j]
    ensures forall i, j :: 0 <= i <= j < |xbc| ==>
              0.0 <= Ramp(drbc, xbc, denom)[i] <= Ramp(drbc, xbc, denom)[j]
  {
    var pml := Ramp(drbc, xbc, denom);
    forall i, j | 0 <= i <= j < |xbc| ensures 0.0 <= pml[i] <= pml[j] {
      RampPair(drbc, xbc[i], xbc[j], denom);
    }
  }

  /** Along the boundary (l_bound >= 0, E*Iyr >= 0) the ramp is non-negative and non-decreasing. */
  lemma PmlRamp(E: real, Iyr: real, mr: real, dt: real, dx: real, lBound: real, nBound: int)
    requires mr > 0.0 && dt > 0.0 && dx > 0.0 && E * Iyr >= 0.0 && lBound >= 0.0 && nBound >= 1
    ensures var pml := PmlStampka(E, Iyr, mr, dt, dx, lBound, nBound).value;
            && (forall i :: 0 <= i < nBound ==> pml[i] >= 0.0)
            && forall i, j :: 0 <= i <= j < nBound ==> pml[i] <= pml[j]
  {
    var xbc := Linspace(0.0, lBound, nBound).value;
    var drbc := DampingCoefficient(E, Iyr, mr, dt, dx);
    var denom := Pow(dx * nBound as real, RampPower);
    PowPositive(dx * nBound as real, RampPower);
    LinspaceMonotone(0.0, lBound, nBound);
    assert PmlStampka(E, Iyr, mr, dt, dx, lBound, nBound).value == Ramp(drbc, xbc, denom);
    RampMonotone(drbc, xbc, denom);
  }

  /** When l_bound = n_bound*dx (as the grid sets it) and n_bound >= 2, the ramp ends exactly
      at drbc and every entry lies in [0, drbc]. */
  lemma PmlEndsAtDamping(E: real, Iyr: real, mr: real, dt: real, dx: real, nBound: int)
    requires mr > 0.0 && dt > 0.0 && dx > 0.0 && E * Iyr >= 0.0 && nBound >= 2
    ensures var pml := PmlStampka(E, Iyr, mr, dt, dx, nBound as real * dx, nBound).value;
            var drbc := DampingCoefficient(E, Iyr, mr, dt, dx);
            && pml[nBound - 1] == drbc
            && forall i :: 0 <= i < nBound ==> 0.0 <= pml[i] <= drbc
  {
    var lBound := nBound as real * dx;
    var pml := PmlStampka(E, Iyr, mr, dt, dx, lBound, nBound).value;
    var xbc := Linspace(0.0, lBound, nBound).value;
    var drbc := DampingCoefficient(E, Iyr, mr, dt, dx);
    var denom := Pow(dx * nBound as real, RampPower);
    PowPositive(dx * nBound as real, RampPower);
    assert xbc[nBound - 1] == lBound;
    assert lBound == dx * nBound as real;
    assert pml == Ramp(drbc, xbc, denom);
    assert pml[nBound - 1] == drbc * denom / denom;
    PmlRamp(E, Iyr, mr, dt, dx, lBound, nBound);
    assert pml[nBound - 1] == drbc;
  }
}

=== FILE: deflection.dfy ===
/** The time stepping of rolland/deflection.py (DeflectionFDMStampka): starting from two
    columns of zeros, each new deflection column u(t+1) solves A u(t+1) = B u(t) + C u(t-1)
    + dt^2/(mr*dx) f(t), where f(t) carries the excitation force at one node. The sparse LU
    factorisation is the parameter `solve`. */
module Deflection {
  import opened Outcomes
  import opened Numerics
  import opened Matrices

  /** The solver returns one value per unknown. */
  ghost predicate SolverShape(solve: seq<real> -> seq<real>, n: nat) {
    forall b: seq<real> :: |b| == n ==> |solve(b)| == n
  }

  /** The solver inverts A: A * solve(b) = b for every right-hand side of length n. */
  ghost predicate Solves(a: Matrix, solve: seq<real> -> seq<real>, n: nat) {
    && IsMatrix(a, n, n)
    && SolverShape(solve, n)
    && forall b: seq<real> {:trigger MatVec(a, solve(b))} :: |b| == n ==> MatVec(a, solve(b)) == b
  }

  /** A deflection history: columns of n values each. */
  predicate Columns(d: seq<seq<real>>, n: nat) {
    forall t :: 0 <= t < |d| ==> |d[t]| == n
  }

  /** initialize_start_values: an uninitialised (2nx) x (nt+1) array (numpy `empty`, whose
      contents are the parameter junk) whose first two columns are set to zero. numpy raises
      ValueError for a negative shape and when fewer than two columns exist to take the zeros. */
  function InitializeStartValues(nx: int, nt: int, junk: (int, int) -> real): (r: Result<seq<seq<real>>>)
    ensures r.Ok? <==> nx >= 0 && nt >= 1
    ensures !r.Ok? ==> r == Raises(ValueError)
    ensures r.Ok? ==> |r.value| == nt + 1 && Columns(r.value, 2 * nx)
    ensures r.Ok? ==> r.value[0] == Constant(2 * nx, 0.0) && r.value[1] == Constant(2 * nx, 0.0)
  {
    if nx < 0 || nt < 1 then Raises(ValueError)
    else
      Ok(seq(nt + 1, t requires 0 <= t < nt + 1 =>
               if t < 2 then Constant(2 * nx, 0.0) else seq(2 * nx, i requires 0 <= i < 2 * nx => junk(i, t))))
  }

  /** calc_rightside_crank_nicolson: `f[ind_excit] = force[t]` (force[t] is read first; either
      index may be out of range), then B u1 + C u0 + dt**2 / (mr * dx) * f, whose division
      raises ZeroDivisionError when mr * dx = 0. */
  function RightSide(sys: System, n: nat, u1: seq<real>, u0: seq<real>, force: seq<real>,
                     t: int, ind: int, dt: real, mr: real, dx: real): (r: Result<seq<real>>)
    requires IsMatrix(sys.B, n, n) && IsMatrix(sys.C, n, n) && |u1| == n && |u0| == n
    ensures r.Ok? <==> PyIndex(t, |force|).Some? && PyIndex(ind, n).Some? && mr * dx != 0.0
    ensures !r.Ok? ==> r == Raises(if PyIndex(t, |force|).None? || PyIndex(ind, n).None?
                                   then IndexError else ZeroDivisionError)
    ensures r.Ok? ==> |r.value| == n && forall i :: 0 <= i < n ==>
              r.value[i] == MatVec(sys.B, u1)[i] + MatVec(sys.C, u0)[i]
                            + (if i == PyIndex(ind, n).value
                               then Pow(dt, 2) / (mr * dx) * force[PyIndex(t, |force|).value]
                               else 0.0)
  {
    var ft := PyIndex(t, |force|);
    if ft.None? then Raises(IndexError)
    else
      var j := PyIndex(ind, n);
      if j.None? then Raises(IndexError)
      else if mr * dx == 0.0 then Raises(ZeroDivisionError)
      else
        var f := Constant(n, 0.0)[j.value := force[ft.value]];
        var coef := Pow(dt, 2) / (mr * dx);
        var bu := MatVec(sys.B, u1);
        var cu := MatVec(sys.C, u0);
        Ok(seq(n, i requires 0 <= i < n => bu[i] + cu[i] + coef * f[i]))
  }

  /** The history the scheme defines after t steps: columns 0..t, the first two zero and
      column k+1 = solve(right side at k) for 1 <= k < t. The reference for calc_deflection. */
  function Trajectory(sys: System, n: nat, force: seq<real>, ind: int, dt: real, mr: real, dx: real,
                      solve: seq<real> -> seq<real>, t: nat): (r: Result<seq<seq<real>>>)
    requires t >= 1 && IsMatrix(sys.B, n, n) && IsMatrix(sys.C, n, n) && SolverShape(solve, n)
    ensures r.Ok? <==> t == 1 || (t - 1 < |force| && PyIndex(ind, n).Some? && mr * dx != 0.0)
    ensures !r.Ok? ==> r == Raises(if |force| <= 1 || PyIndex(ind, n).None? || mr * dx != 0.0
                                   then IndexError else ZeroDivisionError)
    ensures r.Ok? ==> |r.value| == t + 1 && Columns(r.value, n)
    ensures r.Ok? ==> r.value[0] == Constant(n, 0.0) && r.value[1] == Constant(n, 0.0)
    decreases t
  {
    if t == 1 then Ok([Constant(n, 0.0), Constant(n, 0.0)])
    else
      var prev :- Trajectory(sys, n, force, ind, dt, mr, dx, solve, t - 1);
      var b :- RightSide(sys, n, prev[t - 1], prev[t - 2], force, t - 1, ind, dt, mr, dx);
      Ok(prev + [solve(b)[..n]])
  }

  /** calc_deflection on the array initialize_start_values made: ind_excit = int(x_excit / dx)
      (ZeroDivisionError for dx = 0), then for t = 1 .. nt-1 column t+1 = solve(right side).
      Whatever `empty` left in columns 2..nt is overwritten, so the result is the reference
      trajectory. */
  method CalcDeflection(sys: System, nx: nat, nt: int, dt: real, mr: real, dx: real, xExcit: real,
                        force: seq<real>, solve: seq<real> -> seq<real>, defl: seq<seq<real>>)
    returns (r: Result<seq<seq<real>>>)
    requires IsMatrix(sys.B, 2 * nx, 2 * nx) && IsMatrix(sys.C, 2 * nx, 2 * nx)
    requires SolverShape(solve, 2 * nx)
    requires nt >= 1 && |defl| == nt + 1 && Columns(defl, 2 * nx)
    requires defl[0] == Constant(2 * nx, 0.0) && defl[1] == Constant(2 * nx, 0.0)
    ensures dx == 0.0 ==> r == Raises(ZeroDivisionError)
    ensures dx != 0.0 ==> r == Trajectory(sys, 2 * nx, force, Trunc(xExcit / dx), dt, mr, dx, solve, nt)
  {
    if dx == 0.0 {
      return Raises(ZeroDivisionError);
    }
    var n := 2 * nx;
    var ind := Trunc(xExcit / dx);
    var d := defl;
    var t := 1;
    assert d[..2] == [d[0], d[1]];
    while t < nt
      invariant 1 <= t <= nt
      invariant |d| == nt + 1 && Columns(d, n)
      invariant Trajectory(sys, n, force, ind, dt, mr, dx, solve, t).Ok?
      invariant d[..t + 1] == Trajectory(sys, n, force, ind, dt, mr, dx, solve, t).value
      decreases nt - t
    {
      ghost var prev := Trajectory(sys, n, force, ind, dt, mr, dx, solve, t).value;
      LastColumns(d, t, prev);
      TrajectoryNext(sys, n, force, ind, dt, mr, dx, solve, t);
      var b := RightSide(sys, n, d[t], d[t - 1], force, t, ind, dt, mr, dx);
      if !b.Ok? {
        ErrorPersists(sys, n, force, ind, dt, mr, dx, solve, t + 1, nt);
        return Raises(b.error);
      }
      var u := solve(b.value)[..n];
      ExtendedPrefix(d, t, u, prev);
      d := d[t + 1 := u];
      t := t + 1;
    }
    assert d == d[..nt + 1];
    return Ok(d);
  }

  /** The last two of the first t+1 columns. */
  lemma LastColumns<T>(d: seq<T>, t: nat, prev: seq<T>)
    requires 1 <= t < |d| && d[..t + 1] == prev
    ensures |prev| == t + 1 && d[t] == prev[t] && d[t - 1] == prev[t - 1]
  {
    assert d[..t + 1][t] == d[t] && d[..t + 1][t - 1] == d[t - 1];
  }

  /** One more step of the reference history: the right side at t, solved, or its error. */
  lemma TrajectoryNext(sys: System, n: nat, force: seq<real>, ind: int, dt: real, mr: real, dx: real,
                       solve: seq<real> -> seq<real>, t: nat)
    requires t >= 1 && IsMatrix(sys.B, n, n) && IsMatrix(sys.C, n, n) && SolverShape(solve, n)
    requires Trajectory(sys, n, force, ind, dt, mr, dx, solve, t).Ok?
    ensures var prev := Trajectory(sys, n, force, ind, dt, mr, dx, solve, t).value;
            var b := RightSide(sys, n, prev[t], prev[t - 1], force, t, ind, dt, mr, dx);
            Trajectory(sys, n, force, ind, dt, mr, dx, solve, t + 1)
            == if b.Ok? then Ok(prev + [solve(b.value)[..n]]) else Raises(b.error)
  {
  }

  /** Once a run fails, every longer run fails with the same error. */
  lemma ErrorPersists(sys: System, n: nat, force: seq<real>, ind: int, dt: real, mr: real, dx: real,
                      solve: seq<real> -> seq<real>, s: nat, t: nat)
    requires 1 <= s <= t && IsMatrix(sys.B, n, n) && IsMatrix(sys.C, n, n) && SolverShape(solve, n)
    requires !Trajectory(sys, n, force, ind, dt, mr, dx, solve, s).Ok?
    ensures Trajectory(sys, n, force, ind, dt, mr, dx, solve, t) == Trajectory(sys, n, force, ind, dt, mr, dx, solve, s)
  {
  }

  /** Writing column t+1 of a history whose first t+1 columns are prev extends prev by it. */
  lemma ExtendedPrefix<T>(d: seq<T>, t: nat, u: T, prev: seq<T>)
    requires t + 1 < |d| && d[..t + 1] == prev
    ensures |d[t + 1 := u]| == |d| && d[t + 1 := u][..t + 2] == prev + [u]
  {
    assert d[t + 1 := u][..t + 2] == d[..t + 1] + [u];
  }

  /** DeflectionFDMStampka.__init__: initialize_start_values, then calc_deflection. The
      contents numpy's `empty` starts with (junk) never reach the result. */
  method DeflectionFdm(sys: System, nx: nat, nt: int, dt: real, mr: real, dx: real, xExcit: real,
                       force: seq<real>, solve: seq<real> -> seq<real>, junk: (int, int) -> real)
    returns (r: Result<seq<seq<real>>>)
    requires IsMatrix(sys.B, 2 * nx, 2 * nx) && IsMatrix(sys.C, 2 * nx, 2 * nx)
    requires SolverShape(solve, 2 * nx)
    ensures nt < 1 ==> r == Raises(ValueError)
    ensures nt >= 1 && dx == 0.0 ==> r == Raises(ZeroDivisionError)
    ensures nt >= 1 && dx != 0.0 ==>
              r == Trajectory(sys, 2 * nx, force, Trunc(xExcit / dx), dt, mr, dx, solve, nt)
  {
    var defl :- InitializeStartValues(nx, nt, junk);
    r := CalcDeflection(sys, nx, nt, dt, mr, dx, xExcit, force, solve, defl);
  }

  /** A longer run starts with the shorter one: the history never rewrites its past. */
  lemma {:induction false} TrajectoryPrefix(sys: System, n: nat, force: seq<real>, ind: int, dt: real,
                                            mr: real, dx: real, solve: seq<real> -> seq<real>,
                                            s: nat, t: nat)
    requires 1 <= s <= t && IsMatrix(sys.B, n, n) && IsMatrix(sys.C, n, n) && SolverShape(solve, n)
    requires Trajectory(sys, n, force, ind, dt, mr, dx, solve, t).Ok?
    ensures Trajectory(sys, n, force, ind, dt, mr, dx, solve, s).Ok?
    ensures Trajectory(sys, n, force, ind, dt, mr, dx, solve, t).value[..s + 1]
            == Trajectory(sys, n, force, ind, dt, mr, dx, solve, s).value
    decreases t - s
  {
    var tr := Trajectory(sys, n, force, ind, dt, mr, dx, solve, t).value;
    if s < t {
      TrajectoryPrefix(sys, n, force, ind, dt, mr, dx, solve, s, t - 1);
      var prev := Trajectory(sys, n, force, ind, dt, mr, dx, solve, t - 1).value;
      assert tr[..t] == prev;
      assert tr[..s + 1] == prev[..s + 1];
    } else {
      assert tr[..s + 1] == tr;
    }
  }

  /** Column k+1 of the reference history is the solver applied to the right side at k. */
  lemma ColumnStep(sys: System, n: nat, force: seq<real>, ind: int, dt: real, mr: real, dx: real,
                   solve: seq<real> -> seq<real>, k: nat)
    requires k >= 1 && IsMatrix(sys.B, n, n) && IsMatrix(sys.C, n, n) && SolverShape(solve, n)
    requires Trajectory(sys, n, force, ind, dt, mr, dx, solve, k + 1).Ok?
    ensures var u := Trajectory(sys, n, force, ind, dt, mr, dx, solve, k + 1).value;
            var b := RightSide(sys, n, u[k], u[k - 1], force, k, ind, dt, mr, dx);
            b.Ok? && u[k + 1] == solve(b.value)
  {
    var u := Trajectory(sys, n, force, ind, dt, mr, dx, solve, k + 1).value;
    var prev := Trajectory(sys, n, force, ind, dt, mr, dx, solve, k).value;
    assert u == prev + [solve(RightSide(sys, n, prev[k], prev[k - 1], force, k, ind, dt, mr, dx).value)[..n]];
    assert u[k] == prev[k] && u[k - 1] == prev[k - 1];
  }

  /** The scheme at one step k of a run of t steps. */
  lemma SchemeAt(sys: System, n: nat, force: seq<real>, ind: int, dt: real, mr: real, dx: real,
                 solve: seq<real> -> seq<real>, k: nat, t: nat)
    requires 1 <= k < t && IsMatrix(sys.B, n, n) && IsMatrix(sys.C, n, n) && Solves(sys.A, solve, n)
    requires Trajectory(sys, n, force, ind, dt, mr, dx, solve, t).Ok?
    ensures var u := Trajectory(sys, n, force, ind, dt, mr, dx, solve, t).value;
            && RightSide(sys, n, u[k], u[k - 1], force, k, ind, dt, mr, dx).Ok?
            && MatVec(sys.A, u[k + 1]) == RightSide(sys, n, u[k], u[k - 1], force, k, ind, dt, mr, dx).value
  {
    var u := Trajectory(sys, n, force, ind, dt, mr, dx, solve, t).value;
    ColumnsAgree(sys, n, force, ind, dt, mr, dx, solve, k + 1, t);
    var v := Trajectory(sys, n, force, ind, dt, mr, dx, solve, k + 1).value;
    LastStepScheme(sys, n, force, ind, dt, mr, dx, solve, k);
    assert u[k + 1] == v[k + 1] && u[k] == v[k] && u[k - 1] == v[k - 1];
  }

  /** The scheme at the last step of a run of k+1 steps. */
  lemma LastStepScheme(sys: System, n: nat, force: seq<real>, ind: int, dt: real, mr: real, dx: real,
                       solve: seq<real> -> seq<real>, k: nat)
    requires k >= 1 && IsMatrix(sys.B, n, n) && IsMatrix(sys.C, n, n) && Solves(sys.A, solve, n)
    requires Trajectory(sys, n, force, ind, dt, mr, dx, solve, k + 1).Ok?
    ensures var v := Trajectory(sys, n, force, ind, dt, mr, dx, solve, k + 1).value;
            && RightSide(sys, n, v[k], v[k - 1], force, k, ind, dt, mr, dx).Ok?
            && MatVec(sys.A, v[k + 1]) == RightSide(sys, n, v[k], v[k - 1], force, k, ind, dt, mr, dx).value
  {
    var v := Trajectory(sys, n, force, ind, dt, mr, dx, solve, k + 1).value;
    ColumnStep(sys, n, force, ind, dt, mr, dx, solve, k);
    SchemeStep(sys, n, force, ind, dt, mr, dx, solve, k, v[k + 1], v[k], v[k - 1]);
  }

  /** A longer run agrees column by column with a shorter one. */
  lemma ColumnsAgree(sys: System, n: nat, force: seq<real>, ind: int, dt: real, mr: real, dx: real,
                     solve: seq<real> -> seq<real>, s: nat, t: nat)
    requires 1 <= s <= t && IsMatrix(sys.B, n, n) && IsMatrix(sys.C, n, n) && SolverShape(solve, n)
    requires Trajectory(sys, n, force, ind, dt, mr, dx, solve, t).Ok?
    ensures Trajectory(sys, n, force, ind, dt, mr, dx, solve, s).Ok?
    ensures forall j :: 0 <= j <= s ==>
              Trajectory(sys, n, force, ind, dt, mr, dx, solve, t).value[j]
              == Trajectory(sys, n, force, ind, dt, mr, dx, solve, s).value[j]
  {
    TrajectoryPrefix(sys, n, force, ind, dt, mr, dx, solve, s, t);
    var u := Trajectory(sys, n, force, ind, dt, mr, dx, solve, t).value;
    forall j | 0 <= j <= s
      ensures u[j] == Trajectory(sys, n, force, ind, dt, mr, dx, solve, s).value[j]
    {
      assert u[..s + 1][j] == u[j];
    }
  }

  /** One step of the scheme: a column that solves the right side satisfies A u(k+1) = b. */
  lemma SchemeStep(sys: System, n: nat, force: seq<real>, ind: int, dt: real, mr: real, dx: real,
                   solve: seq<real> -> seq<real>, k: nat, next: seq<real>, cur: seq<real>, last: seq<real>)
    requires IsMatrix(sys.B, n, n) && IsMatrix(sys.C, n, n) && Solves(sys.A, solve, n)
    requires |cur| == n && |last| == n
    requires var b := RightSide(sys, n, cur, last, force, k, ind, dt, mr, dx);
             b.Ok? && next == solve(b.value)
    ensures RightSide(sys, n, cur, last, force, k, ind, dt, mr, dx).Ok?
    ensures MatVec(sys.A, next) == RightSide(sys, n, cur, last, force, k, ind, dt, mr, dx).value
  {
    InvertedColumn(sys.A, solve, n, RightSide(sys, n, cur, last, force, k, ind, dt, mr, dx).value);
  }

  /** A solver that inverts A gives A * solve(b) = b. */
  lemma InvertedColumn(a: Matrix, solve: seq<real> -> seq<real>, n: nat, b: seq<real>)
    requires Solves(a, solve, n) && |b| == n
    ensures |solve(b)| == n && MatVec(a, solve(b)) == b
  {
  }

  /** With a solver that inverts A, every computed column satisfies the scheme:
      A u(k+1) = B u(k) + C u(k-1) + dt^2/(mr*dx) f(k) for 1 <= k < t. */
  lemma SchemeHolds(sys: System, n: nat, force: seq<real>, ind: int, dt: real, mr: real, dx: real,
                    solve: seq<real> -> seq<real>, t: nat)
    requires t >= 1 && IsMatrix(sys.B, n, n) && IsMatrix(sys.C, n, n) && Solves(sys.A, solve, n)
    requires Trajectory(sys, n, force, ind, dt, mr, dx, solve, t).Ok?
    ensures var u := Trajectory(sys, n, force, ind, dt, mr, dx, solve, t).value;
            forall k :: 1 <= k < t ==>
              && RightSide(sys, n, u[k], u[k - 1], force, k, ind, dt, mr, dx).Ok?
              && MatVec(sys.A, u[k + 1]) == RightSide(sys, n, u[k], u[k - 1], force, k, ind, dt, mr, dx).value
  {
    forall k | 1 <= k < t {
      SchemeAt(sys, n, force, ind, dt, mr, dx, solve, k, t);
    }
  }

  /** A rail at rest stays at rest: with no force after the start and a solver that maps zero
      to zero (as any linear solver does), every column is zero. */
  lemma {:induction false} AtRest(sys: System, n: nat, force: seq<real>, ind: int, dt: real, mr: real,
                                  dx: real, solve: seq<real> -> seq<real>, t: nat)
    requires t >= 1 && IsMatrix(sys.B, n, n) && IsMatrix(sys.C, n, n) && SolverShape(solve, n)
    requires forall k :: 1 <= k < |force| ==> force[k] == 0.0
    requires solve(Constant(n, 0.0)) == Constant(n, 0.0)
    requires Trajectory(sys, n, force, ind, dt, mr, dx, solve, t).Ok?
    ensures forall k :: 0 <= k <= t ==>
              Trajectory(sys, n, force, ind, dt, mr, dx, solve, t).value[k] == Constant(n, 0.0)
  {
    if t > 1 {
      AtRest(sys, n, force, ind, dt, mr, dx, solve, t - 1);
      var prev := Trajectory(sys, n, force, ind, dt, mr, dx, solve, t - 1).value;
      var z := Constant(n, 0.0);
      var b := RightSide(sys, n, prev[t - 1], prev[t - 2], force, t - 1, ind, dt, mr, dx);
      MatVecZero(sys.B, n);
      MatVecZero(sys.C, n);
      assert b.value == z;
      assert solve(b.value)[..n] == z;
    }
  }

  /** force[0] is never read: the loop starts at t = 1. */
  lemma {:induction false} FirstForceUnused(sys: System, n: nat, force: seq<real>, x: real, ind: int,
                                            dt: real, mr: real, dx: real,
                                            solve: seq<real> -> seq<real>, t: nat)
    requires t >= 1 && |force| >= 1
    requires IsMatrix(sys.B, n, n) && IsMatrix(sys.C, n, n) && SolverShape(solve, n)
    ensures Trajectory(sys, n, force, ind, dt, mr, dx, solve, t)
            == Trajectory(sys, n, force[0 := x], ind, dt, mr, dx, solve, t)
  {
    if t > 1 {
      FirstForceUnused(sys, n, force, x, ind, dt, mr, dx, solve, t - 1);
    }
  }
}

=== FILE: discretization.dfy ===
/** The assembler of the constant-parameter discretization (DiscretizationEBBVerticConst in
    rolland/discretization.py): grid, boundary damping, the per-node property vectors of the
    superstructure, and finally the matrices of build_matrix. */
module Discretization {
  import opened Outcomes
  import opened Numerics
  import opened PyDict
  import opened Track
  import opened Grid
  import opened Boundary
  import opened Matrices

  // ---------------------------------------------------------------------------------------
  // initialize_vectors

  /** initialize_vectors: rail damping everywhere, no support, and unit masses (ones rather
      than zeros, so that nodes without a sleeper do not divide by zero). numpy refuses a
      negative length with ValueError. */
  function InitializeVectors(dr: real, nx: int): (r: Result<Vectors>)
    ensures r.Ok? <==> nx >= 0
    ensures !r.Ok? ==> r == Raises(ValueError)
    ensures r.Ok? ==> Sized(r.value, nx) && Admissible(r.value)
    ensures r.Ok? ==> forall i :: 0 <= i < nx ==>
              && r.value.dr[i] == dr && r.value.ms[i] == 1.0
              && r.value.sp[i] == 0.0 && r.value.dp[i] == 0.0
              && r.value.sb[i] == 0.0 && r.value.db[i] == 0.0
  {
    if nx < 0 then Raises(ValueError)
    else
      Ok(Vectors(Constant(nx, dr), Constant(nx, 0.0), Constant(nx, 0.0), Constant(nx, 1.0),
                 Constant(nx, 0.0), Constant(nx, 0.0)))
  }

  // ---------------------------------------------------------------------------------------
  // calc_bound

  /** The boundary properties calc_bound stores. */
  datatype Bound = Bound(nBound: int, pml: seq<real>)

  /** calc_bound. r and drbc divide Python floats by mr, dx**4 and dt (ZeroDivisionError on a
      zero); n_bound = int(l_bound / dx); linspace raises ValueError for a negative n_bound.
      The damping profile `bound.pml` belongs to a boundary class that is not part of this
      model and is the parameter pmlFn. */
  function CalcBound(E: real, Iyr: real, mr: real, dt: real, dx: real, lBound: real,
                     pmlFn: (real, seq<real>) -> seq<real>): (r: Result<Bound>)
    ensures r.Ok? <==> mr != 0.0 && dt != 0.0 && dx != 0.0 && lBound / dx > -1.0
    ensures mr == 0.0 || dt == 0.0 || dx == 0.0 ==> r == Raises(ZeroDivisionError)
    ensures mr != 0.0 && dt != 0.0 && dx != 0.0 && lBound / dx <= -1.0 ==> r == Raises(ValueError)
    ensures r.Ok? ==> r.value.nBound >= 0
    ensures r.Ok? && lBound / dx >= 0.0 ==>
              r.value.nBound as real <= lBound / dx < r.value.nBound as real + 1.0
    ensures r.Ok? && lBound / dx < 0.0 ==> r.value.nBound == 0
  {
    if mr == 0.0 || dt == 0.0 || dx == 0.0 then Raises(ZeroDivisionError)
    else
      var drbc := DampingCoefficient(E, Iyr, mr, dt, dx);
      var nBound := Trunc(lBound / dx);
      var xbc :- Linspace(0.0, lBound, nBound);
      Ok(Bound(nBound, pmlFn(drbc, xbc)))
  }

  /** The Stampka profile drbc * x**7 / (dx * n_bound)**7 as a pml function. */
  function StampkaProfile(dx: real, nBound: int): (real, seq<real>) -> seq<real>
    requires dx != 0.0 && nBound >= 1
  {
    PowNonZero(dx * nBound as real, RampPower);
    var denom := Pow(dx * nBound as real, RampPower);
    (drbc: real, xbc: seq<real>) => Ramp(drbc, xbc, denom)
  }

  /** n * dx / dx truncates back to n. */
  lemma TruncMultipleExact(n: int, dx: real)
    requires dx != 0.0 && n >= 0
    ensures Trunc(n as real * dx / dx) == n
  {
    assert n as real * dx / dx == n as real;
  }

  /** With the Stampka profile and l_bound = n_bound * dx, as the grid sets them, calc_bound
      recovers n_bound and computes the same damping ramp as PMLStampka. */
  lemma CalcBoundMatchesStampka(E: real, Iyr: real, mr: real, dt: real, dx: real, nBound: int)
    requires mr != 0.0 && dt != 0.0 && dx != 0.0 && nBound >= 1
    ensures var lBound := nBound as real * dx;
            var b := CalcBound(E, Iyr, mr, dt, dx, lBound, StampkaProfile(dx, nBound));
            && b.Ok?
            && b.value.nBound == nBound
            && b.value.pml == PmlStampka(E, Iyr, mr, dt, dx, lBound, nBound).value
  {
    var lBound := nBound as real * dx;
    TruncMultipleExact(nBound, dx);
    assert lBound / dx == nBound as real;
  }

  // ---------------------------------------------------------------------------------------
  // add_boundary_conditions

  /** What add_boundary_conditions adds at node i of nx: the reversed ramp on the first p
      nodes, the ramp itself on the last p nodes (both, where the two layers overlap). */
  function BoundaryExtra(pml: seq<real>, nx: nat, i: nat): real
    requires |pml| <= nx && i < nx
  {
    var p := |pml|;
    (if i < p then pml[p - 1 - i] else 0.0) + (if nx - p <= i then pml[i - (nx - p)] else 0.0)
  }

  /** numpy accepts `vec_dr[:p] += pml[::-1]` and `vec_dr[-p:] += pml` exactly when the
      slices and pml have matching lengths or pml has length 1. For p = 0 the right slice
      `vec_dr[-0:]` is the whole vector, which an empty pml cannot be added to unless nx = 0. */
  predicate BoundaryFits(nx: nat, p: nat) {
    !(p == 0 && nx != 0) && !(p > nx && p != 1)
  }

  /** add_boundary_conditions: vec_dr[:p] += pml[::-1]; vec_dr[-p:] += pml. */
  function AddBoundaryConditions(dr: seq<real>, pml: seq<real>): (r: Result<seq<real>>)
    ensures r.Ok? <==> BoundaryFits(|dr|, |pml|)
    ensures !r.Ok? ==> r == Raises(ValueError)
    ensures r.Ok? ==> |r.value| == |dr|
    ensures r.Ok? && |pml| <= |dr| ==> forall i :: 0 <= i < |dr| ==>
              r.value[i] == dr[i] + BoundaryExtra(pml, |dr|, i)
    ensures r.Ok? ==> forall i :: |pml| <= i < |dr| - |pml| ==> r.value[i] == dr[i]
  {
    var nx, p := |dr|, |pml|;
    if !BoundaryFits(nx, p) then Raises(ValueError)
    else if p > nx then Ok(dr)
    else
      var left := seq(nx, i requires 0 <= i < nx => if i < p then dr[i] + pml[p - 1 - i] else dr[i]);
      var right := seq(nx, i requires 0 <= i < nx =>
                         if nx - p <= i then left[i] + pml[i - (nx - p)] else left[i]);
      Ok(right)
  }

  /** A rail damping vector that is mirror-symmetric stays so: both ends get the same ramp. */
  lemma BoundaryMirrorSymmetric(dr: seq<real>, pml: seq<real>)
    requires BoundaryFits(|dr|, |pml|) && |pml| <= |dr|
    requires forall i :: 0 <= i < |dr| ==> dr[i] == dr[|dr| - 1 - i]
    ensures var r := AddBoundaryConditions(dr, pml).value;
            forall i :: 0 <= i < |dr| ==> r[i] == r[|dr| - 1 - i]
  {
    var nx, p := |dr|, |pml|;
    var r := AddBoundaryConditions(dr, pml).value;
    forall i | 0 <= i < nx ensures r[i] == r[nx - 1 - i] {
      var m := nx - 1 - i;
      assert (i < p) == (nx - p <= m);
      assert (m < p) == (nx - p <= i);
      assert BoundaryExtra(pml, nx, i) == BoundaryExtra(pml, nx, m);
    }
  }

  /** A non-negative ramp only ever increases the damping; at the two outer nodes it adds
      the ramp's last entry (plus its first, where the layers cover the whole rail). */
  lemma BoundaryIncreasesDamping(dr: seq<real>, pml: seq<real>)
    requires BoundaryFits(|dr|, |pml|) && 1 <= |pml| <= |dr|
    requires forall i :: 0 <= i < |pml| ==> pml[i] >= 0.0
    ensures var r := AddBoundaryConditions(dr, pml).value;
            && (forall i :: 0 <= i < |dr| ==> r[i] >= dr[i])
            && r[0] == dr[0] + pml[|pml| - 1] + (if |pml| == |dr| then pml[0] else 0.0)
            && r[|dr| - 1] == dr[|dr| - 1] + pml[|pml| - 1] + (if |pml| == |dr| then pml[0] else 0.0)
  {
    var nx, p := |dr|, |pml|;
    var r := AddBoundaryConditions(dr, pml).value;
    forall i | 0 <= i < nx ensures r[i] >= dr[i] {
      assert BoundaryExtra(pml, nx, i) >= 0.0;
    }
    assert r[0] == dr[0] + BoundaryExtra(pml, nx, 0);
    assert r[nx - 1] == dr[nx - 1] + BoundaryExtra(pml, nx, nx - 1);
  }

  // ---------------------------------------------------------------------------------------
  // build_superstructure_vectors

  /** The grid node a mounting position x falls on: numpy index int(x / dx) into nx nodes. */
  function NodeOf(x: real, dx: real, nx: nat): Option<nat>
    requires dx != 0.0
  {
    PyIndex(Trunc(x / dx), nx)
  }

  /** A mount can be written: it falls on a node, and the mass to write exists (the slab's,
      or the mount's own sleeper on a ballasted track). */
  predicate Writable(e: Entry<Mount>, dx: real, nx: nat, slab: Option<Slab>)
    requires dx != 0.0
  {
    NodeOf(e.key, dx, nx).Some? && (slab.Some? || e.val.sleeper.Some?)
  }

  /** The mass a mount puts on its node: the slab mass on slab tracks, the sleeper's otherwise. */
  function MountMass(m: Mount, slab: Option<Slab>): real
    requires slab.Some? || m.sleeper.Some?
  {
    if slab.Some? then slab.value.ms else m.sleeper.value.ms
  }

  /** One pass of the loop of build_discrete_slab_track / build_discrete_ballasted_track:
      x_ind = int(x / dx) (ZeroDivisionError for dx = 0), then vec_sp[x_ind], vec_dp[x_ind]
      (IndexError off the grid) and vec_ms[x_ind], whose right-hand side reads `.ms` of the
      sleeper slot (AttributeError when that slot is None). */
  function WriteMount(e: Entry<Mount>, dx: real, v: Vectors, slab: Option<Slab>): (r: Result<Vectors>)
    requires Sized(v, |v.dr|)
    ensures r.Ok? <==> dx != 0.0 && Writable(e, dx, |v.dr|, slab)
    ensures dx == 0.0 ==> r == Raises(ZeroDivisionError)
    ensures dx != 0.0 && NodeOf(e.key, dx, |v.dr|).None? ==> r == Raises(IndexError)
    ensures (dx != 0.0 && NodeOf(e.key, dx, |v.dr|).Some? && slab.None? && e.val.sleeper.None?)
              ==> r == Raises(AttributeError)
    ensures r.Ok? ==> var j := NodeOf(e.key, dx, |v.dr|).value;
              && r.value == v.(sp := v.sp[j := e.val.pad.sp / dx],
                               dp := v.dp[j := e.val.pad.dp / dx],
                               ms := v.ms[j := MountMass(e.val, slab) / dx])
  {
    if dx == 0.0 then Raises(ZeroDivisionError)
    else
      var j := NodeOf(e.key, dx, |v.dr|);
      if j.None? then Raises(IndexError)
      else if slab.None? && e.val.sleeper.None? then Raises(AttributeError)
      else
        Ok(v.(sp := v.sp[j.value := e.val.pad.sp / dx],
              dp := v.dp[j.value := e.val.pad.dp / dx],
              ms := v.ms[j.value := MountMass(e.val, slab) / dx]))
  }

  /** The last mount, in dict order, that falls on node j: the one whose values survive. */
  function LastWriter(mp: MountMap, dx: real, nx: nat, j: nat): (w: Option<nat>)
    requires dx != 0.0
    ensures w.Some? ==> w.value < |mp| && NodeOf(mp[w.value].key, dx, nx) == Some(j)
                        && forall k :: w.value < k < |mp| ==> NodeOf(mp[k].key, dx, nx) != Some(j)
    ensures w.None? ==> forall k :: 0 <= k < |mp| ==> NodeOf(mp[k].key, dx, nx) != Some(j)
    decreases |mp|
  {
    if |mp| == 0 then None
    else if NodeOf(mp[|mp| - 1].key, dx, nx) == Some(j) then Some(|mp| - 1)
    else LastWriter(mp[..|mp| - 1], dx, nx, j)
  }

  /** The loop over `mount_prop` in dict order. Iterating the entries stands for the source's
      lookup `mount_prop[i]` of each listed key, which gives the same value since a dict's keys
      are distinct. The first failing mount decides the exception. */
  function WriteMounts(mp: MountMap, dx: real, v: Vectors, slab: Option<Slab>): (r: Result<Vectors>)
    requires Sized(v, |v.dr|)
    ensures r.Ok? <==> |mp| == 0 || (dx != 0.0 && forall k :: 0 <= k < |mp| ==> Writable(mp[k], dx, |v.dr|, slab))
    ensures |mp| > 0 && dx == 0.0 ==> r == Raises(ZeroDivisionError)
    ensures !r.Ok? ==> r.Raises? && r.error in {ZeroDivisionError, IndexError, AttributeError}
    ensures r.Ok? ==> Sized(r.value, |v.dr|)
                      && r.value.dr == v.dr && r.value.sb == v.sb && r.value.db == v.db
    ensures r.Ok? && dx != 0.0 ==> forall j :: 0 <= j < |v.dr| ==>
              match LastWriter(mp, dx, |v.dr|, j)
              case None =>
                r.value.sp[j] == v.sp[j] && r.value.dp[j] == v.dp[j] && r.value.ms[j] == v.ms[j]
              case Some(k) =>
                && r.value.sp[j] == mp[k].val.pad.sp / dx
                && r.value.dp[j] == mp[k].val.pad.dp / dx
                && r.value.ms[j] == MountMass(mp[k].val, slab) / dx
    decreases |mp|
  {
    if |mp| == 0 then Ok(v)
    else
      var w :- WriteMounts(mp[..|mp| - 1], dx, v, slab);
      WriteMount(mp[|mp| - 1], dx, w, slab)
  }

  /** build_superstructure_vectors: dispatch on the track class. Continuous tracks add their
      properties at every node (`+=`, so the masses are 1 + ms); discrete tracks write each
      mount at its node, divided by dx; ballasted discrete tracks then add the ballast,
      divided by dx, at every node. Any other track raises ValueError. */
  function BuildSuperstructureVectors(track: Track, dx: real, v: Vectors): (r: Result<Vectors>)
    requires Sized(v, |v.dr|)
    ensures track.OtherTrack? ==> r == Raises(ValueError)
    ensures track.ContSlab? || track.ContBallasted? ==> r.Ok?
    ensures track.DiscrSlab? ==> r == WriteMounts(track.mountProp, dx, v, Some(track.slab))
    ensures track.DiscrBallasted? ==>
              (r.Ok? <==> dx != 0.0 && WriteMounts(track.mountProp, dx, v, None).Ok?)
    ensures track.DiscrBallasted? && dx == 0.0 ==> r == Raises(ZeroDivisionError)
    ensures !r.Ok? ==> r.Raises? && r.error in {ValueError, ZeroDivisionError, IndexError, AttributeError}
    ensures r.Ok? ==> Sized(r.value, |v.dr|) && r.value.dr == v.dr
  {
    match track
    case ContSlab(_, pad, slab, _) =>
      Ok(v.(sp := AddAll(v.sp, pad.sp), dp := AddAll(v.dp, pad.dp), ms := AddAll(v.ms, slab.ms)))
    case DiscrSlab(_, slab, mp, _) =>
      WriteMounts(mp, dx, v, Some(slab))
    case ContBallasted(_, pad, slab, ballast, _) =>
      Ok(v.(sp := AddAll(v.sp, pad.sp), dp := AddAll(v.dp, pad.dp), ms := AddAll(v.ms, slab.ms),
            sb := AddAll(v.sb, ballast.sb), db := AddAll(v.db, ballast.db)))
    case DiscrBallasted(_, ballast, mp, _) =>
      var w :- WriteMounts(mp, dx, v, None);
      if dx == 0.0 then Raises(ZeroDivisionError)
      else Ok(w.(sb := AddAll(w.sb, ballast.sb / dx), db := AddAll(w.db, ballast.db / dx)))
    case OtherTrack(_, _) =>
      Raises(ValueError)
  }

  /** Vectors as initialize_vectors leaves them, except possibly for the rail damping. */
  predicate Fresh(v: Vectors) {
    && Sized(v, |v.dr|)
    && forall i :: 0 <= i < |v.dr| ==>
         v.sp[i] == 0.0 && v.dp[i] == 0.0 && v.ms[i] == 1.0 && v.sb[i] == 0.0 && v.db[i] == 0.0
  }

  /** A continuous track is homogeneous: every node carries the pad and (for ballasted
      tracks) the ballast, and the mass at every node is the slab mass plus the unit
      placeholder mass of initialize_vectors. */
  lemma ContinuousTrackUniform(track: Track, dx: real, v: Vectors)
    requires track.ContSlab? || track.ContBallasted?
    requires Fresh(v)
    ensures var w := BuildSuperstructureVectors(track, dx, v).value;
            forall i :: 0 <= i < |v.dr| ==>
              && w.sp[i] == track.pad.sp && w.dp[i] == track.pad.dp
              && w.ms[i] == 1.0 + track.slab.ms
              && w.sb[i] == (if track.ContBallasted? then track.ballast.sb else 0.0)
              && w.db[i] == (if track.ContBallasted? then track.ballast.db else 0.0)
  {
  }

  /** On a discretely supported track, a node no mount falls on keeps no support at all
      (sp = dp = 0, unit placeholder mass), and a node mounts fall on carries the values of
      the last of them in dict order, divided by dx. Ballast is spread over every node. */
  lemma DiscreteTrackNodes(track: Track, dx: real, v: Vectors, j: nat)
    requires track.DiscrSlab? || track.DiscrBallasted?
    requires Fresh(v) && j < |v.dr| && dx != 0.0
    requires BuildSuperstructureVectors(track, dx, v).Ok?
    ensures var w := BuildSuperstructureVectors(track, dx, v).value;
            var slab := if track.DiscrSlab? then Some(track.slab) else None;
            && (LastWriter(track.mountProp, dx, |v.dr|, j).None? ==>
                  w.sp[j] == 0.0 && w.dp[j] == 0.0 && w.ms[j] == 1.0)
            && (LastWriter(track.mountProp, dx, |v.dr|, j).Some? ==>
                  var e := track.mountProp[LastWriter(track.mountProp, dx, |v.dr|, j).value];
                  && w.sp[j] == e.val.pad.sp / dx && w.dp[j] == e.val.pad.dp / dx
                  && w.ms[j] == MountMass(e.val, slab) / dx)
            && w.sb[j] == (if track.DiscrBallasted? then track.ballast.sb / dx else 0.0)
            && w.db[j] == (if track.DiscrBallasted? then track.ballast.db / dx else 0.0)
  {
    var slab := if track.DiscrSlab? then Some(track.slab) else None;
    var m := WriteMounts(track.mountProp, dx, v, slab);
    assert m.Ok?;
  }

  /** Mounting positions on [0, l_track], with nx nodes covering l_track (as calc_grid
      chooses nx for dx > 0), all fall on a node, without numpy's wrap-around. */
  lemma MountsOnGrid(mp: MountMap, dx: real, nx: nat, lTrack: real)
    requires dx > 0.0 && lTrack < nx as real * dx
    requires forall k :: 0 <= k < |mp| ==> 0.0 <= mp[k].key <= lTrack
    ensures forall k :: 0 <= k < |mp| ==>
              NodeOf(mp[k].key, dx, nx) == Some(Trunc(mp[k].key / dx))
  {
    forall k | 0 <= k < |mp| ensures NodeOf(mp[k].key, dx, nx) == Some(Trunc(mp[k].key / dx)) {
      var x := mp[k].key;
      var q := x / dx;
      MulDivCancel(x, dx);
      assert q * dx == x;
      assert 0.0 <= q by {
        if q < 0.0 {
          MulStrictMonotone(q, 0.0, dx);
        }
      }
      assert q < nx as real by {
        if q >= nx as real {
          MulMonotone(nx as real, q, dx);
        }
      }
    }
  }

  /** The masses the track contributes leave every node with a non-zero mass. */
  predicate MassesUsable(track: Track) {
    match track
    case ContSlab(_, _, slab, _) => slab.ms >= 0.0
    case ContBallasted(_, _, slab, _, _) => slab.ms >= 0.0
    case DiscrSlab(_, slab, _, _) => slab.ms != 0.0
    case DiscrBallasted(_, _, mp, _) =>
      forall k :: 0 <= k < |mp| && mp[k].val.sleeper.Some? ==> mp[k].val.sleeper.value.ms != 0.0
    case OtherTrack(_, _) => true
  }

  /** With usable masses, the vectors handed to build_matrix have a non-zero mass at every
      node, so its divisions by vec_ms are defined. */
  lemma SuperstructureAdmissible(track: Track, dx: real, v: Vectors)
    requires Fresh(v) && MassesUsable(track) && dx != 0.0
    requires BuildSuperstructureVectors(track, dx, v).Ok?
    ensures Admissible(BuildSuperstructureVectors(track, dx, v).value)
  {
    var w := BuildSuperstructureVectors(track, dx, v).value;
    if track.DiscrSlab? || track.DiscrBallasted? {
      forall j | 0 <= j < |w.ms| ensures w.ms[j] != 0.0 {
        DiscreteNodeMass(track, dx, v, j);
      }
    }
  }

  /** A node of a discretely supported track keeps the placeholder mass 1 or gets the
      non-zero mass of the mount written last to it, divided by dx. */
  lemma DiscreteNodeMass(track: Track, dx: real, v: Vectors, j: nat)
    requires track.DiscrSlab? || track.DiscrBallasted?
    requires Fresh(v) && MassesUsable(track) && dx != 0.0
    requires BuildSuperstructureVectors(track, dx, v).Ok?
    requires j < |BuildSuperstructureVectors(track, dx, v).value.ms|
    ensures BuildSuperstructureVectors(track, dx, v).value.ms[j] != 0.0
  {
    DiscreteTrackNodes(track, dx, v, j);
    var slab := if track.DiscrSlab? then Some(track.slab) else None;
    var lw := LastWriter(track.mountProp, dx, |v.dr|, j);
    if lw.Some? {
      var e := track.mountProp[lw.value];
      assert MountMass(e.val, slab) != 0.0;
    }
  }

  // ---------------------------------------------------------------------------------------
  // DiscretizationEBBVerticConst.__init__

  /** Everything the constructor computes. */
  datatype Discretized = Discretized(steps: Steps, bound: Bound, vectors: Vectors, system: System)

  /** The consistent three-level system of nx nodes: A + C = B - 2I, all 2nx x 2nx. */
  predicate ConsistentSystem(sys: System, nx: nat) {
    && IsMatrix(sys.A, 2 * nx, 2 * nx) && IsMatrix(sys.B, 2 * nx, 2 * nx) && IsMatrix(sys.C, 2 * nx, 2 * nx)
    && forall i, j :: 0 <= i < 2 * nx && 0 <= j < 2 * nx ==>
         sys.A[i][j] + sys.C[i][j] == sys.B[i][j] - (if i == j then 2.0 else 0.0)
  }

  /** initialize_vectors followed by add_boundary_conditions: the vectors as they are handed
      to build_superstructure_vectors. Both steps raise ValueError, for a negative nx and for
      a ramp the rail cannot take. */
  function BoundaryVectors(dr: real, nx: int, pml: seq<real>): (r: Result<Vectors>)
    ensures r.Ok? <==> nx >= 0 && BoundaryFits(nx, |pml|)
    ensures !r.Ok? ==> r == Raises(ValueError)
    ensures r.Ok? ==> Fresh(r.value) && |r.value.dr| == nx
    ensures r.Ok? && |pml| <= nx ==> forall i :: 0 <= i < nx ==>
              r.value.dr[i] == dr + BoundaryExtra(pml, nx, i)
  {
    var v0 :- InitializeVectors(dr, nx);
    var d :- AddBoundaryConditions(v0.dr, pml);
    Ok(v0.(dr := d))
  }

  /** The vectors build_matrix receives: build_superstructure_vectors applied to what
      BoundaryVectors leaves, the first failing step deciding the exception. With usable
      masses every node ends up with a non-zero mass. */
  function SuperstructureVectors(track: Track, dx: real, nx: int, pml: seq<real>): (r: Result<Vectors>)
    requires dx != 0.0 && MassesUsable(track)
    ensures var bv := BoundaryVectors(track.rail.dr, nx, pml);
            && (!bv.Ok? ==> r == Raises(ValueError))
            && (bv.Ok? ==> r == BuildSuperstructureVectors(track, dx, bv.value))
    ensures !r.Ok? ==> r.Raises?
    ensures r.Ok? ==> Sized(r.value, nx) && Admissible(r.value)
  {
    var v :- BoundaryVectors(track.rail.dr, nx, pml);
    var w := BuildSuperstructureVectors(track, dx, v);
    if w.Ok? then SuperstructureAdmissible(track, dx, v); w else w
  }

  /** The part of the constructor after calc_grid and calc_bound: the vectors and matrices.
      It succeeds exactly when every step does, and the first failing step decides the
      exception: initialize_vectors and add_boundary_conditions, build_superstructure_vectors,
      then build_matrix. */
  function AssembleSystem(track: Track, dt: real, dx: real, nx: int, pml: seq<real>)
    : (r: Result<(Vectors, System)>)
    requires dx != 0.0 && MassesUsable(track)
    ensures r.Ok? <==> SuperstructureVectors(track, dx, nx, pml).Ok? && track.rail.mr != 0.0 && nx >= 2
    ensures !SuperstructureVectors(track, dx, nx, pml).Ok? ==>
              r == Raises(SuperstructureVectors(track, dx, nx, pml).error)
    ensures SuperstructureVectors(track, dx, nx, pml).Ok? ==>
              && (track.rail.mr == 0.0 ==> r == Raises(ZeroDivisionError))
              && (track.rail.mr != 0.0 && nx < 2 ==> r == Raises(ValueError))
    ensures r.Ok? ==> SuperstructureVectors(track, dx, nx, pml) == Ok(r.value.0)
    ensures r.Ok? ==> && Admissible(r.value.0)
                      && BuildMatrix(track.rail.E, track.rail.Iyr, track.rail.mr, dt, dx, r.value.0)
                           == Ok(r.value.1)
    ensures r.Ok? ==> nx >= 2 && Sized(r.value.0, nx) && ConsistentSystem(r.value.1, nx)
    ensures track.OtherTrack? ==> !r.Ok?
  {
    var rail := track.rail;
    var v1 :- SuperstructureVectors(track, dx, nx, pml);
    var sys :- BuildMatrix(rail.E, rail.Iyr, rail.mr, dt, dx, v1);
    BuildMatrixConsistent(rail.E, rail.Iyr, rail.mr, dt, dx, v1);
    Ok((v1, sys))
  }

  /** The usual case succeeds: a positive dx, nx >= 2 nodes, a ramp of 1..nx entries, a rail
      with mass, and on a discretely supported track every mount on [0, l_track] with
      l_track < nx * dx (as calc_grid chooses nx) and, on ballasted tracks, a sleeper under
      every mount. */
  lemma AssembleSystemSucceeds(track: Track, dt: real, dx: real, nx: int, pml: seq<real>)
    requires dx > 0.0 && nx >= 2 && 1 <= |pml| <= nx
    requires MassesUsable(track) && track.rail.mr != 0.0 && !track.OtherTrack?
    requires track.DiscrSlab? || track.DiscrBallasted? ==>
               && track.lTrack < nx as real * dx
               && forall k :: 0 <= k < |track.mountProp| ==> 0.0 <= track.mountProp[k].key <= track.lTrack
    requires track.DiscrBallasted? ==>
               forall k :: 0 <= k < |track.mountProp| ==> track.mountProp[k].val.sleeper.Some?
    ensures AssembleSystem(track, dt, dx, nx, pml).Ok?
  {
    var v := BoundaryVectors(track.rail.dr, nx, pml).value;
    if track.DiscrSlab? || track.DiscrBallasted? {
      var mp := track.mountProp;
      MountsOnGrid(mp, dx, nx, track.lTrack);
      var slab := if track.DiscrSlab? then Some(track.slab) else None;
      assert forall k :: 0 <= k < |mp| ==> Writable(mp[k], dx, nx, slab);
      assert WriteMounts(mp, dx, v, slab).Ok?;
    }
    assert BuildSuperstructureVectors(track, dx, v).Ok?;
  }

  /** DiscretizationEBBVerticConst.__init__: calc_grid, calc_bound, initialize_vectors,
      add_boundary_conditions, build_superstructure_vectors and build_matrix, in this order;
      the first exception ends the construction. `scale` stands for the transcendental factor
      of calc_grid as in Grid.CalcSteps. */
  function DiscretizationConst(track: Track, dt: real, reqSimt: real, bx: real, scale: real,
                               lBound: real, pmlFn: (real, seq<real>) -> seq<real>)
    : (r: Result<Discretized>)
    requires dt > 0.0 && scale > 0.0 && MassesUsable(track)
    ensures !CalcSteps(dt, reqSimt, bx, scale, track.lTrack).Ok? ==>
              r == Raises(ZeroDivisionError)
    ensures track.OtherTrack? ==> !r.Ok?
    ensures r.Ok? ==> CalcSteps(dt, reqSimt, bx, scale, track.lTrack) == Ok(r.value.steps)
    ensures r.Ok? ==> CalcBound(track.rail.E, track.rail.Iyr, track.rail.mr, dt,
                                r.value.steps.dx, lBound, pmlFn) == Ok(r.value.bound)
    ensures r.Ok? ==> r.value.steps.nx >= 2 && Sized(r.value.vectors, r.value.steps.nx)
                      && ConsistentSystem(r.value.system, r.value.steps.nx)
    ensures var s := CalcSteps(dt, reqSimt, bx, scale, track.lTrack);
            var rail := track.rail;
            s.Ok? ==>
              var b := CalcBound(rail.E, rail.Iyr, rail.mr, dt, s.value.dx, lBound, pmlFn);
              && (!b.Ok? ==> r == Raises(b.error))
              && (b.Ok? ==>
                    var a := AssembleSystem(track, dt, s.value.dx, s.value.nx, b.value.pml);
                    && (r.Ok? <==> a.Ok?)
                    && (!a.Ok? ==> r == Raises(a.error))
                    && (a.Ok? ==> r == Ok(Discretized(s.value, b.value, a.value.0, a.value.1))))
  {
    var rail := track.rail;
    var s :- CalcSteps(dt, reqSimt, bx, scale, track.lTrack);
    var b :- CalcBound(rail.E, rail.Iyr, rail.mr, dt, s.dx, lBound, pmlFn);
    var vs :- AssembleSystem(track, dt, s.dx, s.nx, b.pml);
    Ok(Discretized(s, b, vs.0, vs.1))
  }

  /** calc_bound accepts a positive dx and a non-negative boundary length. */
  lemma CalcBoundAccepts(E: real, Iyr: real, mr: real, dt: real, dx: real, lBound: real,
                         pmlFn: (real, seq<real>) -> seq<real>)
    requires mr != 0.0 && dt != 0.0 && dx > 0.0 && lBound >= 0.0
    ensures CalcBound(E, Iyr, mr, dt, dx, lBound, pmlFn).Ok?
  {
    var q := lBound / dx;
    assert q >= 0.0 by {
      if q < 0.0 {
        MulDivCancel(lBound, dx);
        MulStrictMonotone(q, 0.0, dx);
      }
    }
  }

  /** The constructor succeeds in the usual case: a grid calc_grid accepts, a non-negative
      boundary length, a rail with mass, at least two nodes, a ramp of 1..nx entries, and on
      a discretely supported track mounts on [0, l_track] (with sleepers on ballasted ones). */
  lemma DiscretizationConstSucceeds(track: Track, dt: real, reqSimt: real, bx: real, scale: real,
                                    lBound: real, pmlFn: (real, seq<real>) -> seq<real>)
    requires dt > 0.0 && scale > 0.0 && bx > 0.0 && bx * scale <= SleeperSpacing
    requires MassesUsable(track) && track.rail.mr != 0.0 && !track.OtherTrack?
    requires track.lTrack >= 0.0 && lBound >= 0.0
    requires track.DiscrSlab? || track.DiscrBallasted? ==>
               forall k :: 0 <= k < |track.mountProp| ==> 0.0 <= track.mountProp[k].key <= track.lTrack
    requires track.DiscrBallasted? ==>
               forall k :: 0 <= k < |track.mountProp| ==> track.mountProp[k].val.sleeper.Some?
    requires var s := CalcSteps(dt, reqSimt, bx, scale, track.lTrack).value;
             var b := CalcBound(track.rail.E, track.rail.Iyr, track.rail.mr, dt, s.dx, lBound, pmlFn);
             s.nx >= 2 && (b.Ok? ==> 1 <= |b.value.pml| <= s.nx)
    ensures DiscretizationConst(track, dt, reqSimt, bx, scale, lBound, pmlFn).Ok?
  {
    var rail := track.rail;
    CalcStepsGrid(dt, reqSimt, bx, scale, track.lTrack);
    var s := CalcSteps(dt, reqSimt, bx, scale, track.lTrack).value;
    CalcBoundAccepts(rail.E, rail.Iyr, rail.mr, dt, s.dx, lBound, pmlFn);
    var b := CalcBound(rail.E, rail.Iyr, rail.mr, dt, s.dx, lBound, pmlFn);
    AssembleSystemSucceeds(track, dt, s.dx, s.nx, b.value.pml);
  }
}

=== FILE: excitation.dfy ===
/** The Gaussian-derivative force pulse of rolland/excitation.py (GaussianImpulse). The
    exponential is an uninterpreted function that is only known to be positive. */
module Excitation {
  import opened Outcomes
  import opened Numerics

  /** The exponential function, given as a parameter; only its positivity is used. */
  ghost predicate ExpPositive(exp: real -> real) {
    forall x: real :: exp(x) > 0.0
  }

  /** The pulse at time t: a * tg / sigma**2 * exp(-tg**2 / sigma**2) with tg = t - 4*sigma. */
  function Pulse(a: real, sigma: real, exp: real -> real, t: real): real
    requires sigma != 0.0
  {
    PowEvenPositive(sigma, 1);
    var tg := t - 4.0 * sigma;
    a * tg / Pow(sigma, 2) * exp(-Pow(tg, 2) / Pow(sigma, 2))
  }

  /** Dividing by and multiplying with positive numbers keeps the sign. */
  lemma SignKept(x: real, d: real, e: real)
    requires d > 0.0 && e > 0.0
    ensures x / d * e > 0.0 <==> x > 0.0
    ensures x / d * e < 0.0 <==> x < 0.0
    ensures x / d * e == 0.0 <==> x == 0.0
  {
    if x > 0.0 {
      assert x / d > 0.0;
      PosMul(x / d, e);
    } else if x < 0.0 {
      assert x / d < 0.0;
      NegMul(x / d, e);
    }
  }

  /** The pulse has the sign of a * (t - 4*sigma). */
  lemma PulseSignOfNumerator(a: real, sigma: real, exp: real -> real, t: real)
    requires sigma != 0.0 && ExpPositive(exp)
    ensures Pulse(a, sigma, exp, t) > 0.0 <==> a * (t - 4.0 * sigma) > 0.0
    ensures Pulse(a, sigma, exp, t) < 0.0 <==> a * (t - 4.0 * sigma) < 0.0
    ensures Pulse(a, sigma, exp, t) == 0.0 <==> a * (t - 4.0 * sigma) == 0.0
  {
    PowEvenPositive(sigma, 1);
    var tg := t - 4.0 * sigma;
    var e := exp(-Pow(tg, 2) / Pow(sigma, 2));
    assert e > 0.0;
    SignKept(a * tg, Pow(sigma, 2), e);
  }

  /** For a non-zero amplitude the pulse vanishes exactly at t = 4*sigma. */
  lemma PulseZeroIff(a: real, sigma: real, exp: real -> real, t: real)
    requires sigma != 0.0 && a != 0.0 && ExpPositive(exp)
    ensures Pulse(a, sigma, exp, t) == 0.0 <==> t == 4.0 * sigma
  {
    PulseSignOfNumerator(a, sigma, exp, t);
    var tg := t - 4.0 * sigma;
    if tg > 0.0 {
      if a > 0.0 { PosMul(a, tg); } else { NegMul(a, tg); }
    } else if tg < 0.0 {
      if a > 0.0 { NegMul(tg, a); } else { NegNeg(a, tg); }
    }
  }

  /** For a positive amplitude the force has the sign of t - 4*sigma. */
  lemma PulseSign(a: real, sigma: real, exp: real -> real, t: real)
    requires sigma != 0.0 && a > 0.0 && ExpPositive(exp)
    ensures Pulse(a, sigma, exp, t) > 0.0 <==> t > 4.0 * sigma
    ensures Pulse(a, sigma, exp, t) < 0.0 <==> t < 4.0 * sigma
  {
    PulseSignOfNumerator(a, sigma, exp, t);
    var tg := t - 4.0 * sigma;
    if tg > 0.0 {
      PosMul(a, tg);
    } else if tg < 0.0 {
      NegMul(tg, a);
    }
  }

  /** The pulse is antisymmetric about its centre 4*sigma: f(4*sigma + s) = -f(4*sigma - s). */
  lemma PulseAntisymmetric(a: real, sigma: real, exp: real -> real, s: real)
    requires sigma != 0.0
    ensures Pulse(a, sigma, exp, 4.0 * sigma + s) == -Pulse(a, sigma, exp, 4.0 * sigma - s)
  {
    PowEvenPositive(sigma, 1);
    PowEvenSymmetric(s, 1);
    var ss := Pow(sigma, 2);
    var e := exp(-Pow(s, 2) / ss);
    assert 4.0 * sigma + s - 4.0 * sigma == s;
    assert 4.0 * sigma - s - 4.0 * sigma == -s;
    var q := a * s / ss;
    assert a * (-s) / ss == -q;
    assert Pulse(a, sigma, exp, 4.0 * sigma + s) == q * e;
    assert Pulse(a, sigma, exp, 4.0 * sigma - s) == (-q) * e;
    assert (-q) * e == -(q * e);
  }

  /** The k-th of nt sample times spread evenly over [0, sim_t], both ends included. */
  function SampleTime(simT: real, nt: int, k: int): real
    requires 1 <= nt
  {
    if nt == 1 then 0.0 else k as real * simT / (nt - 1) as real
  }

  /** GaussianImpulse.__init__: t = linspace(0, sim_t, nt) and the force at every sample time.
      A negative nt makes linspace raise ValueError. */
  function GaussianImpulse(a: real, sigma: real, exp: real -> real, simT: real, nt: int)
    : (force: Result<seq<real>>)
    requires sigma != 0.0
    ensures force.Ok? <==> nt >= 0
    ensures !force.Ok? ==> force == Raises(ValueError)
    ensures force.Ok? ==> |force.value| == nt
    ensures force.Ok? ==> forall k :: 0 <= k < nt ==>
              force.value[k] == Pulse(a, sigma, exp, SampleTime(simT, nt, k))
  {
    var t :- Linspace(0.0, simT, nt);
    var force := seq(nt, k requires 0 <= k < nt => Pulse(a, sigma, exp, t[k]));
    if nt >= 1 then
      SampleTimes(simT, nt);
      Ok(force)
    else
      Ok(force)
  }

  /** linspace(0, sim_t, nt) is exactly the sequence of sample times. */
  lemma SampleTimes(simT: real, nt: int)
    requires nt >= 1
    ensures forall k :: 0 <= k < nt ==> Linspace(0.0, simT, nt).value[k] == SampleTime(simT, nt, k)
  {
    if nt >= 2 {
      forall k | 0 <= k < nt ensures Linspace(0.0, simT, nt).value[k] == SampleTime(simT, nt, k) {
        SampleTimeAt(simT, nt, k);
      }
    }
  }

  /** Sample k of linspace(0, sim_t, nt): k steps of sim_t/(nt-1), the last one exactly sim_t. */
  lemma SampleTimeAt(simT: real, nt: int, k: int)
    requires nt >= 2 && 0 <= k < nt
    ensures Linspace(0.0, simT, nt).value[k] == SampleTime(simT, nt, k)
  {
    var n := (nt - 1) as real;
    LinspaceAt(0.0, simT, nt, k);
    assert (simT - 0.0) / n == simT / n;
    if k == nt - 1 {
      assert k as real == n;
      MulDivCancel(simT, n);
      assert (simT / n) * n == n * (simT / n);
      MulDivAssoc(n, simT, n);
    } else {
      assert Linspace(0.0, simT, nt).value[k] == k as real * (simT / n);
      MulDivAssoc(k as real, simT, n);
      assert SampleTime(simT, nt, k) == k as real * simT / n;
    }
  }

  /** The force starts at time 0 and (for nt >= 2) its last sample is taken at sim_t. With
      sim_t = nt*dt as the grid sets it, consecutive samples are sim_t/(nt-1) = dt + dt/(nt-1)
      apart, more than the time step dt the deflection is advanced by. */
  lemma ImpulseSampleSpacing(simT: real, dt: real, nt: int)
    requires nt >= 2 && dt > 0.0 && simT == nt as real * dt
    ensures SampleTime(simT, nt, 0) == 0.0
    ensures SampleTime(simT, nt, nt - 1) == simT
    ensures forall k :: 0 <= k < nt - 1 ==>
              SampleTime(simT, nt, k + 1) - SampleTime(simT, nt, k) == dt + dt / (nt - 1) as real
    ensures dt + dt / (nt - 1) as real > dt
  {
    var n := (nt - 1) as real;
    MulDivCancel(simT, n);
    assert simT / n == dt + dt / n by {
      assert (dt + dt / n) * n == dt * n + dt;
    }
    forall k | 0 <= k < nt - 1
      ensures SampleTime(simT, nt, k + 1) - SampleTime(simT, nt, k) == dt + dt / n
    {
      var a := k as real * simT;
      assert (k + 1) as real * simT == a + simT;
      DivAdd(a, simT, n);
    }
  }
}

=== FILE: grid.dfy ===
/** Grid parameters of the finite-difference scheme (rolland/grid.py, and `calc_grid` in
    rolland/discretization.py, which repeats the same formulas). */
module Grid {
  import opened Outcomes
  import opened Numerics

  /** The default sleeper spacing the spatial step is aligned to. */
  const SleeperSpacing: real := 0.6

  /** The values calc_grid computes. */
  datatype Steps = Steps(nt: int, simT: real, dx: real, bxUpd: real, nx: int)

  /** GridFDMStampka: the steps plus the domain and boundary lengths. */
  datatype GridParams = GridParams(steps: Steps, lDomain: real, lBound: real)

  /** `0.6 // dx_min` for dx_min != 0: Python's floor division of floats. */
  function CellsPerSpacing(dxMin: real): int
    requires dxMin != 0.0
  {
    (SleeperSpacing / dxMin).Floor
  }

  /** 0.6 / k >= 0.6 / (0.6 / dx_min) = dx_min when 1 <= k <= 0.6 / dx_min. */
  lemma StepAtLeastMinimum(dxMin: real, k: int)
    requires dxMin > 0.0 && 1 <= k && k as real <= SleeperSpacing / dxMin
    ensures SleeperSpacing / k as real >= dxMin
  {
    MulMonotone(k as real, SleeperSpacing / dxMin, dxMin);
    MulDivCancel(SleeperSpacing, dxMin);
    assert k as real * dxMin <= SleeperSpacing;
  }

  /** 0.6 // dx_min is 0 for a positive dx_min exactly when dx_min exceeds 0.6. */
  lemma NoCellIffTooWide(dxMin: real)
    requires dxMin > 0.0
    ensures CellsPerSpacing(dxMin) == 0 <==> dxMin > SleeperSpacing
    ensures CellsPerSpacing(dxMin) >= 0
  {
    var y := SleeperSpacing / dxMin;
    MulDivCancel(SleeperSpacing, dxMin);
    if dxMin > SleeperSpacing {
      MulStrictMonotone(y, 1.0, dxMin);
    } else {
      MulMonotone(1.0, y, dxMin) by {
        if y < 1.0 { MulStrictMonotone(y, 1.0, dxMin); }
      }
    }
  }

  /** floor(l / dx) * dx <= l < (floor(l / dx) + 1) * dx for dx > 0 and l >= 0. */
  lemma TruncMultiple(l: real, dx: real)
    requires dx > 0.0 && l >= 0.0
    ensures Trunc(l / dx) as real * dx <= l < (Trunc(l / dx) + 1) as real * dx
  {
    var q := Trunc(l / dx);
    QuotientBracket(l, dx, q as real, (q + 1) as real);
  }

  /** a <= l / dx < b gives a*dx <= l < b*dx for dx > 0. */
  lemma QuotientBracket(l: real, dx: real, a: real, b: real)
    requires dx > 0.0 && a <= l / dx < b
    ensures a * dx <= l < b * dx
  {
    var q := l / dx;
    MulDivCancel(l, dx);
    assert q * dx == l;
    MulMonotone(a, q, dx);
    assert a * dx <= q * dx;
    MulStrictMonotone(q, b, dx);
    assert q * dx < b * dx;
  }

  /** calc_grid (and the first part of GridFDMStampka.__init__). The fourth root and the square
      root are folded into `scale` = ((E*Iyr)/(6*mr))^(1/4) * dt^(1/2), a positive input, so that
      dx_min = bx * scale. A zero dx_min, or a dx_min above 0.6 (floor division gives 0), makes
      the division by `0.6 // dx_min` raise ZeroDivisionError. */
  function CalcSteps(dt: real, reqSimt: real, bx: real, scale: real, lTrack: real): (r: Result<Steps>)
    requires dt > 0.0 && scale > 0.0
    ensures !r.Ok? ==> r == Raises(ZeroDivisionError)
    ensures bx > 0.0 ==> (r.Ok? <==> bx * scale <= SleeperSpacing)
    ensures bx == 0.0 ==> !r.Ok?
    ensures r.Ok? ==> r.value.simT == r.value.nt as real * dt
    ensures r.Ok? && reqSimt >= 0.0 ==>
              r.value.nt >= 0 && r.value.simT <= reqSimt < r.value.simT + dt
    ensures r.Ok? ==> r.value.bxUpd * scale == r.value.dx && r.value.dx != 0.0
  {
    var nt := Trunc(reqSimt / dt);
    var simT := nt as real * dt;
    var dxMin := bx * scale;
    if dxMin == 0.0 then Raises(ZeroDivisionError)
    else
      var k := CellsPerSpacing(dxMin);
      if k == 0 then
        assert bx > 0.0 ==> dxMin > SleeperSpacing by {
          if bx > 0.0 { NoCellIffTooWide(dxMin); }
        }
        Raises(ZeroDivisionError)
      else
        var dx := SleeperSpacing / k as real;
        var s := Steps(nt, simT, dx, dx / scale, Trunc(lTrack / dx) + 1);
        CalcStepsFacts(dt, reqSimt, bx, scale, lTrack, k, dx, s);
        Ok(s)
  }

  /** For a positive bx the step calc_grid picks divides 0.6 a whole number of times, is at
      least dx_min (so bx_upd >= bx), and nx cells of it cover l_track: (nx-1)*dx <= l_track < nx*dx. */
  lemma CalcStepsGrid(dt: real, reqSimt: real, bx: real, scale: real, lTrack: real)
    requires dt > 0.0 && scale > 0.0 && bx > 0.0
    requires CalcSteps(dt, reqSimt, bx, scale, lTrack).Ok?
    ensures var s := CalcSteps(dt, reqSimt, bx, scale, lTrack).value;
            && s.dx > 0.0
            && (SleeperSpacing / s.dx).Floor as real == SleeperSpacing / s.dx
            && SleeperSpacing / s.dx >= 1.0
            && s.dx >= bx * scale
            && s.bxUpd >= bx
            && (lTrack >= 0.0 ==> s.nx >= 1 && (s.nx - 1) as real * s.dx <= lTrack < s.nx as real * s.dx)
  {
    var k := CellsPerSpacing(bx * scale);
    var dx := SleeperSpacing / k as real;
    CalcStepsFacts(dt, reqSimt, bx, scale, lTrack, k, dx, CalcSteps(dt, reqSimt, bx, scale, lTrack).value);
  }

  lemma CalcStepsFacts(dt: real, reqSimt: real, bx: real, scale: real, lTrack: real, k: int, dx: real,
                       s: Steps)
    requires dt > 0.0 && scale > 0.0 && bx * scale != 0.0
    requires k == CellsPerSpacing(bx * scale) && k != 0 && dx == SleeperSpacing / k as real
    requires s == Steps(Trunc(reqSimt / dt), Trunc(reqSimt / dt) as real * dt, dx, dx / scale,
                        Trunc(lTrack / dx) + 1)
    ensures s.simT == s.nt as real * dt
    ensures reqSimt >= 0.0 ==> s.nt >= 0 && s.simT <= reqSimt < s.simT + dt
    ensures s.bxUpd * scale == s.dx && s.dx != 0.0
    ensures bx > 0.0 ==> bx * scale <= SleeperSpacing
    ensures bx > 0.0 ==>
              && s.dx > 0.0
              && (SleeperSpacing / s.dx).Floor as real == SleeperSpacing / s.dx
              && SleeperSpacing / s.dx >= 1.0
              && s.dx >= bx * scale
              && s.bxUpd >= bx
    ensures bx > 0.0 && lTrack >= 0.0 ==>
              && s.nx >= 1
              && (s.nx - 1) as real * s.dx <= lTrack < s.nx as real * s.dx
  {
    if reqSimt >= 0.0 {
      TruncMultiple(reqSimt, dt);
    }
    MulDivCancel(dx, scale);
    if bx > 0.0 {
      var dxMin := bx * scale;
      assert dxMin > 0.0;
      NoCellIffTooWide(dxMin);
      assert k >= 1;
      assert SleeperSpacing / dx == k as real;
      StepAtLeastMinimum(dxMin, k);
      MulMonotone(dxMin, dx, 1.0 / scale);
      assert dx / scale >= bx;
      if lTrack >= 0.0 {
        TruncMultiple(lTrack, dx);
      }
    }
  }

  /** GridFDMStampka.__init__: calc_grid's steps, then l_domain = (nx-1)*dx and
      l_bound = n_bound*dx. */
  function StampkaGrid(dt: real, reqSimt: real, bx: real, scale: real, lTrack: real, nBound: int)
    : (r: Result<GridParams>)
    requires dt > 0.0 && scale > 0.0
    ensures r.Ok? <==> CalcSteps(dt, reqSimt, bx, scale, lTrack).Ok?
    ensures r.Ok? ==> r.value.steps == CalcSteps(dt, reqSimt, bx, scale, lTrack).value
    ensures r.Ok? && bx > 0.0 && lTrack >= 0.0 ==>
              r.value.lDomain <= lTrack < r.value.lDomain + r.value.steps.dx
    ensures r.Ok? ==> r.value.lBound == nBound as real * r.value.steps.dx
  {
    var s :- CalcSteps(dt, reqSimt, bx, scale, lTrack);
    if bx > 0.0 then
      CalcStepsGrid(dt, reqSimt, bx, scale, lTrack);
      Ok(GridParams(s, (s.nx - 1) as real * s.dx, nBound as real * s.dx))
    else
      Ok(GridParams(s, (s.nx - 1) as real * s.dx, nBound as real * s.dx))
  }
}

=== FILE: legacy_arrangement.dfy ===
/** The older arrangement generators (src/arrangement.py). Their loops are the
    same as the rolland ones, so they are defined through them and restate the
    guarantees a caller of the older classes gets. */
module LegacyArrangement {
  import opened Outcomes
  import opened Arrangement

  /** PeriodicArrangment.generate(num_mount) (the class name is spelled so in the source). */
  function PeriodicArrangmentGenerate<T>(item: Item<T>, numMount: int): (g: Gen<T>)
    ensures numMount <= 0 ==> g == Gen([], Stop)
    ensures item.Single? && numMount > 0 ==>
              && g.tail == Stop
              && |g.values| == numMount
              && forall k :: 0 <= k < |g.values| ==> g.values[k] == item.value
    ensures item.Many? && |item.items| > 0 && numMount > 0 ==>
              && g.tail == Stop
              && |g.values| % |item.items| == 0
              && numMount <= |g.values| < numMount + |item.items|
              && forall k :: 0 <= k < |g.values| ==> g.values[k] == item.items[k % |item.items|]
    ensures item == Many([]) && numMount > 0 ==> g.values == [] && g.tail == Hang
  {
    PeriodicGenerate(item, numMount)
  }

  /** StochasticArrangement.generate(num_mount), random.choice as the draw oracle. */
  function StochasticGenerate<T>(item: Item<T>, numMount: int, draw: nat -> nat): (g: Gen<T>)
    requires ValidDraws(item, draw)
    ensures numMount <= 0 ==> g == Gen([], Stop)
    ensures Advances(item) && numMount > 0 ==>
              && g.tail == Stop
              && |g.values| == numMount
              && forall k :: 0 <= k < |g.values| ==> FromItem(item, g.values[k])
    ensures item == Many([]) && numMount > 0 ==> g.values == [] && g.tail == Raise(IndexError)
  {
    RandomGenerate(item, numMount, draw)
  }
}

=== FILE: legacy_track.dfy ===
/** The legacy track classes (src/track.py): mounting positions from a sleeper-distance
    layout, and the per-position property dictionaries of the discretely mounted tracks. */
module LegacyTrack {
  import opened Outcomes
  import opened Numerics
  import opened PyDict

  /** A layout of the sleeper distance or the sleeper mass, whose stochastic branches treat
      mean, std and limits as floats. Unset is the trait's default None, which matches
      none of the isinstance tests. The truncated-normal draws of a stochastic layout are
      an oracle: `draw(k)` is the value drawn on the k-th call. */
  datatype Layout =
    | LayoutConst(value: real)
    | LayoutPeriod(period: seq<real>)
    | LayoutStoch(mean: real, std: real, limMin: real, limMax: real, draw: nat -> real)
    | Unset

  /** A trait value declared as `Union((Float(), List(Float())))`: a float or a list of floats. */
  datatype Num = Scalar(x: real) | Floats(xs: seq<real>)

  /** A layout of the pad stiffness. Its stochastic branch indexes mean, std and limits
      component by component, so they are floats or lists; `draw(k, i)` is the value drawn
      for component i at the k-th mounting position. */
  datatype PadLayout =
    | PadConst(value: Num)
    | PadPeriod(period: seq<real>)
    | PadStoch(mean: Num, std: Num, limMin: Num, limMax: Num, draw: (nat, nat) -> real)
    | PadUnset

  /** The error of one truncated-normal draw `truncnorm((lim_min - mean)/std,
      (lim_max - mean)/std, loc=mean, scale=std).rvs(1)`: standardising the limits divides
      by std, and rvs rejects a negative scale or bounds with a >= b. */
  function TruncnormError(mean: real, std: real, limMin: real, limMax: real): (r: Option<Error>)
    ensures r.None? <==> std > 0.0 && limMin < limMax
    ensures r == Some(ZeroDivisionError) <==> std == 0.0
    ensures r.Some? && std != 0.0 ==> r == Some(ValueError)
  {
    if std == 0.0 then Some(ZeroDivisionError)
    else if std < 0.0 then Some(ValueError)
    else
      StandardisedOrder(mean, std, limMin, limMax);
      if (limMin - mean) / std < (limMax - mean) / std then None else Some(ValueError)
  }

  /** Standardised bounds keep their order under a positive scale, so `a < b` is exactly
      `lim_min < lim_max`. */
  lemma StandardisedOrder(mean: real, std: real, limMin: real, limMax: real)
    requires std > 0.0
    ensures (limMin - mean) / std < (limMax - mean) / std <==> limMin < limMax
  {
    var a := (limMin - mean) / std;
    var b := (limMax - mean) / std;
    assert a * std == limMin - mean;
    assert b * std == limMax - mean;
    if a < b {
      assert a * std < b * std;
    } else {
      assert b * std <= a * std;
    }
  }

  /** truncnorm only returns values inside [lim_min, lim_max]. */
  ghost predicate DrawsWithin(layout: Layout)
  {
    layout.LayoutStoch? ==> forall k: nat :: layout.limMin <= layout.draw(k) <= layout.limMax
  }

  /** One value of `mount_prop`: {'pad': DiscrPad(sp), 'sleeper': Sleeper(ms)}, the sleeper
      entry being present only once a sleeper layout has been applied. */
  datatype LegacyMount = LegacyMount(padSp: Num, sleeperMs: Option<real>)

  type LegacyMap = Dict<LegacyMount>

  /** Position i of a periodic layout: whole periods so far plus the first i mod L entries. */
  function PeriodicPosition(period: seq<real>, i: nat): real
    requires |period| > 0
  {
    Sum(period[..i % |period|]) + (i / |period|) as real * Sum(period)
  }

  /** The stochastic loop: start with [0.0] and append last + draw until n positions. */
  function StochPositions(draw: nat -> real, n: nat): (xs: seq<real>)
    requires n >= 1
    ensures |xs| == n && xs[0] == 0.0
    ensures forall k {:trigger draw(k)} :: 0 <= k < n - 1 ==> xs[k + 1] == xs[k] + draw(k)
  {
    if n == 1 then [0.0]
    else
      var xs := StochPositions(draw, n - 1);
      xs + [xs[n - 2] + draw(n - 2)]
  }

  /** calc_mount_pos (identical in both discrete track classes). An Unset layout leaves
      `mount_pos` unassigned, so the constructor's read of it raises AttributeError. */
  function CalcMountPos(layout: Layout, numMountPos: int): (r: Result<seq<real>>)
    requires numMountPos >= 1
    ensures layout.Unset? ==> r == Raises(AttributeError)
    ensures r.Ok? ==> |r.value| == numMountPos
    ensures layout.LayoutConst? ==>
              r.Ok? && forall i :: 0 <= i < numMountPos ==> r.value[i] == layout.value * i as real
    ensures layout.LayoutPeriod? ==> (r.Ok? <==> |layout.period| > 0)
    ensures layout.LayoutPeriod? && !r.Ok? ==> r == Raises(ZeroDivisionError)
    ensures layout.LayoutStoch? ==>
              (r.Ok? <==> numMountPos == 1 || (layout.std > 0.0 && layout.limMin < layout.limMax))
    ensures layout.LayoutStoch? && !r.Ok? ==>
              (r == Raises(ZeroDivisionError) <==> layout.std == 0.0)
              && (layout.std != 0.0 ==> r == Raises(ValueError))
    ensures layout.LayoutStoch? && r.Ok? ==>
              r.value[0] == 0.0
              && forall k {:trigger layout.draw(k)} :: 0 <= k < numMountPos - 1 ==> r.value[k + 1] == r.value[k] + layout.draw(k)
  {
    match layout
    case LayoutConst(v) => Ok(seq(numMountPos, i requires 0 <= i < numMountPos => v * i as real))
    case LayoutPeriod(period) =>
      if |period| == 0 then Raises(ZeroDivisionError)
      else Ok(seq(numMountPos, i requires 0 <= i < numMountPos => PeriodicPosition(period, i)))
    case LayoutStoch(mean, std, limMin, limMax, draw) =>
      var err := TruncnormError(mean, std, limMin, limMax);
      if numMountPos >= 2 && err.Some? then Raises(err.value)
      else Ok(StochPositions(draw, numMountPos))
    case Unset => Raises(AttributeError)
  }

  /** Position q*L + m of a periodic layout, for 0 <= m < L. */
  lemma PeriodicPositionAt(period: seq<real>, i: nat, q: nat, m: nat)
    requires 0 <= m < |period| && i == q * |period| + m
    ensures PeriodicPosition(period, i) == Sum(period[..m]) + q as real * Sum(period)
  {
    var p := |period|;
    DivModUnique(q, p, m);
    assert i / p == q && i % p == m;
    assert PeriodicPosition(period, i) == Sum(period[..i % p]) + (i / p) as real * Sum(period);
  }

  /** Consecutive periodic positions differ by the period entry in force. */
  lemma PeriodicPositionStep(period: seq<real>, i: nat)
    requires |period| > 0
    ensures PeriodicPosition(period, i + 1) == PeriodicPosition(period, i) + period[i % |period|]
  {
    var p := |period|;
    var q := i / p;
    var m := i % p;
    PeriodicPositionAt(period, i, q, m);
    SumPrefix(period, m);
    if m + 1 < p {
      PeriodicPositionAt(period, i + 1, q, m + 1);
    } else {
      assert period[..m + 1] == period;
      PeriodicPositionAt(period, i + 1, q + 1, 0);
      assert (q + 1) as real * Sum(period) == q as real * Sum(period) + Sum(period);
    }
  }

  /** A periodic layout starts at 0 and steps by period[i mod L]. */
  lemma PeriodicPositions(period: seq<real>, numMountPos: int)
    requires numMountPos >= 1 && |period| > 0
    ensures var r := CalcMountPos(LayoutPeriod(period), numMountPos);
            && r.Ok?
            && r.value[0] == 0.0
            && forall i :: 0 <= i < numMountPos - 1 ==> r.value[i + 1] - r.value[i] == period[i % |period|]
  {
    var r := CalcMountPos(LayoutPeriod(period), numMountPos);
    assert r.value[0] == PeriodicPosition(period, 0);
    forall i | 0 <= i < numMountPos - 1
      ensures r.value[i + 1] - r.value[i] == period[i % |period|]
    {
      PeriodicPositionStep(period, i);
    }
  }

  /** Stochastic positions with draws in [lim_min, lim_max]: position k lies in
      [k*lim_min, k*lim_max], and with lim_min > 0 the positions strictly increase. */
  lemma StochPositionBounds(layout: Layout, numMountPos: int)
    requires numMountPos >= 1 && layout.LayoutStoch? && DrawsWithin(layout)
    ensures var r := CalcMountPos(layout, numMountPos);
            r.Ok? ==> forall k :: 0 <= k < numMountPos ==>
                        k as real * layout.limMin <= r.value[k] <= k as real * layout.limMax
  {
    var r := CalcMountPos(layout, numMountPos);
    if r.Ok? {
      var xs := StochPositions(layout.draw, numMountPos);
      assert r.value == xs;
      StochWithin(layout.draw, numMountPos, layout.limMin, layout.limMax);
      forall k | 0 <= k < numMountPos
        ensures k as real * layout.limMin <= r.value[k] <= k as real * layout.limMax
      {
        assert r.value[k] == xs[k];
      }
    }
  }

  /** With every draw in [lo, hi], position k of the stochastic loop lies in [k*lo, k*hi]. */
  lemma {:induction false} StochWithin(draw: nat -> real, n: nat, lo: real, hi: real)
    requires n >= 1 && forall k: nat :: lo <= draw(k) <= hi
    ensures forall k :: 0 <= k < n ==>
              k as real * lo <= StochPositions(draw, n)[k] <= k as real * hi
  {
    if n > 1 {
      StochWithin(draw, n - 1, lo, hi);
      var xs := StochPositions(draw, n - 1);
      var ys := StochPositions(draw, n);
      assert ys == xs + [xs[n - 2] + draw(n - 2)];
      forall k | 0 <= k < n ensures k as real * lo <= ys[k] <= k as real * hi {
        if k < n - 1 {
          assert ys[k] == xs[k];
        } else {
          var a := (n - 2) as real;
          assert a * lo <= xs[n - 2] <= a * hi;
          assert ys[k] == xs[n - 2] + draw(n - 2);
          StepWithin(a, k as real, lo, hi, xs[n - 2], draw(n - 2));
        }
      }
    }
  }

  /** One more draw within [lo, hi] moves a position within [a*lo, a*hi] to [b*lo, b*hi], b = a+1. */
  lemma StepWithin(a: real, b: real, lo: real, hi: real, x: real, d: real)
    requires b == a + 1.0 && a * lo <= x <= a * hi && lo <= d <= hi
    ensures b * lo <= x + d <= b * hi
  {
    assert b * lo == a * lo + lo;
    assert b * hi == a * hi + hi;
  }

  lemma {:induction false} StochPositionsIncrease(layout: Layout, numMountPos: int)
    requires numMountPos >= 1 && layout.LayoutStoch? && DrawsWithin(layout) && layout.limMin > 0.0
    ensures var r := CalcMountPos(layout, numMountPos);
            r.Ok? ==> forall i, j :: 0 <= i < j < numMountPos ==> r.value[i] < r.value[j]
  {
    var r := CalcMountPos(layout, numMountPos);
    if r.Ok? {
      var xs := r.value;
      forall i, j | 0 <= i < j < numMountPos ensures xs[i] < xs[j] {
        var k := i;
        while k < j
          invariant i <= k <= j
          invariant xs[i] <= xs[k] && (k > i ==> xs[i] < xs[k])
        {
          assert layout.limMin <= layout.draw(k);
          k := k + 1;
        }
      }
    }
  }

  /** The values a property layout assigns to the positions enumerated in order, or None
      when the layout is Unset and nothing is written. */
  function LayoutValues(layout: Layout, n: nat): (r: Result<Option<seq<real>>>)
    ensures layout.Unset? <==> r == Ok(None)
    ensures r.Ok? && r.value.Some? ==> |r.value.value| == n
    ensures !r.Ok? <==> n > 0 && ((layout.LayoutPeriod? && |layout.period| == 0)
                                  || (layout.LayoutStoch?
                                      && !(layout.std > 0.0 && layout.limMin < layout.limMax)))
    ensures !r.Ok? ==> r.Raises?
    ensures r == Raises(ZeroDivisionError) <==>
              n > 0 && ((layout.LayoutPeriod? && |layout.period| == 0)
                        || (layout.LayoutStoch? && layout.std == 0.0))
    ensures layout.LayoutConst? ==> forall i :: 0 <= i < n ==> r.value.value[i] == layout.value
    ensures layout.LayoutPeriod? && r.Ok? ==>
              forall i :: 0 <= i < n ==> r.value.value[i] == layout.period[i % |layout.period|]
    ensures layout.LayoutStoch? && r.Ok? ==>
              forall i :: 0 <= i < n ==> r.value.value[i] == layout.draw(i)
  {
    match layout
    case LayoutConst(v) => Ok(Some(seq(n, _ => v)))
    case LayoutPeriod(period) =>
      if n > 0 && |period| == 0 then Raises(ZeroDivisionError)
      else Ok(Some(seq(n, i requires 0 <= i < n => period[i % |period|])))
    case LayoutStoch(mean, std, limMin, limMax, draw) =>
      var err := TruncnormError(mean, std, limMin, limMax);
      if n > 0 && err.Some? then Raises(err.value)
      else Ok(Some(seq(n, i requires 0 <= i < n => draw(i))))
    case Unset => Ok(None)
  }

  /** `v[i]` for a float-or-list trait value: indexing a float raises TypeError, an index
      past the end of the list IndexError. */
  function Item(v: Num, i: nat): (r: Result<real>)
    ensures r.Ok? <==> v.Floats? && i < |v.xs|
    ensures r.Ok? ==> r.value == v.xs[i]
    ensures !r.Ok? ==> r == Raises(if v.Scalar? then TypeError else IndexError)
  {
    match v
    case Scalar(_) => Raises(TypeError)
    case Floats(xs) => if i < |xs| then Ok(xs[i]) else Raises(IndexError)
  }

  /** Component i of a stochastic pad layout can be drawn: the three lists reach index i,
      the deviation is positive and the limits are in order. */
  predicate ComponentOk(std: Num, limMin: Num, limMax: Num, i: nat)
  {
    && limMin.Floats? && std.Floats? && limMax.Floats?
    && i < |limMin.xs| && i < |std.xs| && i < |limMax.xs|
    && std.xs[i] > 0.0 && limMin.xs[i] < limMax.xs[i]
  }

  /** The error of the draw for component i, in Python's evaluation order: `lim_min[i]`,
      `std[i]`, the division, `lim_max[i]`, then truncnorm. (`mean[i]` exists, since i ranges
      over `len(mean)`.) */
  function ComponentError(mean: seq<real>, std: Num, limMin: Num, limMax: Num, i: nat)
    : (r: Option<Error>)
    requires i < |mean|
    ensures r.None? <==> ComponentOk(std, limMin, limMax, i)
    ensures limMin.Scalar? ==> r == Some(TypeError)
    ensures r == Some(ZeroDivisionError) <==>
              limMin.Floats? && i < |limMin.xs| && std.Floats? && i < |std.xs| && std.xs[i] == 0.0
    ensures r == Some(ValueError) <==>
              && limMin.Floats? && std.Floats? && limMax.Floats?
              && i < |limMin.xs| && i < |std.xs| && i < |limMax.xs| && std.xs[i] != 0.0
              && (std.xs[i] < 0.0 || limMin.xs[i] >= limMax.xs[i])
    ensures r.Some? ==> r.value in {TypeError, IndexError, ZeroDivisionError, ValueError}
  {
    var lo := Item(limMin, i);
    var s := Item(std, i);
    var hi := Item(limMax, i);
    if !lo.Ok? then Some(lo.error)
    else if !s.Ok? then Some(s.error)
    else if s.value == 0.0 then Some(ZeroDivisionError)
    else if !hi.Ok? then Some(hi.error)
    else TruncnormError(mean[i], s.value, lo.value, hi.value)
  }

  /** The list comprehension over `range(len(mean))` from component `from` on: the error of
      the first component that cannot be drawn, if any. */
  function FirstComponentError(mean: seq<real>, std: Num, limMin: Num, limMax: Num, from: nat)
    : (r: Option<Error>)
    decreases |mean| - from
    ensures r.None? <==> forall i :: from <= i < |mean| ==> ComponentOk(std, limMin, limMax, i)
    ensures r.Some? ==>
              exists i :: from <= i < |mean| && r == ComponentError(mean, std, limMin, limMax, i)
                          && forall j :: from <= j < i ==> ComponentOk(std, limMin, limMax, j)
  {
    if from >= |mean| then None
    else
      var e := ComponentError(mean, std, limMin, limMax, from);
      if e.Some? then e
      else FirstComponentError(mean, std, limMin, limMax, from + 1)
  }

  /** The pad values of a stochastic layout at n positions: a list of len(mean) draws per
      position. The comprehension fails identically at the first position, so an error is
      raised iff there is a position; a float mean has no len() and raises TypeError. */
  function PadValues(layout: PadLayout, n: nat): (r: Result<Option<seq<Num>>>)
    ensures layout.PadUnset? <==> r == Ok(None)
    ensures r.Ok? && r.value.Some? ==> |r.value.value| == n
    ensures !r.Ok? ==> r.Raises?
    ensures layout.PadConst? ==> r.Ok? && forall k :: 0 <= k < n ==> r.value.value[k] == layout.value
    ensures layout.PadPeriod? ==> (r.Ok? <==> n == 0 || |layout.period| > 0)
    ensures layout.PadPeriod? && !r.Ok? ==> r == Raises(ZeroDivisionError)
    ensures layout.PadPeriod? && r.Ok? ==> forall k :: 0 <= k < n ==>
              r.value.value[k] == Scalar(layout.period[k % |layout.period|])
    ensures layout.PadStoch? ==>
              (r.Ok? <==> n == 0 || (layout.mean.Floats? && forall i :: 0 <= i < |layout.mean.xs| ==>
                                       ComponentOk(layout.std, layout.limMin, layout.limMax, i)))
    ensures layout.PadStoch? && n > 0 && layout.mean.Scalar? ==> r == Raises(TypeError)
    ensures layout.PadStoch? && layout.mean.Floats? && !r.Ok? ==>
              exists i :: 0 <= i < |layout.mean.xs|
                          && Some(r.error) == ComponentError(layout.mean.xs, layout.std, layout.limMin, layout.limMax, i)
                          && forall j :: 0 <= j < i ==> ComponentOk(layout.std, layout.limMin, layout.limMax, j)
    ensures layout.PadStoch? && layout.mean.Floats? && r.Ok? ==> forall k :: 0 <= k < n ==>
              r.value.value[k].Floats? && |r.value.value[k].xs| == |layout.mean.xs|
              && forall i :: 0 <= i < |layout.mean.xs| ==> r.value.value[k].xs[i] == layout.draw(k, i)
  {
    match layout
    case PadConst(v) => Ok(Some(seq(n, _ => v)))
    case PadPeriod(period) =>
      if n > 0 && |period| == 0 then Raises(ZeroDivisionError)
      else Ok(Some(seq(n, k requires 0 <= k < n => Scalar(period[k % |period|]))))
    case PadStoch(mean, std, limMin, limMax, draw) =>
      if n == 0 then Ok(Some([]))
      else if mean.Scalar? then Raises(TypeError)
      else
        var m := |mean.xs|;
        var err := FirstComponentError(mean.xs, std, limMin, limMax, 0);
        if err.Some? then Raises(err.value)
        else Ok(Some(seq(n, k requires 0 <= k < n => Floats(seq(m, i requires 0 <= i < m => draw(k, i))))))
    case PadUnset => Ok(None)
  }

  function PadMounts(sps: seq<Num>): (ms: seq<LegacyMount>)
    ensures |ms| == |sps| && forall i :: 0 <= i < |sps| ==> ms[i] == LegacyMount(sps[i], None)
  {
    seq(|sps|, i requires 0 <= i < |sps| => LegacyMount(sps[i], None))
  }

  /** mount_properties of DiscrSlappedSingleRailTrack: a fresh dict, then
      `mount_prop[pos] = {'pad': ...}` for each position in order (a repeated position keeps
      the value of its last occurrence). */
  function SlabMountProperties(pos: seq<real>, padLayout: PadLayout): (r: Result<LegacyMap>)
    ensures r.Ok? <==> PadValues(padLayout, |pos|).Ok?
    ensures !r.Ok? ==> r == Raises(PadValues(padLayout, |pos|).error)
    ensures r.Ok? ==> Wf(r.value)
    ensures padLayout.PadUnset? ==> r == Ok([])
    ensures r.Ok? && !padLayout.PadUnset? ==> Keys(r.value) == Elems(pos)
    ensures r.Ok? ==> forall x :: x in Keys(r.value) ==> Get(r.value, x).sleeperMs == None
    ensures padLayout.PadConst? ==>
              r.Ok? && forall x :: x in Keys(r.value) ==> Get(r.value, x).padSp == padLayout.value
    ensures padLayout.PadPeriod? && |padLayout.period| > 0 && r.Ok? ==>
              forall i :: 0 <= i < |pos| ==>
                Get(r.value, pos[i]).padSp == Scalar(padLayout.period[LastAt(pos, pos[i]) % |padLayout.period|])
    ensures padLayout.PadStoch? && padLayout.mean.Floats? && r.Ok? ==>
              forall i :: 0 <= i < |pos| ==>
                var sp := Get(r.value, pos[i]).padSp;
                && sp.Floats? && |sp.xs| == |padLayout.mean.xs|
                && forall c :: 0 <= c < |sp.xs| ==> sp.xs[c] == padLayout.draw(LastAt(pos, pos[i]), c)
  {
    var vals :- PadValues(padLayout, |pos|);
    match vals
    case None => Ok([])
    case Some(sps) =>
      var d := Fill([], pos, PadMounts(sps));
      PadFill(pos, sps);
      if padLayout.PadConst? then
        FillConst([], pos, PadMounts(sps), LegacyMount(padLayout.value, None));
        Ok(d)
      else Ok(d)
  }

  /** The pad pass writes `{'pad': sps[k]}` at pos[k] into a fresh dict: the keys are the
      positions, each with the pad value of its last occurrence and no sleeper. */
  lemma PadFill(pos: seq<real>, sps: seq<Num>)
    requires |sps| == |pos|
    ensures var d := Fill([], pos, PadMounts(sps));
            && Keys(d) == Elems(pos)
            && (forall x :: x in Keys(d) ==> Get(d, x).sleeperMs == None)
            && forall i :: 0 <= i < |pos| ==> Get(d, pos[i]).padSp == sps[LastAt(pos, pos[i])]
  {
    var d := Fill([], pos, PadMounts(sps));
    assert Keys<LegacyMount>([]) == {};
    forall x | x in Keys(d) ensures Get(d, x).sleeperMs == None {
      var j :| 0 <= j < |pos| && pos[j] == x;
      assert Get(d, pos[j]) == PadMounts(sps)[LastAt(pos, pos[j])];
    }
  }

  /** `mount_prop[xs[k]]['sleeper'] = Sleeper(ms[k])` for k = 0, 1, ... on existing keys. */
  function SetSleepers(d: LegacyMap, xs: seq<real>, ms: seq<real>): (r: LegacyMap)
    requires Wf(d) && Elems(xs) <= Keys(d) && |xs| == |ms|
    ensures Wf(r) && Keys(r) == Keys(d)
    ensures forall x :: x in Keys(d) ==> Get(r, x).padSp == Get(d, x).padSp
    ensures forall x :: x in Keys(d) && x !in xs ==> Get(r, x) == Get(d, x)
    ensures forall k :: 0 <= k < |xs| ==> Get(r, xs[k]).sleeperMs == Some(ms[LastAt(xs, xs[k])])
  {
    if |xs| == 0 then d
    else
      var n := |xs| - 1;
      assert xs == xs[..n] + [xs[n]];
      assert Elems(xs[..n]) <= Elems(xs);
      var e := SetSleepers(d, xs[..n], ms[..n]);
      var r := Put(e, xs[n], Get(e, xs[n]).(sleeperMs := Some(ms[n])));
      SetSleepersStep(xs, ms, e, r);
      r
  }

  lemma SetSleepersStep(xs: seq<real>, ms: seq<real>, e: LegacyMap, r: LegacyMap)
    requires |xs| == |ms| > 0 && Wf(e) && Wf(r)
    requires Keys(r) == Keys(e) && Elems(xs[..|xs| - 1]) <= Keys(e)
    requires var n := |xs| - 1;
             && xs[n] in Keys(e)
             && Get(r, xs[n]).sleeperMs == Some(ms[n])
             && (forall k' :: k' in Keys(e) && k' != xs[n] ==> Get(r, k') == Get(e, k'))
             && forall k :: 0 <= k < n ==>
                  Get(e, xs[..n][k]).sleeperMs == Some(ms[..n][LastAt(xs[..n], xs[..n][k])])
    ensures forall k :: 0 <= k < |xs| ==> Get(r, xs[k]).sleeperMs == Some(ms[LastAt(xs, xs[k])])
  {
    var n := |xs| - 1;
    forall k | 0 <= k < |xs| ensures Get(r, xs[k]).sleeperMs == Some(ms[LastAt(xs, xs[k])]) {
      if xs[k] != xs[n] {
        assert xs[..n][k] == xs[k];
        assert LastAt(xs, xs[k]) == LastAt(xs[..n], xs[k]);
      }
    }
  }

  /** The sleeper pass over the pad dictionary `d`: nothing for an Unset layout, KeyError
      when a position has no pad entry (the pad pass wrote nothing), otherwise the sleeper
      masses written in order. */
  function ApplySleepers(d: LegacyMap, pos: seq<real>, vals: Option<seq<real>>): (r: Result<LegacyMap>)
    requires Wf(d) && (vals.Some? ==> |vals.value| == |pos|)
    requires Keys(d) == Elems(pos) || d == []
    ensures r.Ok? || r == Raises(KeyError)
    ensures r == Raises(KeyError) <==> vals.Some? && d == [] && |pos| > 0
    ensures r.Ok? ==> Wf(r.value) && Keys(r.value) == Keys(d)
    ensures r.Ok? ==> forall x :: x in Keys(d) ==> Get(r.value, x).padSp == Get(d, x).padSp
    ensures r.Ok? && vals.None? ==> r.value == d
    ensures r.Ok? && vals.Some? ==> forall i :: 0 <= i < |pos| ==>
              Get(r.value, pos[i]).sleeperMs == Some(vals.value[LastAt(pos, pos[i])])
  {
    match vals
    case None => Ok(d)
    case Some(mss) =>
      if d == [] && |pos| > 0 then Raises(KeyError)
      else
        assert Elems(pos) <= Keys(d) by {
          if d == [] { assert Elems(pos) == {}; }
        }
        Ok(SetSleepers(d, pos, mss))
  }

  /** mount_properties of DiscrBallastedSingleRailTrack: the pad pass as for the slab track,
      then a sleeper pass that writes into the existing dictionaries. The pad pass's error
      comes first. Each sleeper value is computed before the dictionary lookup, so the
      sleeper layout's error comes next; a position without a pad entry raises KeyError. */
  function BallastedMountProperties(pos: seq<real>, padLayout: PadLayout, sleeperLayout: Layout)
    : (r: Result<LegacyMap>)
    ensures r.Ok? ==> Wf(r.value)
    ensures !SlabMountProperties(pos, padLayout).Ok? ==> r == SlabMountProperties(pos, padLayout)
    ensures SlabMountProperties(pos, padLayout).Ok? && !LayoutValues(sleeperLayout, |pos|).Ok? ==>
              r == Raises(LayoutValues(sleeperLayout, |pos|).error)
    ensures r == Raises(KeyError) <==>
              padLayout.PadUnset? && !sleeperLayout.Unset? && |pos| > 0
              && LayoutValues(sleeperLayout, |pos|).Ok?
    ensures r.Ok? ==> SlabMountProperties(pos, padLayout).Ok? && LayoutValues(sleeperLayout, |pos|).Ok?
    ensures r.Ok? ==> Keys(r.value) == Keys(SlabMountProperties(pos, padLayout).value)
    ensures r.Ok? && !padLayout.PadUnset? ==> Keys(r.value) == Elems(pos)
    ensures r.Ok? && !sleeperLayout.Unset? ==> Keys(r.value) == Elems(pos)
    ensures r.Ok? ==> forall x :: x in Keys(r.value) ==>
              Get(r.value, x).padSp == Get(SlabMountProperties(pos, padLayout).value, x).padSp
    ensures r.Ok? && !sleeperLayout.Unset? ==> forall i :: 0 <= i < |pos| ==>
              Get(r.value, pos[i]).sleeperMs ==
                Some(LayoutValues(sleeperLayout, |pos|).value.value[LastAt(pos, pos[i])])
    ensures r.Ok? && sleeperLayout.Unset? ==> forall x :: x in Keys(r.value) ==>
              Get(r.value, x).sleeperMs == None
  {
    var d :- SlabMountProperties(pos, padLayout);
    var vals :- LayoutValues(sleeperLayout, |pos|);
    assert d == [] <==> padLayout.PadUnset? || |pos| == 0 by {
      if !padLayout.PadUnset? && |pos| > 0 { assert pos[0] in Keys(d); }
    }
    ApplySleepers(d, pos, vals)
  }

  /** DiscrBallastedSingleRailTrack.__init__: calc_mount_pos, then mount_properties on the
      positions it produced. */
  function DiscrBallastedTrack(distLayout: Layout, padLayout: PadLayout, sleeperLayout: Layout,
                               numMountPos: int): (r: Result<(seq<real>, LegacyMap)>)
    requires numMountPos >= 1
    ensures r.Ok? <==> && CalcMountPos(distLayout, numMountPos).Ok?
                       && BallastedMountProperties(CalcMountPos(distLayout, numMountPos).value,
                                                   padLayout, sleeperLayout).Ok?
    ensures !CalcMountPos(distLayout, numMountPos).Ok? ==>
              r == Raises(CalcMountPos(distLayout, numMountPos).error)
    ensures CalcMountPos(distLayout, numMountPos).Ok? && !r.Ok? ==>
              r == Raises(BallastedMountProperties(CalcMountPos(distLayout, numMountPos).value,
                                                   padLayout, sleeperLayout).error)
    ensures r.Ok? ==> |r.value.0| == numMountPos && Wf(r.value.1)
    ensures r.Ok? ==> CalcMountPos(distLayout, numMountPos) == Ok(r.value.0)
    ensures r.Ok? ==> BallastedMountProperties(r.value.0, padLayout, sleeperLayout) == Ok(r.value.1)
    ensures r.Ok? && !padLayout.PadUnset? ==> Keys(r.value.1) == Elems(r.value.0)
    ensures distLayout.Unset? ==> r == Raises(AttributeError)
  {
    var pos :- CalcMountPos(distLayout, numMountPos);
    var mp :- BallastedMountProperties(pos, padLayout, sleeperLayout);
    Ok((pos, mp))
  }

  /** Periodic distances with positive entries give strictly increasing positions. */
  lemma PeriodicPositionsIncrease(period: seq<real>, numMountPos: int)
    requires numMountPos >= 1 && |period| > 0
    requires forall k :: 0 <= k < |period| ==> period[k] > 0.0
    ensures Distinct(CalcMountPos(LayoutPeriod(period), numMountPos).value)
  {
    var xs := CalcMountPos(LayoutPeriod(period), numMountPos).value;
    PeriodicPositions(period, numMountPos);
    forall i, j | 0 <= i < j < numMountPos ensures xs[i] < xs[j] {
      var k := i + 1;
      while k < j
        invariant i < k <= j
        invariant xs[i] < xs[k]
      {
        k := k + 1;
      }
    }
  }

  /** A fully periodic ballasted track with positive distances: position i carries pad
      stiffness padPeriod[i mod L] and sleeper mass sleeperPeriod[i mod M]. */
  lemma PeriodicBallastedProperties(distPeriod: seq<real>, padPeriod: seq<real>,
                                    sleeperPeriod: seq<real>, numMountPos: int)
    requires numMountPos >= 1 && |distPeriod| > 0 && |padPeriod| > 0 && |sleeperPeriod| > 0
    requires forall k :: 0 <= k < |distPeriod| ==> distPeriod[k] > 0.0
    ensures var r := DiscrBallastedTrack(LayoutPeriod(distPeriod), PadPeriod(padPeriod),
                                         LayoutPeriod(sleeperPeriod), numMountPos);
            && r.Ok?
            && forall i :: 0 <= i < numMountPos ==>
                 Get(r.value.1, r.value.0[i]) ==
                   LegacyMount(Scalar(padPeriod[i % |padPeriod|]), Some(sleeperPeriod[i % |sleeperPeriod|]))
  {
    var pos := CalcMountPos(LayoutPeriod(distPeriod), numMountPos).value;
    PeriodicPositionsIncrease(distPeriod, numMountPos);
    var r := DiscrBallastedTrack(LayoutPeriod(distPeriod), PadPeriod(padPeriod),
                                 LayoutPeriod(sleeperPeriod), numMountPos);
    forall i | 0 <= i < numMountPos
      ensures Get(r.value.1, pos[i]) ==
                LegacyMount(Scalar(padPeriod[i % |padPeriod|]), Some(sleeperPeriod[i % |sleeperPeriod|]))
    {
      DistinctLastAt(pos, i);
    }
  }
}

=== FILE: matrices.dfy ===
/** The coefficient matrices of the three-level scheme (`build_matrix` in
    rolland/discretization.py): the fourth-difference stencil D and the 2*nx x 2*nx block
    matrices A, B, C coupling rail (rows 0..nx-1) and sleeper/slab (rows nx..2*nx-1). Matrices
    are dense sequences of rows; sparse storage is not modelled. */
module Matrices {
  import opened Outcomes
  import opened Numerics

  type Matrix = seq<seq<real>>

  predicate IsMatrix(m: Matrix, rows: nat, cols: nat) {
    |m| == rows && forall i :: 0 <= i < rows ==> |m[i]| == cols
  }

  /** The per-node property vectors the discretization assembles. */
  datatype Vectors = Vectors(dr: seq<real>, sp: seq<real>, dp: seq<real>, ms: seq<real>,
                             sb: seq<real>, db: seq<real>)

  /** Every vector has one entry per grid node. */
  predicate Sized(v: Vectors, nx: int) {
    && |v.dr| == nx && |v.sp| == nx && |v.dp| == nx
    && |v.ms| == nx && |v.sb| == nx && |v.db| == nx
  }

  /** A, B and C. */
  datatype System = System(A: Matrix, B: Matrix, C: Matrix)

  /** The matrix-vector product, one dot product per row. */
  function MatVec(m: Matrix, u: seq<real>): (w: seq<real>)
    requires forall i :: 0 <= i < |m| ==> |m[i]| == |u|
    ensures |w| == |m|
  {
    seq(|m|, i requires 0 <= i < |m| => Dot(m[i], u))
  }

  // ---------------------------------------------------------------------------------------
  // Dense versions of the scipy.sparse building blocks.

  /** diags([v], [0]). */
  function Diag(v: seq<real>): (m: Matrix)
    ensures IsMatrix(m, |v|, |v|)
    ensures forall i, j :: 0 <= i < |v| && 0 <= j < |v| ==> m[i][j] == if i == j then v[i] else 0.0
  {
    seq(|v|, i requires 0 <= i < |v| => seq(|v|, j requires 0 <= j < |v| => if i == j then v[i] else 0.0))
  }

  /** eye(n). */
  function Eye(n: nat): (m: Matrix)
    ensures IsMatrix(m, n, n)
    ensures forall i, j :: 0 <= i < n && 0 <= j < n ==> m[i][j] == if i == j then 1.0 else 0.0
  {
    Diag(seq(n, _ => 1.0))
  }

  function Plus(a: Matrix, b: Matrix, n: nat): (m: Matrix)
    requires IsMatrix(a, n, n) && IsMatrix(b, n, n)
    ensures IsMatrix(m, n, n)
    ensures forall i, j :: 0 <= i < n && 0 <= j < n ==> m[i][j] == a[i][j] + b[i][j]
  {
    seq(n, i requires 0 <= i < n => seq(n, j requires 0 <= j < n => a[i][j] + b[i][j]))
  }

  function Scale(c: real, a: Matrix, n: nat): (m: Matrix)
    requires IsMatrix(a, n, n)
    ensures IsMatrix(m, n, n)
    ensures forall i, j :: 0 <= i < n && 0 <= j < n ==> m[i][j] == c * a[i][j]
  {
    seq(n, i requires 0 <= i < n => seq(n, j requires 0 <= j < n => c * a[i][j]))
  }

  function Neg(a: Matrix, n: nat): (m: Matrix)
    requires IsMatrix(a, n, n)
    ensures IsMatrix(m, n, n)
    ensures forall i, j :: 0 <= i < n && 0 <= j < n ==> m[i][j] == -a[i][j]
  {
    seq(n, i requires 0 <= i < n => seq(n, j requires 0 <= j < n => -a[i][j]))
  }

  /** A 2*nx x 2*nx matrix whose four nx x nx quadrants are the given blocks, as the slice
      assignments self.A[0:nx, 0:nx] = A11, ... write them into a zero matrix. */
  function Assemble(nx: nat, b11: Matrix, b12: Matrix, b21: Matrix, b22: Matrix): (m: Matrix)
    requires IsMatrix(b11, nx, nx) && IsMatrix(b12, nx, nx)
    requires IsMatrix(b21, nx, nx) && IsMatrix(b22, nx, nx)
    ensures IsMatrix(m, 2 * nx, 2 * nx)
    ensures forall i, j :: 0 <= i < nx && 0 <= j < nx ==> m[i][j] == b11[i][j]
    ensures forall i, j :: 0 <= i < nx && 0 <= j < nx ==> m[i][nx + j] == b12[i][j]
    ensures forall i, j :: 0 <= i < nx && 0 <= j < nx ==> m[nx + i][j] == b21[i][j]
    ensures forall i, j :: 0 <= i < nx && 0 <= j < nx ==> m[nx + i][nx + j] == b22[i][j]
  {
    seq(2 * nx, i requires 0 <= i < 2 * nx =>
      seq(2 * nx, j requires 0 <= j < 2 * nx =>
        if i < nx && j < nx then b11[i][j]
        else if i < nx then b12[i][j - nx]
        else if j < nx then b21[i - nx][j]
        else b22[i - nx][j - nx]))
  }

  // ---------------------------------------------------------------------------------------
  // The fourth-difference stencil.

  /** Weight of node i + k in row i of D: the diagonals [1, -4, 6, -4, 1] at offsets -2..2. */
  function StencilWeight(k: int): real {
    if k == 0 then 6.0
    else if k == 1 || k == -1 then -4.0
    else if k == 2 || k == -2 then 1.0
    else 0.0
  }

  /** D = diags([ones(nx-2), -4*ones(nx-1), 6*ones(nx), -4*ones(nx-1), ones(nx-2)], [-2..2]):
      symmetric, zero beyond the second off-diagonal. */
  function FourthDifference(nx: nat): (d: Matrix)
    ensures IsMatrix(d, nx, nx)
    ensures forall i, j :: 0 <= i < nx && 0 <= j < nx ==> d[i][j] == StencilWeight(j - i)
    ensures forall i, j :: 0 <= i < nx && 0 <= j < nx ==> d[i][j] == d[j][i]
    ensures forall i, j :: 0 <= i < nx && 0 <= j < nx && (j - i > 2 || i - j > 2) ==> d[i][j] == 0.0
  {
    StencilSymmetric();
    seq(nx, i requires 0 <= i < nx => seq(nx, j requires 0 <= j < nx => StencilWeight(j - i)))
  }

  lemma StencilSymmetric()
    ensures forall k :: StencilWeight(-k) == StencilWeight(k)
  {
  }

  /** Dot of two sequences splits over a concatenation. */
  lemma {:induction false} DotAppend(a: seq<real>, b: seq<real>, u: seq<real>, w: seq<real>)
    requires |a| == |u| && |b| == |w|
    ensures Dot(a + b, u + w) == Dot(a, u) + Dot(b, w)
  {
    if |b| > 0 {
      var n := |b| - 1;
      assert (a + b)[..|a + b| - 1] == a + b[..n];
      assert (u + w)[..|u + w| - 1] == u + w[..n];
      DotAppend(a, b[..n], u, w[..n]);
    } else {
      assert a + b == a && u + w == u;
    }
  }

  /** A row that is zero everywhere is orthogonal to everything. */
  lemma {:induction false} DotZero(a: seq<real>, u: seq<real>)
    requires |a| == |u| && forall j :: 0 <= j < |a| ==> a[j] == 0.0
    ensures Dot(a, u) == 0.0
  {
    if |a| > 0 {
      DotZero(a[..|a| - 1], u[..|u| - 1]);
    }
  }

  /** Nothing is orthogonal to the zero vector: every row maps it to zero. */
  lemma {:induction false} DotZeroRight(a: seq<real>, u: seq<real>)
    requires |a| == |u| && forall j :: 0 <= j < |u| ==> u[j] == 0.0
    ensures Dot(a, u) == 0.0
  {
    if |a| > 0 {
      DotZeroRight(a[..|a| - 1], u[..|u| - 1]);
    }
  }

  /** A matrix maps the zero vector to the zero vector. */
  lemma MatVecZero(m: Matrix, n: nat)
    requires forall i :: 0 <= i < |m| ==> |m[i]| == n
    ensures MatVec(m, Constant(n, 0.0)) == Constant(|m|, 0.0)
  {
    forall i | 0 <= i < |m| ensures Dot(m[i], Constant(n, 0.0)) == 0.0 {
      DotZeroRight(m[i], Constant(n, 0.0));
    }
  }

  /** Only the entries in [lo, hi) of a row that vanishes elsewhere contribute to a dot product. */
  lemma DotWindow(a: seq<real>, u: seq<real>, lo: nat, hi: nat)
    requires |a| == |u| && lo <= hi <= |a|
    requires forall j :: 0 <= j < |a| && (j < lo || hi <= j) ==> a[j] == 0.0
    ensures Dot(a, u) == Dot(a[lo..hi], u[lo..hi])
  {
    assert a == a[..lo] + a[lo..hi] + a[hi..];
    assert u == u[..lo] + u[lo..hi] + u[hi..];
    DotAppend(a[..lo] + a[lo..hi], a[hi..], u[..lo] + u[lo..hi], u[hi..]);
    DotAppend(a[..lo], a[lo..hi], u[..lo], u[lo..hi]);
    DotZero(a[..lo], u[..lo]);
    DotZero(a[hi..], u[hi..]);
  }

  /** Dot product of a three- and a five-element sequence, written out. */
  lemma DotThree(a: seq<real>, u: seq<real>)
    requires |a| == 3 && |u| == 3
    ensures Dot(a, u) == a[0] * u[0] + a[1] * u[1] + a[2] * u[2]
  {
    assert Dot(a, u) == Dot(a[..2], u[..2]) + a[2] * u[2];
    assert a[..2][..1] == a[..1] && u[..2][..1] == u[..1];
    assert Dot(a[..2], u[..2]) == Dot(a[..1], u[..1]) + a[1] * u[1];
    assert a[..1][..0] == [] && u[..1][..0] == [];
    assert Dot(a[..1], u[..1]) == a[0] * u[0];
  }

  lemma DotFive(a: seq<real>, u: seq<real>)
    requires |a| == 5 && |u| == 5
    ensures Dot(a, u) == a[0] * u[0] + a[1] * u[1] + a[2] * u[2] + a[3] * u[3] + a[4] * u[4]
  {
    assert Dot(a, u) == Dot(a[..4], u[..4]) + a[4] * u[4];
    assert a[..4][..3] == a[..3] && u[..4][..3] == u[..3];
    assert Dot(a[..4], u[..4]) == Dot(a[..3], u[..3]) + a[3] * u[3];
    DotThree(a[..3], u[..3]);
  }

  /** An interior row of D is [1, -4, 6, -4, 1] around the diagonal and zero elsewhere. */
  lemma InteriorRowShape(nx: nat, i: nat)
    requires 2 <= i && i + 2 < nx
    ensures var row := FourthDifference(nx)[i];
            && |row| == nx
            && (forall j :: 0 <= j < nx && (j < i - 2 || i + 3 <= j) ==> row[j] == 0.0)
            && row[i - 2] == 1.0 && row[i - 1] == -4.0 && row[i] == 6.0
            && row[i + 1] == -4.0 && row[i + 2] == 1.0
  {
    var row := FourthDifference(nx)[i];
    assert forall j :: 0 <= j < nx ==> row[j] == StencilWeight(j - i);
    assert row[i - 2] == StencilWeight((i - 2) - i) == 1.0;
    assert row[i - 1] == StencilWeight((i - 1) - i) == -4.0;
    assert row[i] == StencilWeight(i - i) == 6.0;
    assert row[i + 1] == StencilWeight((i + 1) - i) == -4.0;
    assert row[i + 2] == StencilWeight((i + 2) - i) == 1.0;
  }

  /** A row that is [1, -4, 6, -4, 1] around position i and zero elsewhere takes the five-point
      fourth difference of u at i. */
  lemma FivePointRow(row: seq<real>, u: seq<real>, i: nat)
    requires |row| == |u| && 2 <= i && i + 2 < |u|
    requires forall j :: 0 <= j < |row| && (j < i - 2 || i + 3 <= j) ==> row[j] == 0.0
    requires row[i - 2] == 1.0 && row[i - 1] == -4.0 && row[i] == 6.0
    requires row[i + 1] == -4.0 && row[i + 2] == 1.0
    ensures Dot(row, u) == u[i - 2] - 4.0 * u[i - 1] + 6.0 * u[i] - 4.0 * u[i + 1] + u[i + 2]
  {
    DotWindow(row, u, i - 2, i + 3);
    var uw := u[i - 2..i + 3];
    assert uw[0] == u[i - 2] && uw[1] == u[i - 1] && uw[2] == u[i];
    assert uw[3] == u[i + 1] && uw[4] == u[i + 2];
    var w := row[i - 2..i + 3];
    assert w[0] == 1.0 && w[1] == -4.0 && w[2] == 6.0 && w[3] == -4.0 && w[4] == 1.0;
    DotFive(w, uw);
  }

  /** Row i of D applied to u, for an interior row (2 <= i < nx-2), is the five-point
      fourth difference u[i-2] - 4u[i-1] + 6u[i] - 4u[i+1] + u[i+2]. */
  lemma InteriorRow(nx: nat, i: nat, u: seq<real>)
    requires 2 <= i && i + 2 < nx && |u| == nx
    ensures Dot(FourthDifference(nx)[i], u)
            == u[i - 2] - 4.0 * u[i - 1] + 6.0 * u[i] - 4.0 * u[i + 1] + u[i + 2]
  {
    InteriorRowShape(nx, i);
    FivePointRow(FourthDifference(nx)[i], u, i);
  }

  /** A cubic polynomial in Horner form. */
  function Cubic(c0: real, c1: real, c2: real, c3: real, x: real): real {
    c0 + x * (c1 + x * (c2 + x * c3))
  }

  /** Taylor expansion of a cubic about x. */
  lemma CubicShift(c0: real, c1: real, c2: real, c3: real, x: real, d: real)
    ensures Cubic(c0, c1, c2, c3, x + d)
            == Cubic(c0, c1, c2, c3, x) + d * (c1 + 2.0 * c2 * x + 3.0 * c3 * x * x)
               + d * d * (c2 + 3.0 * c3 * x) + d * d * d * c3
  {
  }

  /** The five-point fourth difference of a cubic vanishes. */
  lemma FourthDifferenceOfCubic(c0: real, c1: real, c2: real, c3: real, x: real)
    ensures Cubic(c0, c1, c2, c3, x - 2.0) - 4.0 * Cubic(c0, c1, c2, c3, x - 1.0)
            + 6.0 * Cubic(c0, c1, c2, c3, x) - 4.0 * Cubic(c0, c1, c2, c3, x + 1.0)
            + Cubic(c0, c1, c2, c3, x + 2.0) == 0.0
  {
    CubicShift(c0, c1, c2, c3, x, -2.0);
    CubicShift(c0, c1, c2, c3, x, -1.0);
    CubicShift(c0, c1, c2, c3, x, 1.0);
    CubicShift(c0, c1, c2, c3, x, 2.0);
  }

  /** The interior rows of D annihilate the samples of any cubic at the grid nodes; in
      particular (the constant 1) they sum to zero. */
  lemma InteriorRowsAnnihilateCubics(nx: nat, c0: real, c1: real, c2: real, c3: real)
    ensures var u := seq(nx, j requires 0 <= j < nx => Cubic(c0, c1, c2, c3, j as real));
            forall i :: 2 <= i && i + 2 < nx ==> Dot(FourthDifference(nx)[i], u) == 0.0
  {
    var u := seq(nx, j requires 0 <= j < nx => Cubic(c0, c1, c2, c3, j as real));
    forall i | 2 <= i && i + 2 < nx ensures Dot(FourthDifference(nx)[i], u) == 0.0 {
      InteriorRow(nx, i, u);
      var x := i as real;
      assert (i - 2) as real == x - 2.0 && (i - 1) as real == x - 1.0;
      assert (i + 1) as real == x + 1.0 && (i + 2) as real == x + 2.0;
      FourthDifferenceOfCubic(c0, c1, c2, c3, x);
    }
  }

  /** The edge rows are truncated: with nx >= 3, row 0 of D sums to 6 - 4 + 1 = 3 (and by
      symmetry so does the last row), so D does not annihilate constants there. */
  lemma EdgeRowSums(nx: nat)
    requires nx >= 3
    ensures Dot(FourthDifference(nx)[0], seq(nx, _ => 1.0)) == 3.0
    ensures Dot(FourthDifference(nx)[nx - 1], seq(nx, _ => 1.0)) == 3.0
  {
    var d := FourthDifference(nx);
    var ones := seq(nx, _ => 1.0);
    DotWindow(d[0], ones, 0, 3);
    assert d[0][0] == 6.0 && d[0][1] == -4.0 && d[0][2] == 1.0;
    DotThree(d[0][0..3], ones[0..3]);
    DotWindow(d[nx - 1], ones, nx - 3, nx);
    assert d[nx - 1][nx - 3] == 1.0 && d[nx - 1][nx - 2] == -4.0 && d[nx - 1][nx - 1] == 6.0;
    DotThree(d[nx - 1][nx - 3..nx], ones[nx - 3..nx]);
  }

  // ---------------------------------------------------------------------------------------
  // build_matrix.

  /** What build_matrix needs of its vectors: one entry per node, and a non-zero mass at every
      node (the sleeper rows divide by vec_ms; numpy would produce inf or nan otherwise). */
  predicate Admissible(v: Vectors) {
    Sized(v, |v.dr|) && forall i :: 0 <= i < |v.ms| ==> v.ms[i] != 0.0
  }

  /** The rail-row time factors dt/mr and dt**2/(2*mr). */
  function RailC(dt: real, mr: real): real
    requires mr != 0.0
  {
    dt / mr
  }

  function RailH(dt: real, mr: real): real
    requires mr != 0.0
  {
    Pow(dt, 2) / (2.0 * mr)
  }

  /** The sleeper-row factor dt**2/(2*ms). */
  function SleeperH(dt: real, ms: real): real
    requires ms != 0.0
  {
    Pow(dt, 2) / (2.0 * ms)
  }

  /** A11 = r*D + I + diag(dt/mr*(dr+dp) + dt**2/(2*mr)*sp). */
  function A11(v: Vectors, r: real, dt: real, mr: real): (m: Matrix)
    requires Admissible(v) && mr != 0.0
    ensures IsMatrix(m, |v.dr|, |v.dr|)
  {
    var nx := |v.dr|;
    Plus(Plus(Scale(r, FourthDifference(nx), nx), Eye(nx), nx),
         Diag(seq(nx, i requires 0 <= i < nx =>
           RailC(dt, mr) * (v.dr[i] + v.dp[i]) + RailH(dt, mr) * v.sp[i])), nx)
  }

  /** A12 = diag(-dt/mr*dp - dt**2/(2*mr)*sp). */
  function A12(v: Vectors, dt: real, mr: real): (m: Matrix)
    requires Admissible(v) && mr != 0.0
    ensures IsMatrix(m, |v.dr|, |v.dr|)
  {
    var nx := |v.dr|;
    Diag(seq(nx, i requires 0 <= i < nx => -dt / mr * v.dp[i] + -Pow(dt, 2) / (2.0 * mr) * v.sp[i]))
  }

  /** A21 = diag(-dt*dp/ms - dt**2/(2*ms)*sp). */
  function A21(v: Vectors, dt: real): (m: Matrix)
    requires Admissible(v)
    ensures IsMatrix(m, |v.dr|, |v.dr|)
  {
    var nx := |v.dr|;
    Diag(seq(nx, i requires 0 <= i < nx =>
      -dt * v.dp[i] / v.ms[i] + -Pow(dt, 2) / (2.0 * v.ms[i]) * v.sp[i]))
  }

  /** A22 = I + diag(dt*((dp+db)/ms) + dt**2/(2*ms)*(sp+sb)). */
  function A22(v: Vectors, dt: real): (m: Matrix)
    requires Admissible(v)
    ensures IsMatrix(m, |v.dr|, |v.dr|)
  {
    var nx := |v.dr|;
    Plus(Eye(nx), Diag(seq(nx, i requires 0 <= i < nx => SleeperA(v, dt, i))), nx)
  }

  /** The sleeper-row diagonal terms of A22, B22 and C22 at node i. */
  function SleeperA(v: Vectors, dt: real, i: nat): real
    requires Admissible(v) && i < |v.dr|
  {
    dt * ((v.dp[i] + v.db[i]) / v.ms[i]) + SleeperH(dt, v.ms[i]) * (v.sp[i] + v.sb[i])
  }

  function SleeperB(v: Vectors, dt: real, i: nat): real
    requires Admissible(v) && i < |v.dr|
  {
    dt * (v.db[i] + v.dp[i]) / v.ms[i]
  }

  function SleeperC(v: Vectors, dt: real, i: nat): real
    requires Admissible(v) && i < |v.dr|
  {
    Pow(dt, 2) * (v.sp[i] + v.sb[i]) / (2.0 * v.ms[i])
  }

  /** B11 = 2*I + diag(dt/mr*(dr+dp)). */
  function B11(v: Vectors, dt: real, mr: real): (m: Matrix)
    requires Admissible(v) && mr != 0.0
    ensures IsMatrix(m, |v.dr|, |v.dr|)
  {
    var nx := |v.dr|;
    Plus(Scale(2.0, Eye(nx), nx),
         Diag(seq(nx, i requires 0 <= i < nx => RailC(dt, mr) * (v.dr[i] + v.dp[i]))), nx)
  }

  /** B12 = diag(-dt/mr*dp). */
  function B12(v: Vectors, dt: real, mr: real): (m: Matrix)
    requires Admissible(v) && mr != 0.0
    ensures IsMatrix(m, |v.dr|, |v.dr|)
  {
    var nx := |v.dr|;
    Diag(seq(nx, i requires 0 <= i < nx => -dt / mr * v.dp[i]))
  }

  /** B21 = diag(-dt*dp/ms). */
  function B21(v: Vectors, dt: real): (m: Matrix)
    requires Admissible(v)
    ensures IsMatrix(m, |v.dr|, |v.dr|)
  {
    var nx := |v.dr|;
    Diag(seq(nx, i requires 0 <= i < nx => -dt * v.dp[i] / v.ms[i]))
  }

  /** B22 = 2*I + diag(dt*(db+dp)/ms). */
  function B22(v: Vectors, dt: real): (m: Matrix)
    requires Admissible(v)
    ensures IsMatrix(m, |v.dr|, |v.dr|)
  {
    var nx := |v.dr|;
    Plus(Scale(2.0, Eye(nx), nx), Diag(seq(nx, i requires 0 <= i < nx => SleeperB(v, dt, i))), nx)
  }

  /** C11 = -(I + diag(dt**2/(2*mr)*sp) + r*D). */
  function C11(v: Vectors, r: real, dt: real, mr: real): (m: Matrix)
    requires Admissible(v) && mr != 0.0
    ensures IsMatrix(m, |v.dr|, |v.dr|)
  {
    var nx := |v.dr|;
    Neg(Plus(Plus(Eye(nx), Diag(seq(nx, i requires 0 <= i < nx => RailH(dt, mr) * v.sp[i])), nx),
             Scale(r, FourthDifference(nx), nx), nx), nx)
  }

  /** C12 = diag(dt**2/(2*mr)*sp). */
  function C12(v: Vectors, dt: real, mr: real): (m: Matrix)
    requires Admissible(v) && mr != 0.0
    ensures IsMatrix(m, |v.dr|, |v.dr|)
  {
    var nx := |v.dr|;
    Diag(seq(nx, i requires 0 <= i < nx => RailH(dt, mr) * v.sp[i]))
  }

  /** C21 = diag(dt**2/(2*ms)*sp). */
  function C21(v: Vectors, dt: real): (m: Matrix)
    requires Admissible(v)
    ensures IsMatrix(m, |v.dr|, |v.dr|)
  {
    var nx := |v.dr|;
    Diag(seq(nx, i requires 0 <= i < nx => SleeperH(dt, v.ms[i]) * v.sp[i]))
  }

  /** C22 = -(I + diag(dt**2*(sp+sb)/(2*ms))). */
  function C22(v: Vectors, dt: real): (m: Matrix)
    requires Admissible(v)
    ensures IsMatrix(m, |v.dr|, |v.dr|)
  {
    var nx := |v.dr|;
    Neg(Plus(Eye(nx), Diag(seq(nx, i requires 0 <= i < nx => SleeperC(v, dt, i))), nx), nx)
  }

  /** The three assembled matrices, given r. */
  function Blocks(v: Vectors, r: real, dt: real, mr: real): (s: System)
    requires Admissible(v) && mr != 0.0
    ensures var n := 2 * |v.dr|;
            IsMatrix(s.A, n, n) && IsMatrix(s.B, n, n) && IsMatrix(s.C, n, n)
  {
    var nx := |v.dr|;
    System(Assemble(nx, A11(v, r, dt, mr), A12(v, dt, mr), A21(v, dt), A22(v, dt)),
           Assemble(nx, B11(v, dt, mr), B12(v, dt, mr), B21(v, dt), B22(v, dt)),
           Assemble(nx, C11(v, r, dt, mr), C12(v, dt, mr), C21(v, dt), C22(v, dt)))
  }

  /** build_matrix. r = (E*Iyr)*dt**2 / (2*mr*dx**4) divides Python floats, so a zero mr or dx
      raises ZeroDivisionError; ones(nx - 2) raises ValueError for nx < 2. */
  function BuildMatrix(E: real, Iyr: real, mr: real, dt: real, dx: real, v: Vectors)
    : (r: Result<System>)
    requires Admissible(v)
    ensures r.Ok? <==> mr != 0.0 && dx != 0.0 && |v.dr| >= 2
    ensures mr == 0.0 || dx == 0.0 ==> r == Raises(ZeroDivisionError)
    ensures mr != 0.0 && dx != 0.0 && |v.dr| < 2 ==> r == Raises(ValueError)
    ensures r.Ok? ==> var n := 2 * |v.dr|;
              IsMatrix(r.value.A, n, n) && IsMatrix(r.value.B, n, n) && IsMatrix(r.value.C, n, n)
  {
    if mr == 0.0 || dx == 0.0 then Raises(ZeroDivisionError)
    else if |v.dr| < 2 then Raises(ValueError)
    else
      PowEvenPositive(dx, 2);
      var r := (E * Iyr) * Pow(dt, 2) / (2.0 * mr * Pow(dx, 4));
      Ok(Blocks(v, r, dt, mr))
  }

  // ---------------------------------------------------------------------------------------
  // Properties of the blocks.

  /** x/y*z == x*z/y and x*(z/y) == x*z/y. */
  lemma DivisionReorder(x: real, y: real, z: real)
    requires y != 0.0
    ensures x / y * z == x * z / y
    ensures x * (z / y) == x * z / y
  {
  }

  /** Quadrant by quadrant, A + C = B - 2I: the rail quadrant. */
  lemma RailQuadrantSum(v: Vectors, r: real, dt: real, mr: real, i: nat, j: nat)
    requires Admissible(v) && mr != 0.0 && i < |v.dr| && j < |v.dr|
    ensures A11(v, r, dt, mr)[i][j] + C11(v, r, dt, mr)[i][j]
            == B11(v, dt, mr)[i][j] - if i == j then 2.0 else 0.0
  {
  }

  /** The rail-to-support quadrant. */
  lemma RailSupportQuadrantSum(v: Vectors, dt: real, mr: real, i: nat, j: nat)
    requires Admissible(v) && mr != 0.0 && i < |v.dr| && j < |v.dr|
    ensures A12(v, dt, mr)[i][j] + C12(v, dt, mr)[i][j] == B12(v, dt, mr)[i][j]
  {
    if i == j {
      var hr := RailH(dt, mr);
      assert -Pow(dt, 2) / (2.0 * mr) == -hr;
      assert -hr * v.sp[i] == -(hr * v.sp[i]);
    }
  }

  /** The support-to-rail quadrant. */
  lemma SupportRailQuadrantSum(v: Vectors, dt: real, i: nat, j: nat)
    requires Admissible(v) && i < |v.dr| && j < |v.dr|
    ensures A21(v, dt)[i][j] + C21(v, dt)[i][j] == B21(v, dt)[i][j]
  {
    if i == j {
      var hs := SleeperH(dt, v.ms[i]);
      assert -Pow(dt, 2) / (2.0 * v.ms[i]) == -hs;
      assert -hs * v.sp[i] == -(hs * v.sp[i]);
    }
  }

  /** The support quadrant. */
  lemma SupportQuadrantSum(v: Vectors, dt: real, i: nat, j: nat)
    requires Admissible(v) && i < |v.dr| && j < |v.dr|
    ensures A22(v, dt)[i][j] + C22(v, dt)[i][j] == B22(v, dt)[i][j] - if i == j then 2.0 else 0.0
  {
    if i == j {
      SleeperDiagonalSum(v, dt, i);
    }
  }

  /** The diagonal terms of A22 and C22 add up to that of B22. */
  lemma SleeperDiagonalSum(v: Vectors, dt: real, i: nat)
    requires Admissible(v) && i < |v.dr|
    ensures SleeperA(v, dt, i) - SleeperC(v, dt, i) == SleeperB(v, dt, i)
  {
    var ms := v.ms[i];
    DivisionReorder(Pow(dt, 2), 2.0 * ms, v.sp[i] + v.sb[i]);
    DivisionReorder(dt, ms, v.dp[i] + v.db[i]);
    assert v.dp[i] + v.db[i] == v.db[i] + v.dp[i];
  }

  /** Assembling preserves a quadrant-wise A + C = B - 2I. */
  lemma AssembledSum(nx: nat, a11: Matrix, a12: Matrix, a21: Matrix, a22: Matrix,
                     b11: Matrix, b12: Matrix, b21: Matrix, b22: Matrix,
                     c11: Matrix, c12: Matrix, c21: Matrix, c22: Matrix)
    requires IsMatrix(a11, nx, nx) && IsMatrix(a12, nx, nx) && IsMatrix(a21, nx, nx) && IsMatrix(a22, nx, nx)
    requires IsMatrix(b11, nx, nx) && IsMatrix(b12, nx, nx) && IsMatrix(b21, nx, nx) && IsMatrix(b22, nx, nx)
    requires IsMatrix(c11, nx, nx) && IsMatrix(c12, nx, nx) && IsMatrix(c21, nx, nx) && IsMatrix(c22, nx, nx)
    requires forall i, j :: 0 <= i < nx && 0 <= j < nx ==>
               a11[i][j] + c11[i][j] == b11[i][j] - (if i == j then 2.0 else 0.0)
    requires forall i, j :: 0 <= i < nx && 0 <= j < nx ==> a12[i][j] + c12[i][j] == b12[i][j]
    requires forall i, j :: 0 <= i < nx && 0 <= j < nx ==> a21[i][j] + c21[i][j] == b21[i][j]
    requires forall i, j :: 0 <= i < nx && 0 <= j < nx ==>
               a22[i][j] + c22[i][j] == b22[i][j] - (if i == j then 2.0 else 0.0)
    ensures var a := Assemble(nx, a11, a12, a21, a22);
            var b := Assemble(nx, b11, b12, b21, b22);
            var c := Assemble(nx, c11, c12, c21, c22);
            forall i, j :: 0 <= i < 2 * nx && 0 <= j < 2 * nx ==>
              a[i][j] + c[i][j] == b[i][j] - (if i == j then 2.0 else 0.0)
  {
    var a := Assemble(nx, a11, a12, a21, a22);
    var b := Assemble(nx, b11, b12, b21, b22);
    var c := Assemble(nx, c11, c12, c21, c22);
    forall i, j | 0 <= i < 2 * nx && 0 <= j < 2 * nx
      ensures a[i][j] + c[i][j] == b[i][j] - (if i == j then 2.0 else 0.0)
    {
      if i < nx && j < nx {
      } else if i < nx {
        var k := j - nx;
        assert a[i][nx + k] + c[i][nx + k] == b[i][nx + k];
      } else if j < nx {
        var k := i - nx;
        assert a[nx + k][j] + c[nx + k][j] == b[nx + k][j];
      } else {
        var k, l := i - nx, j - nx;
        assert a[nx + k][nx + l] + c[nx + k][nx + l] == b[nx + k][nx + l] - (if k == l then 2.0 else 0.0);
      }
    }
  }

  /** Over the full 2*nx matrix, A + C = B - 2I: the stiffness and spring terms enter A and C
      with opposite signs (they act on the mean of levels t+1 and t-1), the damping terms enter
      A and B alike, and B also carries the 2I of the second time difference. */
  lemma SystemSum(v: Vectors, r: real, dt: real, mr: real)
    requires Admissible(v) && mr != 0.0
    ensures var s := Blocks(v, r, dt, mr);
            forall i, j :: 0 <= i < 2 * |v.dr| && 0 <= j < 2 * |v.dr| ==>
              s.A[i][j] + s.C[i][j] == s.B[i][j] - (if i == j then 2.0 else 0.0)
  {
    var nx := |v.dr|;
    forall i: nat, j: nat | i < nx && j < nx
      ensures A11(v, r, dt, mr)[i][j] + C11(v, r, dt, mr)[i][j]
              == B11(v, dt, mr)[i][j] - (if i == j then 2.0 else 0.0)
    {
      RailQuadrantSum(v, r, dt, mr, i, j);
    }
    forall i: nat, j: nat | i < nx && j < nx
      ensures A12(v, dt, mr)[i][j] + C12(v, dt, mr)[i][j] == B12(v, dt, mr)[i][j]
    {
      RailSupportQuadrantSum(v, dt, mr, i, j);
    }
    forall i: nat, j: nat | i < nx && j < nx
      ensures A21(v, dt)[i][j] + C21(v, dt)[i][j] == B21(v, dt)[i][j]
    {
      SupportRailQuadrantSum(v, dt, i, j);
    }
    forall i: nat, j: nat | i < nx && j < nx
      ensures A22(v, dt)[i][j] + C22(v, dt)[i][j] == B22(v, dt)[i][j] - (if i == j then 2.0 else 0.0)
    {
      SupportQuadrantSum(v, dt, i, j);
    }
    AssembledSum(nx, A11(v, r, dt, mr), A12(v, dt, mr), A21(v, dt), A22(v, dt),
                 B11(v, dt, mr), B12(v, dt, mr), B21(v, dt), B22(v, dt),
                 C11(v, r, dt, mr), C12(v, dt, mr), C21(v, dt), C22(v, dt));
  }

  /** The coupling quadrants (rail rows, sleeper columns and the reverse) of A, B and C are
      diagonal: node i of the rail couples only to node i of the support. */
  lemma CouplingDiagonal(v: Vectors, r: real, dt: real, mr: real)
    requires Admissible(v) && mr != 0.0
    ensures var s := Blocks(v, r, dt, mr);
            var nx := |v.dr|;
            forall i, j :: 0 <= i < 2 * nx && 0 <= j < 2 * nx && (i < nx <= j || j < nx <= i)
                           && i != j + nx && j != i + nx ==>
              s.A[i][j] == 0.0 && s.B[i][j] == 0.0 && s.C[i][j] == 0.0
  {
    var nx := |v.dr|;
    DiagonalCoupling(nx, A11(v, r, dt, mr), A12(v, dt, mr), A21(v, dt), A22(v, dt));
    DiagonalCoupling(nx, B11(v, dt, mr), B12(v, dt, mr), B21(v, dt), B22(v, dt));
    DiagonalCoupling(nx, C11(v, r, dt, mr), C12(v, dt, mr), C21(v, dt), C22(v, dt));
  }

  /** Diagonal off-quadrants make the assembled matrix couple node i only to node nx + i. */
  lemma DiagonalCoupling(nx: nat, b11: Matrix, b12: Matrix, b21: Matrix, b22: Matrix)
    requires IsMatrix(b11, nx, nx) && IsMatrix(b12, nx, nx)
    requires IsMatrix(b21, nx, nx) && IsMatrix(b22, nx, nx)
    requires forall i, j :: 0 <= i < nx && 0 <= j < nx && i != j ==> b12[i][j] == 0.0 && b21[i][j] == 0.0
    ensures var m := Assemble(nx, b11, b12, b21, b22);
            forall i, j :: (0 <= i < 2 * nx && 0 <= j < 2 * nx && (i < nx <= j || j < nx <= i)
                            && i != j + nx && j != i + nx) ==> m[i][j] == 0.0
  {
    var m := Assemble(nx, b11, b12, b21, b22);
    forall i, j | 0 <= i < 2 * nx && 0 <= j < 2 * nx && (i < nx <= j || j < nx <= i)
                  && i != j + nx && j != i + nx
      ensures m[i][j] == 0.0
    {
      if i < nx {
        assert m[i][nx + (j - nx)] == b12[i][j - nx];
      } else {
        assert m[nx + (i - nx)][j] == b21[i - nx][j];
      }
    }
  }

  /** At a node without pad (sp = dp = 0) the rail and its support are not coupled at all. */
  lemma CouplingVanishes(v: Vectors, r: real, dt: real, mr: real, i: nat)
    requires Admissible(v) && mr != 0.0 && i < |v.dr| && v.sp[i] == 0.0 && v.dp[i] == 0.0
    ensures var s := Blocks(v, r, dt, mr);
            var nx := |v.dr|;
            && s.A[i][nx + i] == 0.0 && s.A[nx + i][i] == 0.0
            && s.B[i][nx + i] == 0.0 && s.B[nx + i][i] == 0.0
            && s.C[i][nx + i] == 0.0 && s.C[nx + i][i] == 0.0
  {
    var nx := |v.dr|;
    assert A12(v, dt, mr)[i][i] == 0.0 && A21(v, dt)[i][i] == 0.0;
    assert B12(v, dt, mr)[i][i] == 0.0 && B21(v, dt)[i][i] == 0.0;
    assert C12(v, dt, mr)[i][i] == 0.0 && C21(v, dt)[i][i] == 0.0;
    CrossEntries(nx, A11(v, r, dt, mr), A12(v, dt, mr), A21(v, dt), A22(v, dt), i);
    CrossEntries(nx, B11(v, dt, mr), B12(v, dt, mr), B21(v, dt), B22(v, dt), i);
    CrossEntries(nx, C11(v, r, dt, mr), C12(v, dt, mr), C21(v, dt), C22(v, dt), i);
  }

  /** The entries coupling rail node i and support node i are the diagonals of the off-quadrants. */
  lemma CrossEntries(nx: nat, b11: Matrix, b12: Matrix, b21: Matrix, b22: Matrix, i: nat)
    requires IsMatrix(b11, nx, nx) && IsMatrix(b12, nx, nx)
    requires IsMatrix(b21, nx, nx) && IsMatrix(b22, nx, nx) && i < nx
    ensures Assemble(nx, b11, b12, b21, b22)[i][nx + i] == b12[i][i]
    ensures Assemble(nx, b11, b12, b21, b22)[nx + i][i] == b21[i][i]
  {
  }

  /** Off the diagonal, the rail quadrants hold only the bending stencil: A11 = r*D and
      C11 = -r*D there, B11 is zero, so the rail rows are pentadiagonal. */
  lemma RailOffDiagonal(v: Vectors, r: real, dt: real, mr: real, i: nat, j: nat)
    requires Admissible(v) && mr != 0.0 && i < |v.dr| && j < |v.dr| && i != j
    ensures A11(v, r, dt, mr)[i][j] == r * StencilWeight(j - i)
    ensures C11(v, r, dt, mr)[i][j] == -(r * StencilWeight(j - i))
    ensures B11(v, dt, mr)[i][j] == 0.0
    ensures (j - i > 2 || i - j > 2) ==> A11(v, r, dt, mr)[i][j] == 0.0 && C11(v, r, dt, mr)[i][j] == 0.0
  {
  }

  /** build_matrix, once it succeeds, yields a consistent three-level system: A + C = B - 2I. */
  lemma BuildMatrixConsistent(E: real, Iyr: real, mr: real, dt: real, dx: real, v: Vectors)
    requires Admissible(v) && mr != 0.0 && dx != 0.0 && |v.dr| >= 2
    ensures var r := BuildMatrix(E, Iyr, mr, dt, dx, v);
            && r.Ok?
            && forall i, j :: 0 <= i < 2 * |v.dr| && 0 <= j < 2 * |v.dr| ==>
                 r.value.A[i][j] + r.value.C[i][j] == r.value.B[i][j] - (if i == j then 2.0 else 0.0)
  {
    PowEvenPositive(dx, 2);
    var k := (E * Iyr) * Pow(dt, 2) / (2.0 * mr * Pow(dx, 4));
    assert BuildMatrix(E, Iyr, mr, dt, dx, v) == Ok(Blocks(v, k, dt, mr));
    SystemSum(v, k, dt, mr);
  }
}

=== FILE: numerics.dfy ===
/** Python and numpy number semantics the core relies on, over exact reals. */
module Numerics {
  import opened Outcomes

  /** Python's int(x) on a float: truncation toward zero. */
  function Trunc(x: real): (r: int)
    ensures 0.0 <= x ==> 0 <= r && r as real <= x < r as real + 1.0
    ensures x < 0.0 ==> r <= 0 && r as real - 1.0 < x <= r as real
  {
    if x >= 0.0 then x.Floor else -((-x).Floor)
  }

  /** Division with remainder is unique: q*p + j with 0 <= j < p has quotient q and remainder j. */
  lemma DivModUnique(q: nat, p: nat, j: nat)
    requires j < p
    ensures (q * p + j) / p == q
    ensures (q * p + j) % p == j
  {
    var m := q * p + j;
    var d := m / p - q;
    assert d * p == j - m % p;
  }

  lemma MulDivCancel(x: real, d: real)
    requires d != 0.0
    ensures (x / d) * d == x
  {
  }

  lemma MulDivAssoc(a: real, b: real, d: real)
    requires d != 0.0
    ensures a * (b / d) == a * b / d
  {
    var q := b / d;
    assert q * d == b;
    assert (a * q) * d == a * b;
  }

  lemma DivAdd(a: real, b: real, d: real)
    requires d != 0.0
    ensures (a + b) / d == a / d + b / d
  {
    assert (a / d) * d == a && (b / d) * d == b;
    assert (a / d + b / d) * d == a + b;
  }

  lemma MulMonotone(a: real, b: real, c: real)
    requires a <= b && c >= 0.0
    ensures a * c <= b * c
  {
    assert (b - a) * c >= 0.0;
  }

  lemma MulStrictMonotone(a: real, b: real, c: real)
    requires a < b && c > 0.0
    ensures a * c < b * c
  {
    assert (b - a) * c > 0.0;
  }

  /** x to the natural power n. */
  function Pow(x: real, n: nat): real
  {
    if n == 0 then 1.0 else x * Pow(x, n - 1)
  }

  lemma {:induction false} PowNonNegative(x: real, n: nat)
    requires 0.0 <= x
    ensures 0.0 <= Pow(x, n)
  {
    if n > 0 {
      PowNonNegative(x, n - 1);
    }
  }

  lemma {:induction false} PowMonotone(x: real, y: real, n: nat)
    requires 0.0 <= x <= y
    ensures Pow(x, n) <= Pow(y, n)
  {
    if n > 0 {
      PowMonotone(x, y, n - 1);
      PowNonNegative(x, n - 1);
      PowNonNegative(y, n - 1);
      assert x * Pow(x, n - 1) <= y * Pow(x, n - 1);
      assert y * Pow(x, n - 1) <= y * Pow(y, n - 1);
    }
  }

  lemma {:induction false} PowPositive(x: real, n: nat)
    requires 0.0 < x
    ensures 0.0 < Pow(x, n)
  {
    if n > 0 {
      PowPositive(x, n - 1);
    }
  }

  lemma {:induction false} PowNonZero(x: real, n: nat)
    requires x != 0.0
    ensures Pow(x, n) != 0.0
  {
    if n > 0 {
      PowNonZero(x, n - 1);
    }
  }

  lemma PosMul(a: real, b: real)
    requires a > 0.0 && b > 0.0
    ensures a * b > 0.0
  {
  }

  lemma NegMul(a: real, b: real)
    requires a < 0.0 && b > 0.0
    ensures a * b < 0.0
  {
    PosMul(-a, b);
    assert (-a) * b == -(a * b);
  }

  lemma NegNeg(a: real, b: real)
    requires a < 0.0 && b < 0.0
    ensures a * b > 0.0
  {
    PosMul(-a, -b);
    assert (-a) * (-b) == a * b;
  }

  /** An even power of a non-zero number is positive. */
  lemma {:induction false} PowEvenPositive(x: real, n: nat)
    requires x != 0.0
    ensures Pow(x, 2 * n) > 0.0
  {
    if n > 0 {
      PowEvenPositive(x, n - 1);
      var p := Pow(x, 2 * n - 2);
      assert Pow(x, 2 * n) == x * (x * p);
      if x > 0.0 {
        PosMul(x, p);
        PosMul(x, x * p);
      } else {
        NegMul(x, p);
        NegNeg(x, x * p);
      }
    }
  }

  /** Even powers do not see the sign. */
  lemma {:induction false} PowEvenSymmetric(x: real, n: nat)
    ensures Pow(-x, 2 * n) == Pow(x, 2 * n)
  {
    if n > 0 {
      PowEvenSymmetric(x, n - 1);
      var p := Pow(x, 2 * n - 2);
      assert Pow(-x, 2 * n) == (-x) * ((-x) * p);
      assert Pow(x, 2 * n) == x * (x * p);
      assert (-x) * ((-x) * p) == x * (x * p);
    }
  }

  /** Sum of a sequence, accumulated from the front as Python's sum() does. */
  function Sum(s: seq<real>): real
  {
    if |s| == 0 then 0.0 else Sum(s[..|s| - 1]) + s[|s| - 1]
  }

  /** Extending a prefix by one element adds that element. */
  lemma SumPrefix(s: seq<real>, j: nat)
    requires j < |s|
    ensures Sum(s[..j + 1]) == Sum(s[..j]) + s[j]
  {
    assert s[..j + 1][..j] == s[..j];
  }

  lemma SumAppend(s: seq<real>, x: real)
    ensures Sum(s + [x]) == Sum(s) + x
  {
    assert (s + [x])[..|s|] == s;
  }

  /** Dot product of two equally long sequences. */
  function Dot(u: seq<real>, w: seq<real>): real
    requires |u| == |w|
  {
    if |u| == 0 then 0.0 else Dot(u[..|u| - 1], w[..|w| - 1]) + u[|u| - 1] * w[|w| - 1]
  }

  /** n copies of x: numpy's x * ones(n). */
  function Constant(n: nat, x: real): (s: seq<real>)
    ensures |s| == n && forall i :: 0 <= i < n ==> s[i] == x
  {
    seq(n, _ => x)
  }

  /** s + c, numpy broadcasting a scalar over a vector. */
  function AddAll(s: seq<real>, c: real): (r: seq<real>)
    ensures |r| == |s| && forall i :: 0 <= i < |s| ==> r[i] == s[i] + c
  {
    seq(|s|, i requires 0 <= i < |s| => s[i] + c)
  }

  /** numpy's integer indexing into an array of length n: negative indices count
      from the end, anything else outside [-n, n) raises IndexError. */
  function PyIndex(i: int, n: nat): (r: Option<nat>)
    ensures r.Some? <==> -(n as int) <= i < n
    ensures r.Some? ==> r.value < n && (r.value as int - i) % n == 0
    ensures 0 <= i < n ==> r == Some(i)
  {
    if 0 <= i < n then Some(i) else if -(n as int) <= i < 0 then Some(i + n) else None
  }

  /** numpy.linspace(start, stop, num) with its default endpoint=True, over exact reals. */
  function Linspace(start: real, stop: real, num: int): (r: Result<seq<real>>)
    ensures r.Ok? <==> num >= 0
    ensures r.Ok? ==> |r.value| == num
    ensures r.Ok? && num >= 1 ==> r.value[0] == start
    ensures r.Ok? && num >= 2 ==> r.value[num - 1] == stop
    ensures r.Ok? && num >= 2 ==> forall k :: 0 <= k < num - 1 ==>
              r.value[k + 1] - r.value[k] == (stop - start) / (num - 1) as real
  {
    if num < 0 then Raises(ValueError)
    else if num == 0 then Ok([])
    else if num == 1 then Ok([start])
    else
      var step := (stop - start) / (num - 1) as real;
      Ok(seq(num, k requires 0 <= k < num => if k == num - 1 then stop else start + k as real * step))
  }

  /** Entry k of linspace(start, stop, num) for num >= 2. */
  lemma LinspaceAt(start: real, stop: real, num: int, k: int)
    requires num >= 2 && 0 <= k < num
    ensures Linspace(start, stop, num).value[k] ==
              if k == num - 1 then stop else start + k as real * ((stop - start) / (num - 1) as real)
  {
  }

  /** With start <= stop, linspace is non-decreasing and stays within [start, stop]. */
  lemma {:induction false} LinspaceMonotone(start: real, stop: real, num: int)
    requires start <= stop && num >= 1
    ensures var r := Linspace(start, stop, num).value;
            && (forall i, j :: 0 <= i <= j < num ==> r[i] <= r[j])
            && forall i :: 0 <= i < num ==> start <= r[i] <= stop
  {
    var r := Linspace(start, stop, num).value;
    if num >= 2 {
      assert (stop - start) / (num - 1) as real >= 0.0;
      forall i, j | 0 <= i <= j < num ensures r[i] <= r[j] {
        var k := i;
        while k < j
          invariant i <= k <= j
          invariant r[i] <= r[k]
        {
          k := k + 1;
        }
      }
      assert r[0] == start && r[num - 1] == stop;
    }
  }
}

=== FILE: outcomes.dfy ===
/** Outcomes of the modelled Python code: a value, a raised exception, or a
    loop that never ends. */
module Outcomes {

  /** The Python exceptions the modelled code can raise. */
  datatype Error =
    | ValueError          // max() of an empty sequence, bad unpacking, numpy broadcast/shape errors
    | IndexError          // numpy index out of range, random.choice of an empty list
    | ZeroDivisionError   // float or integer division/modulo by zero
    | AttributeError      // attribute access on None, or on an attribute never set
    | KeyError            // dict lookup of a missing key
    | TypeError           // len() of a float, indexing a float

  datatype Result<+T> = Ok(value: T) | Raises(error: Error) | Diverges {
    predicate IsFailure() {
      !Ok?
    }

    function PropagateFailure<U>(): Result<U>
      requires !Ok?
    {
      match this
      case Raises(e) => Raises(e)
      case Diverges => Diverges
    }

    function Extract(): T
      requires Ok?
    {
      value
    }
  }

  datatype Option<+T> = None | Some(value: T)
}

=== FILE: pydict.dfy ===
/** A Python dict with float keys, as the mounting-property maps use it:
    insertion-ordered entries with distinct keys, where assigning to an
    existing key replaces its value in place. */
module PyDict {
  import opened Outcomes

  datatype Entry<V> = Entry(key: real, val: V)

  type Dict<V> = seq<Entry<V>>

  function Keys<V>(d: Dict<V>): set<real>
  {
    set i | 0 <= i < |d| :: d[i].key
  }

  /** Keys are pairwise distinct. */
  predicate Wf<V>(d: Dict<V>)
  {
    forall i, j :: 0 <= i < j < |d| ==> d[i].key != d[j].key
  }

  /** Position of key k in insertion order. */
  function Find<V>(d: Dict<V>, k: real): (i: nat)
    requires k in Keys(d)
    ensures i < |d| && d[i].key == k
    ensures forall j :: 0 <= j < i ==> d[j].key != k
  {
    if d[0].key == k then 0
    else
      assert k in Keys(d[1..]) by {
        var j :| 0 <= j < |d| && d[j].key == k;
        assert d[1..][j - 1].key == k;
      }
      1 + Find(d[1..], k)
  }

  /** d[k] */
  function Get<V>(d: Dict<V>, k: real): V
    requires k in Keys(d)
  {
    d[Find(d, k)].val
  }

  lemma GetAt<V>(d: Dict<V>, i: nat)
    requires Wf(d) && i < |d|
    ensures d[i].key in Keys(d) && Get(d, d[i].key) == d[i].val
  {
    var j := Find(d, d[i].key);
    assert j == i;
  }

  /** d[k] = v */
  function Put<V>(d: Dict<V>, k: real, v: V): (r: Dict<V>)
    requires Wf(d)
    ensures Wf(r)
    ensures Keys(r) == Keys(d) + {k}
    ensures Get(r, k) == v
    ensures forall k' :: k' in Keys(d) && k' != k ==> Get(r, k') == Get(d, k')
    ensures k in Keys(d) ==> |r| == |d| && forall i :: 0 <= i < |d| ==> r[i].key == d[i].key
    ensures k !in Keys(d) ==> r == d + [Entry(k, v)]
  {
    if k in Keys(d) then
      var i := Find(d, k);
      var r := d[i := Entry(k, v)];
      assert Keys(r) == Keys(d) by {
        forall x | x in Keys(d) ensures x in Keys(r) {
          var j :| 0 <= j < |d| && d[j].key == x;
          assert r[j].key == x;
        }
      }
      assert forall k' :: k' in Keys(d) && k' != k ==> Get(r, k') == Get(d, k') by {
        forall k' | k' in Keys(d) && k' != k ensures Get(r, k') == Get(d, k') {
          var j := Find(d, k');
          GetAt(r, j);
        }
      }
      GetAt(r, i);
      r
    else
      var r := d + [Entry(k, v)];
      assert Keys(r) == Keys(d) + {k} by {
        assert r[|d|].key == k;
        forall x | x in Keys(d) ensures x in Keys(r) {
          var j :| 0 <= j < |d| && d[j].key == x;
          assert r[j].key == x;
        }
      }
      assert forall k' :: k' in Keys(d) && k' != k ==> Get(r, k') == Get(d, k') by {
        forall k' | k' in Keys(d) && k' != k ensures Get(r, k') == Get(d, k') {
          var j := Find(d, k');
          GetAt(r, j);
        }
      }
      GetAt(r, |d|);
      r
  }

  /** max(d.keys()): Python raises ValueError on an empty dict. */
  function MaxKey<V>(d: Dict<V>): (r: Result<real>)
    ensures r.Ok? <==> |d| > 0
    ensures r.Ok? ==> r.value in Keys(d) && forall k :: k in Keys(d) ==> k <= r.value
    ensures !r.Ok? ==> r == Raises(ValueError)
  {
    if |d| == 0 then Raises(ValueError)
    else if |d| == 1 then Ok(d[0].key)
    else
      var m := MaxKey(d[1..]).value;
      assert Keys(d) == {d[0].key} + Keys(d[1..]) by {
        forall x | x in Keys(d) ensures x in {d[0].key} + Keys(d[1..]) {
          var j :| 0 <= j < |d| && d[j].key == x;
          if j > 0 { assert d[1..][j - 1].key == x; }
        }
      }
      Ok(if d[0].key > m then d[0].key else m)
  }

  /** Index of the last occurrence of x in xs. */
  function LastAt(xs: seq<real>, x: real): (i: nat)
    requires x in xs
    ensures i < |xs| && xs[i] == x
    ensures forall j :: i < j < |xs| ==> xs[j] != x
  {
    if xs[|xs| - 1] == x then |xs| - 1 else LastAt(xs[..|xs| - 1], x)
  }

  /** The values in xs, as a set. */
  function Elems(xs: seq<real>): set<real>
  {
    set x | x in xs
  }

  predicate Distinct(xs: seq<real>)
  {
    forall i, j :: 0 <= i < j < |xs| ==> xs[i] != xs[j]
  }

  /** `d[xs[k]] = ms[k]` for k = 0, 1, ... in order, starting from `prior`. */
  function Fill<V>(prior: Dict<V>, xs: seq<real>, ms: seq<V>): (r: Dict<V>)
    requires Wf(prior) && |xs| == |ms|
    ensures Wf(r)
    ensures Keys(r) == Keys(prior) + Elems(xs)
    ensures forall x :: x in Keys(prior) && x !in xs ==> Get(r, x) == Get(prior, x)
    ensures forall k :: 0 <= k < |xs| ==> Get(r, xs[k]) == ms[LastAt(xs, xs[k])]
  {
    if |xs| == 0 then prior
    else
      var n := |xs| - 1;
      var d := Fill(prior, xs[..n], ms[..n]);
      var r := Put(d, xs[n], ms[n]);
      FillStep(xs, ms, d, r);
      r
  }

  lemma FillStep<V>(xs: seq<real>, ms: seq<V>, d: Dict<V>, r: Dict<V>)
    requires |xs| == |ms| > 0 && Wf(d) && Wf(r)
    requires var n := |xs| - 1;
             && Keys(r) == Keys(d) + {xs[n]}
             && Get(r, xs[n]) == ms[n]
             && (forall k' :: k' in Keys(d) && k' != xs[n] ==> Get(r, k') == Get(d, k'))
             && Elems(xs[..n]) <= Keys(d)
             && forall k :: 0 <= k < n ==> Get(d, xs[..n][k]) == ms[..n][LastAt(xs[..n], xs[..n][k])]
    ensures Elems(xs) == Elems(xs[..|xs| - 1]) + {xs[|xs| - 1]}
    ensures forall k :: 0 <= k < |xs| ==> Get(r, xs[k]) == ms[LastAt(xs, xs[k])]
  {
    var n := |xs| - 1;
    assert xs == xs[..n] + [xs[n]];
    assert Elems(xs) == Elems(xs[..n]) + {xs[n]};
    forall k | 0 <= k < |xs| ensures Get(r, xs[k]) == ms[LastAt(xs, xs[k])] {
      if xs[k] != xs[n] {
        assert xs[..n][k] == xs[k];
        assert LastAt(xs, xs[k]) == LastAt(xs[..n], xs[k]);
      }
    }
  }

  lemma DistinctLastAt(xs: seq<real>, k: nat)
    requires Distinct(xs) && k < |xs|
    ensures LastAt(xs, xs[k]) == k
  {
  }

  /** When every written value is v, every filled key holds v. */
  lemma FillConst<V>(prior: Dict<V>, xs: seq<real>, ms: seq<V>, v: V)
    requires Wf(prior) && |xs| == |ms|
    requires forall k :: 0 <= k < |ms| ==> ms[k] == v
    ensures forall x :: x in Elems(xs) ==> Get(Fill(prior, xs, ms), x) == v
  {
    forall x | x in Elems(xs) ensures Get(Fill(prior, xs, ms), x) == v {
      var j :| 0 <= j < |xs| && xs[j] == x;
      assert Get(Fill(prior, xs, ms), xs[j]) == ms[LastAt(xs, xs[j])];
    }
  }
}

=== FILE: track.dfy ===
/** Track definitions (rolland/track.py): the component data the simulation
    reads, and the mounting-property maps of the discretely supported tracks. */
module Track {
  import opened Outcomes
  import opened Numerics
  import opened PyDict
  import opened Arrangement

  /** Rail constants used by the core: Young's modulus, area moment Iyr, mass per length, damping. */
  datatype Rail = Rail(E: real, Iyr: real, mr: real, dr: real)

  /** Pad stiffness and damping; only the vertical entries sp[0], dp[0] are read. */
  datatype Pad = Pad(sp: real, dp: real)

  datatype Sleeper = Sleeper(ms: real)

  /** Ballast stiffness and damping, vertical entries sb[0], db[0]. */
  datatype Ballast = Ballast(sb: real, db: real)

  datatype Slab = Slab(ms: real)

  /** A value of `mount_prop`: (pad, sleeper or None, ballast or None). */
  datatype Mount = Mount(pad: Pad, sleeper: Option<Sleeper>, ballast: Option<Ballast>)

  type MountMap = Dict<Mount>

  /** The concrete track classes, grouped as the discretization dispatches on them.
      DiscrSlab stands for SimplePeriodicSlabSingleRailTrack and ArrangedSlabSingleRailTrack,
      DiscrBallasted for their ballasted counterparts, and OtherTrack for any Track
      subclass outside these six. */
  datatype Track =
    | ContSlab(rail: Rail, pad: Pad, slab: Slab, lTrack: real)
    | DiscrSlab(rail: Rail, slab: Slab, mountProp: MountMap, lTrack: real)
    | ContBallasted(rail: Rail, pad: Pad, slab: Slab, ballast: Ballast, lTrack: real)
    | DiscrBallasted(rail: Rail, ballast: Ballast, mountProp: MountMap, lTrack: real)
    | OtherTrack(rail: Rail, lTrack: real)

  /** The mass SlabSingleRailTrack.__init__ gives every slab, to make it rigid. */
  const RigidSlabMass: real := 100000000000000000000.0

  /** The slab of every slab track. `SlabSingleRailTrack.slab` is a class attribute holding
      one Slab, not a trait: a `slab=` argument is not stored, and __init__ sets the mass of
      that shared Slab to 1e20. */
  const SharedSlab: Slab := Slab(RigidSlabMass)

  /** Python's zip(a, b) with strict=False: the number of pairs it yields. */
  function ZipCount<A, B>(a: Gen<A>, b: Gen<B>): (m: nat)
    ensures m <= |a.values| && m <= |b.values|
    ensures m == |a.values| || m == |b.values|
  {
    if |a.values| <= |b.values| then |a.values| else |b.values|
  }

  /** What zip(a, b) does after its last pair: it pulls `a` first, so an exhausted `a`
      decides (and `b` is never pulled again); otherwise `b`'s tail decides. */
  function ZipTail<A, B>(a: Gen<A>, b: Gen<B>): Tail
  {
    if |a.values| <= |b.values| then a.tail else b.tail
  }

  /** Mount positions: x starts at 0 and mount k sits at the sum of the first k distances. */
  function Positions(ds: seq<real>, m: nat): (xs: seq<real>)
    requires m <= |ds|
    ensures |xs| == m
    ensures m > 0 ==> xs[0] == 0.0
    ensures forall k {:trigger ds[k]} :: 0 <= k < m - 1 ==> xs[k + 1] == xs[k] + ds[k]
  {
    var xs := seq(m, k requires 0 <= k < m => Sum(ds[..k]));
    assert forall k :: 0 <= k < m - 1 ==> xs[k + 1] == xs[k] + ds[k] by {
      forall k | 0 <= k < m - 1 ensures xs[k + 1] == xs[k] + ds[k] {
        assert ds[..k + 1][..k] == ds[..k];
      }
    }
    xs
  }

  /** With positive distances the positions strictly increase. */
  lemma {:induction false} PositionsIncreasing(ds: seq<real>, m: nat)
    requires m <= |ds|
    requires forall k :: 0 <= k < |ds| ==> ds[k] > 0.0
    ensures forall i, j :: 0 <= i < j < m ==> Positions(ds, m)[i] < Positions(ds, m)[j]
  {
    var xs := Positions(ds, m);
    forall i, j | 0 <= i < j < m ensures xs[i] < xs[j] {
      var k := i + 1;
      while k < j
        invariant i < k <= j
        invariant xs[i] < xs[k]
      {
        k := k + 1;
      }
    }
  }

  lemma MaxIsLast(xs: seq<real>, top: real)
    requires |xs| > 0
    requires forall i :: 0 <= i < |xs| - 1 ==> xs[i] <= xs[|xs| - 1]
    requires top in Elems(xs) && xs[|xs| - 1] <= top
    ensures top == xs[|xs| - 1]
  {
  }

  /** The positions i*distance for i in range(num_mount). */
  function Uniform(distance: real, numMount: int): (xs: seq<real>)
    ensures |xs| == if numMount < 0 then 0 else numMount
    ensures forall i :: 0 <= i < |xs| ==> xs[i] == i as real * distance
  {
    var n := if numMount < 0 then 0 else numMount;
    seq(n, i requires 0 <= i < n => i as real * distance)
  }

  /** With a non-negative distance the last uniform position is the largest. */
  lemma UniformLastIsMax(distance: real, numMount: int)
    requires distance >= 0.0 && numMount >= 1
    ensures forall i :: 0 <= i < numMount - 1 ==>
              Uniform(distance, numMount)[i] <= Uniform(distance, numMount)[numMount - 1]
  {
    var xs := Uniform(distance, numMount);
    forall i | 0 <= i < numMount - 1 ensures xs[i] <= xs[numMount - 1] {
      MulMonotone(i as real, (numMount - 1) as real, distance);
    }
  }

  /** SimplePeriodicSlabSingleRailTrack.calc_mount_prop: clears `mount_prop`, puts the pad at
      i*distance for each i in range(num_mount), then takes l_track as the largest key. */
  function SimplePeriodicSlabMountProp(pad: Pad, distance: real, numMount: int, prior: MountMap)
    : (r: Result<(MountMap, real)>)
    requires Wf(prior)
    ensures r.Ok? <==> numMount >= 1
    ensures !r.Ok? ==> r == Raises(ValueError)
    ensures r.Ok? ==> Wf(r.value.0)
    ensures r.Ok? ==> Keys(r.value.0) == Elems(Uniform(distance, numMount))
    ensures r.Ok? ==> forall x :: x in Keys(r.value.0) ==> Get(r.value.0, x) == Mount(pad, None, None)
    ensures r.Ok? ==> r.value.1 in Keys(r.value.0) && forall x :: x in Keys(r.value.0) ==> x <= r.value.1
    ensures r.Ok? && distance >= 0.0 ==> r.value.1 == (numMount - 1) as real * distance
  {
    var xs := Uniform(distance, numMount);
    var ms := seq(|xs|, _ => Mount(pad, None, None));
    var mp := Fill([], xs, ms);
    assert Keys(mp) == Elems(xs);
    FillConst([], xs, ms, Mount(pad, None, None));
    NonEmptyFill([], xs, mp);
    var lTrack :- MaxKey(mp);
    if distance >= 0.0 then
      UniformMax(distance, numMount, lTrack);
      Ok((mp, lTrack))
    else Ok((mp, lTrack))
  }

  /** The largest of the uniform positions, for a non-negative distance, is the last one. */
  lemma UniformMax(distance: real, numMount: int, top: real)
    requires distance >= 0.0 && numMount >= 1
    requires top in Elems(Uniform(distance, numMount))
    requires forall x :: x in Elems(Uniform(distance, numMount)) ==> x <= top
    ensures top == (numMount - 1) as real * distance
  {
    var xs := Uniform(distance, numMount);
    UniformLastIsMax(distance, numMount);
    assert xs[numMount - 1] in Elems(xs);
    MaxIsLast(xs, top);
  }

  /** SimplePeriodicBallastedSingleRailTrack.calc_mount_prop: the same positions, each with
      (pad, sleeper, ballast), but `mount_prop` is NOT cleared first: keys of an earlier
      computation survive and still count for l_track. */
  function SimplePeriodicBallastedMountProp(pad: Pad, sleeper: Sleeper, ballast: Ballast,
                                            distance: real, numMount: int, prior: MountMap)
    : (r: Result<(MountMap, real)>)
    requires Wf(prior)
    ensures r.Ok? <==> numMount >= 1 || |prior| > 0
    ensures !r.Ok? ==> r == Raises(ValueError)
    ensures r.Ok? ==> Wf(r.value.0)
    ensures r.Ok? ==> Keys(r.value.0) == Keys(prior) + Elems(Uniform(distance, numMount))
    ensures r.Ok? ==> forall x :: x in Elems(Uniform(distance, numMount)) ==>
              Get(r.value.0, x) == Mount(pad, Some(sleeper), Some(ballast))
    ensures r.Ok? ==> forall x :: x in Keys(prior) && x !in Elems(Uniform(distance, numMount)) ==>
              Get(r.value.0, x) == Get(prior, x)
    ensures r.Ok? ==> r.value.1 in Keys(r.value.0) && forall x :: x in Keys(r.value.0) ==> x <= r.value.1
  {
    var xs := Uniform(distance, numMount);
    var ms := seq(|xs|, _ => Mount(pad, Some(sleeper), Some(ballast)));
    var mp := Fill(prior, xs, ms);
    FillConst(prior, xs, ms, Mount(pad, Some(sleeper), Some(ballast)));
    NonEmptyFill(prior, xs, mp);
    var lTrack :- MaxKey(mp);
    Ok((mp, lTrack))
  }

  lemma NonEmptyFill(prior: MountMap, xs: seq<real>, mp: MountMap)
    requires Keys(mp) == Keys(prior) + Elems(xs)
    ensures |mp| > 0 <==> |xs| > 0 || |prior| > 0
  {
    if |prior| > 0 { assert prior[0].key in Keys(mp); }
    if |xs| > 0 { assert xs[0] in Keys(mp); }
    if |mp| > 0 { assert mp[0].key in Keys(mp); }
  }

  /** The loop shared by the arranged tracks: mount k (one per zipped tuple, already built
      into ms[k]) is written at x, which starts at 0 and grows by distance k; when the zip
      ends, l_track is the largest key. `tail` is what the zip does after its last tuple. */
  function PlaceMounts(ms: seq<Mount>, ds: seq<real>, tail: Tail, prior: MountMap)
    : (r: Result<(MountMap, real)>)
    requires Wf(prior) && |ms| <= |ds|
    ensures tail == Hang ==> r == Diverges
    ensures tail.Raise? ==> r == Raises(tail.error)
    ensures tail == Stop ==> (r.Ok? <==> |ms| > 0 || |prior| > 0)
    ensures tail == Stop && !r.Ok? ==> r == Raises(ValueError)
    ensures r.Ok? ==>
              var xs := Positions(ds, |ms|);
              && Wf(r.value.0)
              && Keys(r.value.0) == Keys(prior) + Elems(xs)
              && (forall x :: x in Keys(prior) && x !in xs ==> Get(r.value.0, x) == Get(prior, x))
              && (forall k :: 0 <= k < |ms| ==> Get(r.value.0, xs[k]) == ms[LastAt(xs, xs[k])])
              && r.value.1 in Keys(r.value.0)
              && forall x :: x in Keys(r.value.0) ==> x <= r.value.1
  {
    var xs := Positions(ds, |ms|);
    var mp := Fill(prior, xs, ms);
    match tail
    case Hang => Diverges
    case Raise(e) => Raises(e)
    case Stop =>
      NonEmptyFill(prior, xs, mp);
      var lTrack :- MaxKey(mp);
      Ok((mp, lTrack))
  }

  /** Filling a fresh map at distinct positions appends one entry per position, in order. */
  lemma {:induction false} FillFresh(xs: seq<real>, ms: seq<Mount>)
    requires |xs| == |ms| && Distinct(xs)
    ensures |Fill([], xs, ms)| == |xs|
    ensures forall k :: 0 <= k < |xs| ==> Fill([], xs, ms)[k] == Entry(xs[k], ms[k])
  {
    if |xs| > 0 {
      var n := |xs| - 1;
      assert Distinct(xs[..n]);
      FillFresh(xs[..n], ms[..n]);
      FillFreshLast(xs, ms);
      AppendedEntries(xs, ms, Fill([], xs[..n], ms[..n]), Fill([], xs, ms));
    }
  }

  /** Entries for all but the last position, followed by the last one, are entries for all. */
  lemma AppendedEntries<V>(xs: seq<real>, ms: seq<V>, d: Dict<V>, r: Dict<V>)
    requires |xs| == |ms| > 0 && |d| == |xs| - 1
    requires forall k :: 0 <= k < |d| ==> d[k] == Entry(xs[..|d|][k], ms[..|d|][k])
    requires r == d + [Entry(xs[|d|], ms[|d|])]
    ensures |r| == |xs| && forall k :: 0 <= k < |xs| ==> r[k] == Entry(xs[k], ms[k])
  {
  }

  /** A fresh position is appended at the end. */
  lemma FillFreshLast(xs: seq<real>, ms: seq<Mount>)
    requires |xs| == |ms| > 0 && Distinct(xs)
    ensures var n := |xs| - 1;
            Fill([], xs, ms) == Fill([], xs[..n], ms[..n]) + [Entry(xs[n], ms[n])]
  {
    var n := |xs| - 1;
    var d := Fill([], xs[..n], ms[..n]);
    assert Keys(d) == Elems(xs[..n]) by {
      assert Keys<Mount>([]) == {};
    }
    assert xs[n] !in Elems(xs[..n]);
  }

  /** With positive distances and a fresh map, positions strictly increase from 0, the map
      holds one entry per mount in order, and l_track is the position of the last mount. */
  lemma PlaceMountsLayout(ms: seq<Mount>, ds: seq<real>)
    requires 0 < |ms| <= |ds|
    requires forall k :: 0 <= k < |ds| ==> ds[k] > 0.0
    ensures var r := PlaceMounts(ms, ds, Stop, []);
            var xs := Positions(ds, |ms|);
            && r.Ok?
            && xs[0] == 0.0
            && (forall i, j :: 0 <= i < j < |ms| ==> xs[i] < xs[j])
            && |r.value.0| == |ms|
            && (forall k :: 0 <= k < |ms| ==> r.value.0[k] == Entry(xs[k], ms[k]))
            && r.value.1 == xs[|ms| - 1]
  {
    var xs := Positions(ds, |ms|);
    PositionsIncreasing(ds, |ms|);
    FreshLayout(xs, ms);
    assert PlaceMounts(ms, ds, Stop, []) == Ok((Fill([], xs, ms), xs[|ms| - 1]));
  }

  /** Filling a fresh map at increasing positions: one entry per position, in order, and the
      largest key is the last position. */
  lemma FreshLayout(xs: seq<real>, ms: seq<Mount>)
    requires 0 < |xs| == |ms|
    requires forall i, j :: 0 <= i < j < |xs| ==> xs[i] < xs[j]
    ensures |Fill([], xs, ms)| == |xs|
    ensures forall k :: 0 <= k < |xs| ==> Fill([], xs, ms)[k] == Entry(xs[k], ms[k])
    ensures MaxKey(Fill([], xs, ms)) == Ok(xs[|xs| - 1])
  {
    var d := Fill([], xs, ms);
    assert Distinct(xs);
    assert Keys<Mount>([]) == {};
    assert Keys(d) == Elems(xs);
    NonEmptyFill([], xs, d);
    MaxIsLast(xs, MaxKey(d).value);
    FillFresh(xs, ms);
  }

  /** On a fresh map, every stored mount is one of the mounts built from the zip. */
  lemma PlaceMountsFrom(ms: seq<Mount>, ds: seq<real>, tail: Tail, ok: Mount -> bool)
    requires |ms| <= |ds|
    requires forall k :: 0 <= k < |ms| ==> ok(ms[k])
    ensures var r := PlaceMounts(ms, ds, tail, []);
            r.Ok? ==> forall x :: x in Keys(r.value.0) ==> ok(Get(r.value.0, x))
  {
    var r := PlaceMounts(ms, ds, tail, []);
    if r.Ok? {
      var xs := Positions(ds, |ms|);
      assert r.value.0 == Fill([], xs, ms);
      FillFrom(xs, ms, ok);
    }
  }

  /** Filling a fresh map stores only values from ms. */
  lemma FillFrom<V>(xs: seq<real>, ms: seq<V>, ok: V -> bool)
    requires |xs| == |ms| && forall k :: 0 <= k < |ms| ==> ok(ms[k])
    ensures forall x :: x in Keys(Fill([], xs, ms)) ==> ok(Get(Fill([], xs, ms), x))
  {
    var d := Fill([], xs, ms);
    assert Keys<V>([]) == {};
    forall x | x in Keys(d) ensures ok(Get(d, x)) {
      var j :| 0 <= j < |xs| && xs[j] == x;
      assert Get(d, xs[j]) == ms[LastAt(xs, xs[j])];
    }
  }

  /** ArrangedSlabSingleRailTrack.calc_mount_prop over already generated pads and distances:
      zip(pads, distances) gives the mounts (pad, None, None); `mount_prop` is not cleared. */
  function ArrangedSlabMountProp(pads: Gen<Pad>, distances: Gen<real>, prior: MountMap)
    : (r: Result<(MountMap, real)>)
    requires Wf(prior)
    ensures ZipTail(pads, distances) == Hang ==> r == Diverges
    ensures ZipTail(pads, distances).Raise? ==> r == Raises(ZipTail(pads, distances).error)
    ensures ZipTail(pads, distances) == Stop ==>
              (r.Ok? <==> ZipCount(pads, distances) > 0 || |prior| > 0)
    ensures r.Ok? ==>
              var m := ZipCount(pads, distances);
              var xs := Positions(distances.values, m);
              && Wf(r.value.0)
              && Keys(r.value.0) == Keys(prior) + Elems(xs)
              && (Distinct(xs) ==> forall k :: 0 <= k < m ==>
                    Get(r.value.0, xs[k]) == Mount(pads.values[k], None, None))
              && r.value.1 in Keys(r.value.0)
              && forall x :: x in Keys(r.value.0) ==> x <= r.value.1
  {
    var m := ZipCount(pads, distances);
    var ms := SlabMounts(pads.values, m);
    var r := PlaceMounts(ms, distances.values, ZipTail(pads, distances), prior);
    DistinctPlaced(ms, distances.values, ZipTail(pads, distances), prior);
    r
  }

  function SlabMounts(pads: seq<Pad>, m: nat): (ms: seq<Mount>)
    requires m <= |pads|
    ensures |ms| == m && forall k :: 0 <= k < m ==> ms[k] == Mount(pads[k], None, None)
  {
    seq(m, k requires 0 <= k < m => Mount(pads[k], None, None))
  }

  /** At distinct positions each mount is stored where it was placed. */
  lemma DistinctPlaced(ms: seq<Mount>, ds: seq<real>, tail: Tail, prior: MountMap)
    requires Wf(prior) && |ms| <= |ds|
    ensures var r := PlaceMounts(ms, ds, tail, prior);
            var xs := Positions(ds, |ms|);
            r.Ok? && Distinct(xs) ==> forall k :: 0 <= k < |ms| ==> Get(r.value.0, xs[k]) == ms[k]
  {
    var r := PlaceMounts(ms, ds, tail, prior);
    var xs := Positions(ds, |ms|);
    if r.Ok? && Distinct(xs) {
      forall k | 0 <= k < |ms| ensures Get(r.value.0, xs[k]) == ms[k] {
        DistinctLastAt(xs, k);
      }
    }
  }

  /** Arranged slab on a fresh map with positive distances: the first mount is at 0, positions
      strictly increase, one entry per zipped pair in order, l_track is the last position. */
  lemma ArrangedSlabLayout(pads: Gen<Pad>, distances: Gen<real>)
    requires ZipTail(pads, distances) == Stop && ZipCount(pads, distances) > 0
    requires forall k :: 0 <= k < |distances.values| ==> distances.values[k] > 0.0
    ensures var r := ArrangedSlabMountProp(pads, distances, []);
            var m := ZipCount(pads, distances);
            var xs := Positions(distances.values, m);
            && r.Ok?
            && xs[0] == 0.0
            && (forall i, j :: 0 <= i < j < m ==> xs[i] < xs[j])
            && |r.value.0| == m
            && (forall k :: 0 <= k < m ==> r.value.0[k] == Entry(xs[k], Mount(pads.values[k], None, None)))
            && r.value.1 == xs[m - 1]
  {
    var m := ZipCount(pads, distances);
    PlaceMountsLayout(SlabMounts(pads.values, m), distances.values);
  }

  /** ArrangedSlabSingleRailTrack(...): generate pads and distances for num_mount mounts,
      then calc_mount_prop on the fresh (empty) map. The slab argument is discarded. */
  function ArrangedSlabTrack(rail: Rail, pad: Arrangement<Pad>, slab: Slab,
                             distance: Arrangement<real>, numMount: int): (r: Result<Track>)
    requires ValidArrangement(pad) && ValidArrangement(distance)
    ensures r.Ok? ==> r.value.DiscrSlab? && r.value.slab == SharedSlab && r.value.rail == rail
    ensures r.Ok? ==> forall x :: x in Keys(r.value.mountProp) ==>
              FromItem(pad.item, Get(r.value.mountProp, x).pad)
    ensures numMount <= 0 ==> r == Raises(ValueError)
    ensures numMount >= 1 && Advances(pad.item) && Advances(distance.item) ==> r.Ok?
    ensures r.Ok? ==>
              var mp := ArrangedSlabMountProp(Generate(pad, numMount), Generate(distance, numMount), []);
              mp.Ok? && (r.value.mountProp, r.value.lTrack) == mp.value
  {
    ArrangedSlabOutcome(pad, distance, numMount);
    var mp :- ArrangedSlabMountProp(Generate(pad, numMount), Generate(distance, numMount), []);
    Ok(DiscrSlab(rail, SharedSlab, mp.0, mp.1))
  }

  /** calc_mount_prop over freshly generated pads and distances: max() of an empty dict for
      num_mount <= 0, success when both arrangements advance, pads from the pad arrangement. */
  lemma ArrangedSlabOutcome(pad: Arrangement<Pad>, distance: Arrangement<real>, numMount: int)
    requires ValidArrangement(pad) && ValidArrangement(distance)
    ensures var r := ArrangedSlabMountProp(Generate(pad, numMount), Generate(distance, numMount), []);
            && (numMount <= 0 ==> r == Raises(ValueError))
            && (numMount >= 1 && Advances(pad.item) && Advances(distance.item) ==> r.Ok?)
            && (r.Ok? ==> forall x :: x in Keys(r.value.0) ==> FromItem(pad.item, Get(r.value.0, x).pad))
  {
    var pads := Generate(pad, numMount);
    var dists := Generate(distance, numMount);
    var m := ZipCount(pads, dists);
    PlaceMountsFrom(SlabMounts(pads.values, m), dists.values, ZipTail(pads, dists),
                    (mt: Mount) => FromItem(pad.item, mt.pad));
  }

  /** zip(a, b, c) with strict=False: the number of triples it yields. */
  function ZipCount3<A, B, C>(a: Gen<A>, b: Gen<B>, c: Gen<C>): (m: nat)
    ensures m <= |a.values| && m <= |b.values| && m <= |c.values|
    ensures m == |a.values| || m == |b.values| || m == |c.values|
  {
    var ab := if |a.values| <= |b.values| then |a.values| else |b.values|;
    if ab <= |c.values| then ab else |c.values|
  }

  /** What zip(a, b, c) does after its last triple: it pulls a, then b, then c, so the first
      of them (in that order) that has run out decides. */
  function ZipTail3<A, B, C>(a: Gen<A>, b: Gen<B>, c: Gen<C>): Tail
  {
    var m := ZipCount3(a, b, c);
    if |a.values| == m then a.tail else if |b.values| == m then b.tail else c.tail
  }

  /** ArrangedBallastedSingleRailTrack.calc_mount_prop AS WRITTEN: `for s, p, b, d in zip(...)`
      over three generators. The first triple cannot be unpacked into four names, which raises
      ValueError before anything is stored; if the zip yields nothing, its tail decides and a
      normal end reaches max() over the old keys. */
  function ArrangedBallastedAsWritten(sleepers: Gen<Sleeper>, pads: Gen<Pad>, distances: Gen<real>,
                                      prior: MountMap): (r: Result<(MountMap, real)>)
    requires Wf(prior)
    ensures ZipCount3(sleepers, pads, distances) > 0 ==> r == Raises(ValueError)
    ensures r.Ok? ==> r.value.0 == prior && |prior| > 0
    ensures r.Ok? <==> ZipCount3(sleepers, pads, distances) == 0
                       && ZipTail3(sleepers, pads, distances) == Stop && |prior| > 0
  {
    if ZipCount3(sleepers, pads, distances) > 0 then Raises(ValueError)
    else
      match ZipTail3(sleepers, pads, distances)
      case Hang => Diverges
      case Raise(e) => Raises(e)
      case Stop =>
        var lTrack :- MaxKey(prior);
        Ok((prior, lTrack))
  }

  /** The as-written loop never produces a map on construction (fresh map): with any
      arrangement it raises, or hangs when a periodic arrangement has an empty list. */
  lemma ArrangedBallastedNeverBuilds(sleeper: Arrangement<Sleeper>, pad: Arrangement<Pad>,
                                     distance: Arrangement<real>, numMount: int)
    requires ValidArrangement(sleeper) && ValidArrangement(pad) && ValidArrangement(distance)
    ensures var r := ArrangedBallastedAsWritten(Generate(sleeper, numMount), Generate(pad, numMount),
                                                 Generate(distance, numMount), []);
            && !r.Ok?
            && (numMount >= 1 && Advances(sleeper.item) && Advances(pad.item) && Advances(distance.item)
                ==> r == Raises(ValueError))
  {
  }

  /** The evidently intended loop, `for s, p, d in zip(sleepers, pads, distances)` storing
      (p, s, ballast): mounts as in the slab case, with the sleeper and the track's ballast. */
  function ArrangedBallastedMountProp(sleepers: Gen<Sleeper>, pads: Gen<Pad>, distances: Gen<real>,
                                      ballast: Ballast, prior: MountMap): (r: Result<(MountMap, real)>)
    requires Wf(prior)
    ensures ZipTail3(sleepers, pads, distances) == Hang ==> r == Diverges
    ensures ZipTail3(sleepers, pads, distances).Raise? ==>
              r == Raises(ZipTail3(sleepers, pads, distances).error)
    ensures ZipTail3(sleepers, pads, distances) == Stop ==>
              (r.Ok? <==> ZipCount3(sleepers, pads, distances) > 0 || |prior| > 0)
    ensures r.Ok? ==>
              var m := ZipCount3(sleepers, pads, distances);
              var xs := Positions(distances.values, m);
              && Wf(r.value.0)
              && Keys(r.value.0) == Keys(prior) + Elems(xs)
              && (Distinct(xs) ==> forall k :: 0 <= k < m ==>
                    Get(r.value.0, xs[k]) == Mount(pads.values[k], Some(sleepers.values[k]), Some(ballast)))
              && r.value.1 in Keys(r.value.0)
              && forall x :: x in Keys(r.value.0) ==> x <= r.value.1
  {
    var m := ZipCount3(sleepers, pads, distances);
    var ms := BallastedMounts(sleepers.values, pads.values, ballast, m);
    var tail := ZipTail3(sleepers, pads, distances);
    DistinctPlaced(ms, distances.values, tail, prior);
    PlaceMounts(ms, distances.values, tail, prior)
  }

  function BallastedMounts(sleepers: seq<Sleeper>, pads: seq<Pad>, ballast: Ballast, m: nat)
    : (ms: seq<Mount>)
    requires m <= |sleepers| && m <= |pads|
    ensures |ms| == m
    ensures forall k :: 0 <= k < m ==> ms[k] == Mount(pads[k], Some(sleepers[k]), Some(ballast))
  {
    seq(m, k requires 0 <= k < m => Mount(pads[k], Some(sleepers[k]), Some(ballast)))
  }

  /** Intended arranged ballasted loop on a fresh map with positive distances: one entry per
      zipped triple in order, strictly increasing from 0, l_track the last position. */
  lemma ArrangedBallastedLayout(sleepers: Gen<Sleeper>, pads: Gen<Pad>, distances: Gen<real>,
                                ballast: Ballast)
    requires ZipTail3(sleepers, pads, distances) == Stop && ZipCount3(sleepers, pads, distances) > 0
    requires forall k :: 0 <= k < |distances.values| ==> distances.values[k] > 0.0
    ensures var r := ArrangedBallastedMountProp(sleepers, pads, distances, ballast, []);
            var m := ZipCount3(sleepers, pads, distances);
            var xs := Positions(distances.values, m);
            && r.Ok?
            && xs[0] == 0.0
            && (forall i, j :: 0 <= i < j < m ==> xs[i] < xs[j])
            && |r.value.0| == m
            && (forall k :: 0 <= k < m ==>
                  r.value.0[k] == Entry(xs[k], Mount(pads.values[k], Some(sleepers.values[k]), Some(ballast))))
            && r.value.1 == xs[m - 1]
  {
    var m := ZipCount3(sleepers, pads, distances);
    PlaceMountsLayout(BallastedMounts(sleepers.values, pads.values, ballast, m), distances.values);
  }

  /** ArrangedBallastedSingleRailTrack(...) with the intended loop, on a fresh map. */
  function ArrangedBallastedTrack(rail: Rail, pad: Arrangement<Pad>, sleeper: Arrangement<Sleeper>,
                                  ballast: Ballast, distance: Arrangement<real>, numMount: int)
    : (r: Result<Track>)
    requires ValidArrangement(pad) && ValidArrangement(sleeper) && ValidArrangement(distance)
    ensures r.Ok? ==> r.value.DiscrBallasted? && r.value.ballast == ballast && r.value.rail == rail
    ensures r.Ok? ==> forall x :: x in Keys(r.value.mountProp) ==>
              var mt := Get(r.value.mountProp, x);
              && FromItem(pad.item, mt.pad)
              && mt.sleeper.Some? && FromItem(sleeper.item, mt.sleeper.value)
              && mt.ballast == Some(ballast)
    ensures numMount <= 0 ==> r == Raises(ValueError)
    ensures numMount >= 1 && Advances(pad.item) && Advances(sleeper.item) && Advances(distance.item) ==> r.Ok?
    ensures r.Ok? ==>
              var mp := ArrangedBallastedMountProp(Generate(sleeper, numMount), Generate(pad, numMount),
                                                   Generate(distance, numMount), ballast, []);
              mp.Ok? && (r.value.mountProp, r.value.lTrack) == mp.value
  {
    ArrangedBallastedOutcome(pad, sleeper, ballast, distance, numMount);
    var mp :- ArrangedBallastedMountProp(Generate(sleeper, numMount), Generate(pad, numMount),
                                         Generate(distance, numMount), ballast, []);
    Ok(DiscrBallasted(rail, ballast, mp.0, mp.1))
  }

  /** The intended calc_mount_prop over freshly generated sleepers, pads and distances:
      max() of an empty dict for num_mount <= 0, success when all three arrangements advance,
      every mount built from the arrangements and the track's ballast. */
  lemma ArrangedBallastedOutcome(pad: Arrangement<Pad>, sleeper: Arrangement<Sleeper>,
                                 ballast: Ballast, distance: Arrangement<real>, numMount: int)
    requires ValidArrangement(pad) && ValidArrangement(sleeper) && ValidArrangement(distance)
    ensures var r := ArrangedBallastedMountProp(Generate(sleeper, numMount), Generate(pad, numMount),
                                                Generate(distance, numMount), ballast, []);
            && (numMount <= 0 ==> r == Raises(ValueError))
            && ((numMount >= 1 && Advances(pad.item) && Advances(sleeper.item) && Advances(distance.item))
                ==> r.Ok?)
            && (r.Ok? ==> forall x :: x in Keys(r.value.0) ==>
                  var mt := Get(r.value.0, x);
                  && FromItem(pad.item, mt.pad)
                  && mt.sleeper.Some? && FromItem(sleeper.item, mt.sleeper.value)
                  && mt.ballast == Some(ballast))
  {
    var sleepers := Generate(sleeper, numMount);
    var pads := Generate(pad, numMount);
    var dists := Generate(distance, numMount);
    var m := ZipCount3(sleepers, pads, dists);
    PlaceMountsFrom(BallastedMounts(sleepers.values, pads.values, ballast, m), dists.values,
                    ZipTail3(sleepers, pads, dists),
                    (mt: Mount) => FromItem(pad.item, mt.pad) && mt.sleeper.Some?
                          && FromItem(sleeper.item, mt.sleeper.value) && mt.ballast == Some(ballast));
  }

  /** SimplePeriodicSlabSingleRailTrack(...): the shared rigid slab, mounts at i*distance. */
  function SimplePeriodicSlabTrack(rail: Rail, pad: Pad, slab: Slab, distance: real, numMount: int)
    : (r: Result<Track>)
    ensures r.Ok? <==> numMount >= 1
    ensures r.Ok? ==> r.value.DiscrSlab? && r.value.slab == SharedSlab && r.value.rail == rail
    ensures r.Ok? ==> Keys(r.value.mountProp) == Elems(Uniform(distance, numMount))
    ensures r.Ok? ==> forall x :: x in Keys(r.value.mountProp) ==> Get(r.value.mountProp, x) == Mount(pad, None, None)
    ensures r.Ok? ==> r.value.lTrack in Keys(r.value.mountProp)
                      && forall x :: x in Keys(r.value.mountProp) ==> x <= r.value.lTrack
    ensures r.Ok? && distance >= 0.0 ==> r.value.lTrack == (numMount - 1) as real * distance
  {
    var mp :- SimplePeriodicSlabMountProp(pad, distance, numMount, []);
    Ok(DiscrSlab(rail, SharedSlab, mp.0, mp.1))
  }

  /** SimplePeriodicBallastedSingleRailTrack(...) on a fresh map. */
  function SimplePeriodicBallastedTrack(rail: Rail, pad: Pad, sleeper: Sleeper, ballast: Ballast,
                                        distance: real, numMount: int): (r: Result<Track>)
    ensures r.Ok? <==> numMount >= 1
    ensures r.Ok? ==> r.value.DiscrBallasted? && r.value.ballast == ballast && r.value.rail == rail
    ensures r.Ok? ==> Keys(r.value.mountProp) == Elems(Uniform(distance, numMount))
    ensures r.Ok? ==> forall x :: x in Keys(r.value.mountProp) ==>
              Get(r.value.mountProp, x) == Mount(pad, Some(sleeper), Some(ballast))
    ensures r.Ok? ==> r.value.lTrack in Keys(r.value.mountProp)
                      && forall x :: x in Keys(r.value.mountProp) ==> x <= r.value.lTrack
    ensures r.Ok? && distance >= 0.0 ==> r.value.lTrack == (numMount - 1) as real * distance
  {
    var mp :- SimplePeriodicBallastedMountProp(pad, sleeper, ballast, distance, numMount, []);
    if distance >= 0.0 then
      UniformMax(distance, numMount, mp.1);
      Ok(DiscrBallasted(rail, ballast, mp.0, mp.1))
    else Ok(DiscrBallasted(rail, ballast, mp.0, mp.1))
  }

  /** ContSlabSingleRailTrack(...): continuous pad on the shared rigid slab; the slab argument
      is discarded. */
  function ContSlabTrack(rail: Rail, pad: Pad, slab: Slab, lTrack: real): (t: Track)
    ensures t.ContSlab? && t.slab == SharedSlab && t.pad == pad && t.lTrack == lTrack && t.rail == rail
  {
    ContSlab(rail, pad, SharedSlab, lTrack)
  }
}

